=== FILE: README.md ===
# fluentpy: a Dafny model of its core

fluentpy wraps Python objects so that every method call returns another
wrapper, which lets expressions be chained ("fluent" style). This project
models the parts of the library that carry its own logic. Everything else
(the Python objects, their attributes and their operators) is abstract.

- **Dispatch** (`fluentpy/wrapper.py`, `wrap`). `wrap` picks the wrapper class
  by the first match in a fixed order: module, text, mapping, set, iterable,
  callable, else plain. An object is a record of capability flags.
- **Chain** (`Wrapper.__init__`, `previous`, `self`, `CallableWrapper.__call__`,
  the `wrapped` decorator). Wrappers are immutable nodes: an optional value, a
  kind, and the wrapper they were reached from. `.self` skips back over a
  called method, so a method that returns `None` still cascades to its
  receiver.
- **Curry** (`CallableWrapper.curry.merge_arguments`). Templates mix literals,
  the hole `_`, the reordering placeholders `_0`..`_9` and the splat `_args`.
  The merge is modelled as the two loops the code runs, over a generic value
  type `V`; `pack` builds the tuple a splat contributes.
- **CurrySpec.** A declarative reading of the merge, independent of its
  loops, and lemmas that the loops compute it. The reading covers:
  - which entries fit;
  - what each entry resolves to;
  - which error the first misfit raises;
  - where the leftover arguments start;
  - how `dict(default_kwargs, **actual_kwargs)` orders and overrides keys:
    curried names first in their places, then the new call-time names in
    the order they were first passed.
- **Dict.** Python `dict` on string keys, as an insertion-ordered list of
  pairs: update in place or append, and `dict(a, **b)`.
- **Each** (`EachWrapper`). A builder is a sequence of stages: attribute,
  item, call, `in_`, `not_in`.
  - Its function is the fold of `compose`, proved equal to a left-to-right
    run of the stages.
  - Its `repr` is the fold of the stage names.
  - An `operator` dunder ends the chain with a plain function.
  - The host's `getattr`, `getitem`, `call`, `None` test, `__contains__`
    lookup, `in` test, operators and `repr` are parameters.
  - The attribute, item and call stages wrap their object first, so they
    refuse `None` with "Cannot chain off of None".
- **Iterables.** `chunkify`/`ireshape`, `iflatten` (with `math.inf` as `None`),
  `igrouped`, and the receiver splice of `wrapped`.
- **Legacy** (`fluentpy.py`). The older single-module variant:
  - `wrap` with an explicit `chain` for wrappers of `None`;
  - `.self`, `tee` and `Callable.__call__`;
  - the simpler `merge_args`, where the splat is spliced inline and unclaimed
    arguments are dropped;
  - `Each`, built from `operator` functions.
- **Examples.** Concrete cases of `fluent_test.py` (curry, each, grouped,
  flatten, reshape) stated as lemmas about the model.

Where the library's own prose and its code differ, the model follows the code:

- The curry docstring says extra actual arguments are appended. The code
  appends only those after the largest index any placeholder read, so unused
  arguments below that index are dropped (`CurrySpec.MergeResult`,
  `Examples.CurryDropsBelowLargestIndex`).
- A keyword `_args` may be followed by keyword literals. Only placeholders
  after it are refused (`fluentpy/wrapper.py:421-424`).
- `CallableWrapper.__call__` passes its arguments on as they are. Wrapped
  arguments are not unwrapped.

## Model

| member | source | states |
|---|---|---|
| Dispatch.Classify | fluentpy/wrapper.py:37-50 | the chosen kind is admitted by the object's capabilities and comes no later in the fixed order than any other admitted kind |
| Dispatch.ClassifyIsUnique | fluentpy/wrapper.py:46-50 | first-match is a specification: any admitted kind that is first in the order is the one `wrap` picks |
| Dispatch.MappingBeatsIterable | fluentpy/wrapper.py:37-44 | a mapping that is not a module or text is wrapped as a mapping even though it is iterable |
| Dispatch.TextBeatsIterable | fluentpy/wrapper.py:37-44 | a string is wrapped as text even though it is iterable |
| Dispatch.IterableBeatsCallable | fluentpy/wrapper.py:37-44 | an iterable callable that is neither module, text, mapping nor set is wrapped as an iterable |
| Chain.KindOf | fluentpy/wrapper.py:46-50 | the kind of a wrapped value is admitted by its capabilities and comes no later in the dispatch order than any other admitted kind; `None` gets a plain wrapper |
| Chain.Wrap | fluentpy/wrapper.py:20-50 | an existing wrapper comes back unchanged; a raw value is wrapped with the first kind in the dispatch order its capabilities admit and with the given previous; wrapping `None` succeeds exactly when there is a previous wrapper, otherwise it fails with "Cannot chain off of None" (140-146) |
| Chain.Forward | fluentpy/wrapper.py:64-77 | the result of a forwarded method is wrapped with the receiver's wrapper as previous, and a result that is already a wrapper is kept |
| Chain.Call | fluentpy/wrapper.py:365-368 | calling succeeds exactly on callable wrappers, and a raw result is wrapped with the called wrapper as previous |
| Chain.CascadeLaw | fluentpy/wrapper.py:196-218 | after fetching a method and calling it, `.self` is the receiver again, whatever the call returned (including `None`) |
| Chain.SelfAfterHelper | fluentpy/wrapper.py:215-218 | after a forwarded helper on a non-callable wrapper, `.self` is that wrapper |
| Chain.SelfAfterHelperOnCallable | fluentpy/wrapper.py:215-216 | after a forwarded helper on a callable wrapper, `.self` skips two levels back, to the callable's previous |
| Chain.NoneNeedsPrevious | fluentpy/wrapper.py:140-143 | without a previous wrapper, exactly the non-`None` values can be wrapped |
| CurrySpec.StepSpec | fluentpy/wrapper.py:411-445 | one template entry fits exactly when its index is below the argument count (holes and `_k`) or a splat stands last; it then resolves to its literal, `args[cursor]`, `args[k]` or the packed `args[cursor:]`, otherwise it raises the entry's error |
| CurrySpec.StepAt | fluentpy/wrapper.py:426-464 | a step of either loop keeps the cursor invariant: the placeholder count so far and the indexes read so far |
| CurrySpec.ReadBoundIsLeast | fluentpy/wrapper.py:466 | the leftover start is one past the largest argument index any entry read: every read index lies below it, and it is attained |
| CurrySpec.ReadsEndIsLeast | fluentpy/wrapper.py:433-443 | the same bound for a single entry's reads |
| CurrySpec.MaxUsedIsMax | fluentpy/wrapper.py:466 | `max(used, default=-1)` bounds every consumed index and is one of them when any was consumed |
| CurrySpec.MaxUsedConcat | fluentpy/wrapper.py:466 | `max(used, default=-1)` of a union is the larger of the two maxima |
| CurrySpec.MaxUsedRange | fluentpy/wrapper.py:442 | the largest index a splat marks used is the last argument index, or none when no argument is left |
| CurrySpec.PositionalPassSpec | fluentpy/wrapper.py:426-445 | the positional loop succeeds exactly when every positional entry fits; it then yields each entry's resolved value in order, otherwise it fails with the error of the first entry that does not fit |
| CurrySpec.KeywordPassSpec | fluentpy/wrapper.py:447-464 | the same for the keyword loop, which continues the cursor where the positional loop left it |
| CurrySpec.PassesSpec | fluentpy/wrapper.py:426-464 | both loops together succeed exactly when every entry of the positional and keyword templates fits, and otherwise fail with the first misfit's error |
| CurrySpec.LiftLastValue | fluentpy/wrapper.py:409 | a call-time keyword enters the merged template as a literal holding its last value |
| CurrySpec.LiftHasKey | fluentpy/wrapper.py:409 | lifting call-time keywords keeps the same set of names |
| CurrySpec.MergedKeywordsSpec | fluentpy/wrapper.py:409 | `dict(default_kwargs, **actual_kwargs)` has unique names, exactly the names of either side, a call-time value overriding the curried one, and the curried entry otherwise |
| CurrySpec.MergedKeywordsOrder | fluentpy/wrapper.py:409 | curried keyword names keep their positions at the front of the merged keywords; every later name is a call-time name the template lacks, and they follow in the order of their first occurrence among the call-time keywords |
| CurrySpec.MergeSucceedsIff | fluentpy/wrapper.py:404-467 | the merge succeeds exactly when every positional and keyword entry fits; otherwise it raises the error of the first that does not |
| CurrySpec.MergeParts | fluentpy/wrapper.py:426-471 | a successful merge is the positional values followed by the arguments after the largest used index, with the keyword values under the template's names in order |
| CurrySpec.MergeResult | fluentpy/wrapper.py:404-471 | on success each template position holds its entry's resolved value, the arguments after the largest read index are appended, and every keyword holds its resolved value under its name |
| Dict.FromPairs | fluentpy/wrapper.py:409 | building a dict from pairs keeps unique keys, exactly the keys given, and the last value given for each |
| Dict.StoreSpec | fluentpy/wrapper.py:409 | after storing, the key holds the new value, every other key keeps its old value (or stays absent), the keys are the old ones plus the stored one, and unique keys stay unique |
| Dict.StoreOtherKey | fluentpy/wrapper.py:409 | storing one key leaves every other key's value unchanged |
| Dict.FromPairsOfDict | fluentpy/wrapper.py:409 | rebuilding a dict from its own pairs gives the same dict |
| Dict.MergeKeepsPositions | fluentpy/wrapper.py:409 | `dict(a, **b)` keeps the keys of `a` in their positions |
| Dict.MergeAppendsNewKeys | fluentpy/wrapper.py:409 | past the keys of `a`, `dict(a, **b)` holds only keys of `b` that `a` lacks, ordered by their first occurrence in `b` |
| Dict.MergeOverrides | fluentpy/wrapper.py:409 | in `dict(a, **b)` a key of `b` takes `b`'s value, and a key only in `a` keeps `a`'s |
| Dict.LastValueOfConcat | fluentpy/wrapper.py:409 | the last value of a key in `a + b` comes from `b` when `b` has the key, and from `a` otherwise |
| Each.AttrStage | fluentpy/wrapper.py:863-871 | for a name the class does not define, `each.<name>` is a new builder whose function runs the earlier stages and then answers the item on a mapping holding the key (739-744) and the attribute otherwise, failing when an earlier stage failed and with "Cannot chain off of None" on `None` (142-143); its name gains `.<name>` |
| Each.DenoteIsRun | fluentpy/wrapper.py:481-487 | the builder's composed function equals running its stages left to right, stopping at the first failure |
| Each.RunSnoc | fluentpy/wrapper.py:863-889 | running one more stage runs the earlier ones and then that stage on their result |
| Each.RunConcat | fluentpy/wrapper.py:481-487 | running two stage lists in a row is running the first and then the second on its result |
| Each.ReprShape | fluentpy/wrapper.py:824-826 | the repr is exactly `fluentpy.wrap(`, then the builder's name, then `)` |
| Each.NameStartsWithEach | fluentpy/wrapper.py:891-892 | every builder's name starts with `each` |
| Each.NameSnoc | fluentpy/wrapper.py:843-889 | a further stage appends its own suffix to the name |
| Each.NameExtends | fluentpy/wrapper.py:843-889 | names only grow: the name of a builder is a prefix of the name of any builder made from it |
| Each.GetAttr | fluentpy/wrapper.py:863-871 | attribute access yields the builder's own member exactly for the names the class body (with the corrected reflected list) or its bases define, and otherwise a new builder with one attribute stage more |
| Each.GetAttrWith | fluentpy/wrapper.py:838-840 | the same lookup for a class body whose loop defines a given list of reflected names: own member exactly for those names, the body's other names and the inherited ones |
| Each.ClassBodyShadows | fluentpy/wrapper.py:820-889 | with the corrected reflected list, the class body's own names (the reflected operators, `__getattr__`, `__call__`, ...) are found before `__getattr__`, while any other name builds an attribute stage |
| Each.ClassBodyAsWritten | fluentpy/wrapper.py:795 | as written, `each.__ror__` falls through to `__getattr__` and builds an attribute stage, and `each.__ror_` is an own method; the corrected body finds `__ror__` as its own |
| Each.ItemStage | fluentpy/wrapper.py:873-880 | `each[key]` is a builder whose function indexes the result of the earlier stages by `key` (failing when they failed, and on `None` with "Cannot chain off of None"); its name gains `[repr(key)]` |
| Each.CallStage | fluentpy/wrapper.py:882-889 | `each(*args, **kwargs)` is a builder whose function calls the result of the earlier stages with those arguments, failing when they failed, on `None` ("Cannot chain off of None") and when that result is not callable; its name gains `(*args, **kwargs)` in repr form |
| Each.InStage | fluentpy/wrapper.py:843-848 | `each.in_(h)` fails when it is built exactly when `h` has no `__contains__`; otherwise its function returns what `h.__contains__` answers for the result of the earlier stages, as that method returns it; its name gains ` in repr(h)` |
| Each.NotInStage | fluentpy/wrapper.py:850-857 | `each.not_in(h)` is a builder whose function answers the negation of Python's `in` test (through `__contains__` or iteration) for the result of the earlier stages; its name gains ` not in repr(h)` |
| Each.StageExtends | fluentpy/wrapper.py:863-889 | one more stage runs the earlier stages, stops at their failure, and otherwise applies the stage to their result; the name gains the stage's rendering |
| Each.ExtendComposes | fluentpy/wrapper.py:481-487 | extending a builder by a stage composes that stage's function after the builder's function, and appends its name |
| Each.RootIsIdentity | fluentpy/wrapper.py:891-892 | the root `each` unwraps to the identity and prints as `fluentpy.wrap(each)` |
| Each.InNotInComplement | fluentpy/wrapper.py:843-857 | when the haystack has a `__contains__` that answers the `in` test as a bool, `in_` and `not_in` answer complementary booleans |
| Each.CallNeedsCallable | fluentpy/wrapper.py:882-889 | a call stage fails exactly when the object reached is `None` or not callable, and on `None` with "Cannot chain off of None" |
| Each.OperatorTerminates | fluentpy/wrapper.py:783-790 | an operator ends the chain in the plain function `x -> op(f(x), *others)` |
| Each.ReflectedIn | fluentpy/wrapper.py:798-804 | a reflected operator exists exactly for the names in the list |
| Each.Reflected | fluentpy/wrapper.py:838-840 | with the corrected list, a reflected operator exists exactly for the corrected names |
| Each.ReflectedTerminates | fluentpy/wrapper.py:798-804 | `other <op> builder` is the plain function that calls the reflected method of `f(x)` with `other` |
| Each.ReflectedOrIsMissing | fluentpy/wrapper.py:792-796 | as written, `__ror__` is not in the list while `__rand__` is, because the last entry is not a dunder name |
| Each.ReflectedNamesAreDunders | fluentpy/wrapper.py:792-796 | with the closing underscore restored, every name is a dunder and `__ror__`, `__rand__` and `__rxor__` all exist |
| Iterables.ConcatAppend | fluentpy/wrapper.py:666-675 | concatenating two chunk lists is concatenating their concatenations |
| Iterables.Chunks | fluentpy/wrapper.py:666-675 | the chunks are in order, not empty, all of the chunk size but a shorter last one, and concatenate back to the input |
| Iterables.ChunkingIsUnique | fluentpy/wrapper.py:666-675 | any chunking with those properties is the one `chunkify` yields |
| Iterables.Chunkify | fluentpy/wrapper.py:666-675 | the collector loop fails exactly for a chunk size below 1, and otherwise yields the unique chunking |
| Iterables.Reshape | fluentpy/wrapper.py:644-683 | reshaping fails exactly when some level of the spec is below 1 |
| Iterables.ReshapeThenFlatten | fluentpy/wrapper.py:643-683 | for a valid spec, flattening as many levels as the spec has gives back the input |
| Iterables.FlattenWith | fluentpy/wrapper.py:629-641 | at level 0 the elements pass through unchanged |
| Iterables.StopOnlyAtTop | fluentpy/wrapper.py:637-641 | `stop_at_types` decides only for top-level elements: an element it does not keep whole is flattened one level down with the default types, whatever the caller's types |
| Iterables.InnerStopIgnored | fluentpy/wrapper.py:637-641 | an inner tuple that the caller's `stop_at_types` would keep whole is flattened anyway |
| Iterables.DefaultStop | fluentpy/wrapper.py:629-641 | with `stop_at_types=(str, bytes)` the general flatten agrees with the recursive definition that never splits strings |
| Iterables.FlattenLevelZero | fluentpy/wrapper.py:636-641 | at level 0 nothing changes |
| Iterables.FlattenAppend | fluentpy/wrapper.py:636-641 | flattening works element by element: it distributes over concatenation |
| Iterables.FlattenUnlimited | fluentpy/wrapper.py:629-641 | flattening with `math.inf` yields exactly the leaves in order, and no list remains |
| Iterables.FlattenLevels | fluentpy/wrapper.py:636-641 | flattening by `a` levels and then by `b` levels is flattening by `a + b` levels |
| Iterables.FlattenSingle | fluentpy/wrapper.py:636-641 | a single element is spliced recursively one level down when the level is positive and it is a non-string iterable, and kept whole otherwise |
| Iterables.FlattenTuples | fluentpy/wrapper.py:629-683 | one level of flattening undoes one level of chunking |
| Iterables.GroupedIsFullChunks | fluentpy/wrapper.py:618-624 | `zip(*[iter(xs)] * n)` yields the chunks of size `n` without a short last one |
| Iterables.GroupedCoversPrefix | fluentpy/wrapper.py:618-624 | the groups all have size `n` and cover a prefix of the input that is less than one group short |
| Iterables.Splice | fluentpy/wrapper.py:73 | the receiver sits at `self_index`, clamped to the argument count, and removing it gives back the arguments |
| Legacy.Resolve | fluentpy.py:176-182 | `.self.unwrap` is never `None`: it is the value, or the chain when the value is `None` |
| Legacy.LegacyWrap | fluentpy.py:19-62 | an existing wrapper comes back unchanged; wrapping fails exactly when value, chain and previous are all missing; a `None` without a chain inherits `previous.self.unwrap`, and the kind is decided by the chain when the value is `None` |
| Legacy.LSelf | fluentpy.py:176-182 | `.self` wraps the resolved value with this wrapper as previous, and its kind is the resolved value's kind |
| Legacy.LForward | fluentpy.py:74-87 | a forwarded result is wrapped with the receiver as previous, and a `None` result still resolves to the receiver's value |
| Legacy.LegacyCall | fluentpy.py:287-292 | a call succeeds exactly on a callable wrapper whose value is not `None` (a `Callable` chosen by its chain calls `None` and fails); a `None` result then resolves to the value of the wrapper before the callable |
| Legacy.LegacyCascade | fluentpy.py:287-292 | after fetching a method and calling it for `None`, `.self` is the receiver's value |
| Legacy.NothingToChainOff | fluentpy.py:142-146 | `None` with no chain and no previous is refused with "Cannot chain off of None" |
| Legacy.TeeIsTransparent | fluentpy.py:229-235 | chaining after `tee` (`.self`, a forwarded access, a call) gives what it gives without `tee`, and the function was called once more, with that wrapper |
| Legacy.Curried | fluentpy.py:347-351 | the curried call succeeds exactly when every entry can be resolved, then passes the merged pieces in order, otherwise raises the merge error; its keywords are unique, exactly those of either side, a call-time value overriding a curried default and an un-overridden default keeping its value |
| Legacy.PassSpec | fluentpy.py:327-345 | the loop from any entry on succeeds exactly when every remaining entry can be resolved, yields the pieces of those entries in order, and otherwise raises the first misfit's error |
| Legacy.MergeArgsSpec | fluentpy.py:322-345 | `merge_args` succeeds exactly when every entry can be resolved; it then yields the pieces in order, with the splat's arguments spliced inline, and otherwise raises the first misfit's error |
| Legacy.PiecesWithoutSplat | fluentpy.py:327-345 | without a splat each entry contributes one argument, and extra actual arguments change nothing |
| Legacy.ExtraArgumentsDropped | fluentpy.py:327-345 | without `_args` the result has one argument per template entry, and unclaimed actual arguments are dropped |
| Legacy.NeedExceedsGot | fluentpy.py:322-326 | with the message corrected, "Need at least n, got m" always has `n > m` and `m` the argument count |
| Legacy.NeedAsWrittenCanUnderstate | fluentpy.py:322-326 | as written, `curry(_, _)('foo')` reports "Need at least 1, got 1" and `curry(_._3)('foo')` reports "Need at least 0, got 1" |
| Legacy.OperatorMergeOne | fluentpy.py:509-510 | curry with `(wrap, *others)` has no splat, and one argument fills the hole and is followed by the others |
| Legacy.OperatorMergeNone | fluentpy.py:509-510 | with no argument the hole cannot be filled: the merge needs one argument and got none |
| Legacy.OperatorMergeLength | fluentpy.py:509-510 | a successful merge for an operator function yields exactly one more argument than the curried others, so the operator always has a first operand |
| Legacy.OperatorMergeNoneAsWritten | fluentpy.py:322-334 | as written, the no-argument call of an operator function reports "Need at least 0, got 0" |
| Legacy.OperatorApplies | fluentpy.py:506-511 | an operator function applies the operator to its first argument and the curried others, ignores further arguments, and fails without one |
| Legacy.EachAttr | fluentpy.py:527-548 | `each.call` gives a method-caller constructor with no name yet; a name the class defines is its own attribute; any other name gives `attrgetter(name)` |
| Legacy.EachAttrAsWritten | fluentpy.py:522-528 | as written, `name` is also a class attribute, so `each.name` is not an attrgetter; every other name is looked up as by `EachAttr` |
| Legacy.LoopNameLeaks | fluentpy.py:522-528 | `each.name` is the leaked class attribute as written, and `attrgetter('name')` as intended |
| Legacy.EachItem | fluentpy.py:530-531 | `each[key]` is the itemgetter of that key |
| Legacy.EachFunctions | fluentpy.py:527-546 | `each.name(x)` is `x.name`, `each[key](x)` is `x[key]`, and `each.call.name(*args, **kwargs)(x)` is `x.name(*args, **kwargs)` |
| Legacy.CallerCall | fluentpy.py:543-546 | calling the constructor fails exactly when no method name was accessed, and otherwise gives the methodcaller of that name with the call's arguments |
| Legacy.MethodCallerUsesLastName | fluentpy.py:534-548 | `each.call.a.b(args)` calls method `b` (the last name accessed), and `each.call(args)` fails |
| Examples.CurryLiteralsOnly | fluent_test.py:127 | `curry(2, 3)()` calls with `(2, 3)` |
| Examples.CurryHoleThenLiteral | fluent_test.py:131 | `curry(_, 'foo')('bar')` calls with `('bar', 'foo')` |
| Examples.CurryHolesAroundLiteral | fluent_test.py:132 | `curry(_, 'baz', _)('foo', 'bar')` calls with `('foo', 'baz', 'bar')` |
| Examples.CurryAppendsLeftovers | fluent_test.py:135 | `curry(_, 'bar')('foo', 'baz')` appends the unclaimed `'baz'` |
| Examples.CurryKeywordLiterals | fluent_test.py:139 | a keyword template of literals only, `x=0, y=1`, is passed on as it is |
| Examples.CurryKeywordHole | fluent_test.py:140 | `curry(x=_, y=1)(0)` calls with `x=0, y=1` |
| Examples.CurryHoleAndKeywordHole | fluent_test.py:143 | `curry(_, y=_)(1, 2)` calls with `(1,)` and `y=2` |
| Examples.CurrySwaps | fluent_test.py:153 | `curry(_._1, _._0)('foo', 'bar')` calls with `('bar', 'foo')` |
| Examples.CurryReorders | fluent_test.py:154 | `curry(_._1, 'baz', _._0)('foo', 'bar')` calls with `('bar', 'baz', 'foo')` |
| Examples.CurryMissingHole | fluent_test.py:157 | `curry(_, _)('foo')` fails needing 2 arguments, given 1 |
| Examples.CurryMissingIndex | fluent_test.py:158-163 | `curry(_._1)` with one argument fails needing 2, given 1 |
| Examples.CurrySplatAfterLiteral | fluent_test.py:167 | `curry(1, _._args)(2, 3)` calls with `(1, (2, 3))` |
| Examples.CurryEmptySplat | fluent_test.py:168 | `curry(1, _._args)()` calls with `(1, ())` |
| Examples.CurrySplatAfterLiterals | fluent_test.py:169 | `curry(1, 2, _._args)(3)` calls with `(1, 2, (3,))` |
| Examples.CurrySplatAfterHole | fluent_test.py:170 | `curry(_, _._args)(1, 2, 3)` calls with `(1, (2, 3))` |
| Examples.CurrySplatAfterIndex | fluent_test.py:171-173 | `curry(_._1, _._args)(1, 2, 3)` calls with `(2, (2, 3))`: the splat starts at the placeholder count |
| Examples.CurrySplatAlone | fluent_test.py:174 | `curry(_._args)(1, 2, 3)` calls with `((1, 2, 3),)` |
| Examples.CurryKeywordSplat | fluent_test.py:175 | `curry(x=_._args)(1, 2, 3)` calls with `x=(1, 2, 3)` |
| Examples.CurrySplatFirst | fluent_test.py:177-181 | `curry(_._args, _)` is refused because `_args` is not last |
| Examples.CurrySplatBeforeKeywordHole | fluent_test.py:183-185 | `curry(_._args, y=_)` is refused |
| Examples.CurryKeywordSplatBeforeHole | fluent_test.py:186-188 | `curry(x=_._args, y=_)` is refused |
| Examples.CurryOuterCurry | fluent_test.py:192 | the outer `curry('foo', _)` applied to `('baz',)` passes `('foo', 'baz')` on |
| Examples.CurryInnerCurry | fluent_test.py:192 | the inner `curry(_, 'bar', _)` applied to `('foo', 'baz')` calls with `('foo', 'bar', 'baz')` |
| Examples.CurryAppliedTwice | fluent_test.py:191-192 | currying a curried function composes the two merges |
| Examples.CurryPassesSurplus | fluent_test.py:196-197 | `curry(3)(2)` passes the surplus `2` on |
| Examples.CurryIndexIgnoresEarlier | fluent_test.py:201-202 | `curry(_._2)(1, 2, 3)` calls with `(3,)` |
| Examples.CurryDropsBelowLargestIndex | fluent_test.py:201-204 | `curry(_._2)(1, 2, 3, 4)` calls with `(3, 4)`, dropping the first two arguments |
| Examples.KeywordOverride | fluent_test.py:139 | merging `x=0` into `x=_, y=1` replaces the hole and keeps `y` |
| Examples.CurryKeywordByName | fluent_test.py:138-139 | `curry(x=_, y=1)(x=0)` calls with `x=0, y=1` |
| Examples.EachItemName | fluent_test.py:565 | `repr(each['foo'])` is `fluentpy.wrap(each['foo'])` |
| Examples.EachAttrName | fluent_test.py:566 | `each.foo` is a new builder printed as `fluentpy.wrap(each.foo)` |
| Examples.EachAttrItemName | fluent_test.py:569 | `repr(each.foo['bar'])` is `fluentpy.wrap(each.foo['bar'])` |
| Examples.EachCallName | fluent_test.py:567 | `repr(each.foo('bar', baz='quoox'))` is `fluentpy.wrap(each.foo(*(` repr of `'bar'` `,), **{` repr of `'baz'` `: ` repr of `'quoox'` `}))` |
| Examples.EachInName | fluent_test.py:571 | `repr(each.in_([1, 2]))` is `fluentpy.wrap(each in [1, 2])` |
| Examples.EachNotInName | fluent_test.py:572 | `repr(each.not_in([1, 2]))` is `fluentpy.wrap(each not in [1, 2])` |
| Examples.EachInEvaluates | fluent_test.py:538-543 | `each.in_([1, 2])` answers true for 1 and false for 3, and `each.not_in([1, 2])` the opposite |
| Examples.EachAttributeOfMapping | fluent_test.py:519-520 | `each.first` on a dict with the key `first` answers the item |
| Examples.EachAutoChains | fluent_test.py:545-553 | `each['foo'][0].bar().baz` evaluates its five stages in order and answers the final attribute |
| Examples.EachOperatorTerminates | fluent_test.py:558-561 | `each['foo'] % 3` is the plain function `x -> x['foo'] % 3` |
| Examples.GroupedPairs | fluent_test.py:285-287 | grouping six elements by 2 gives three pairs, and five elements by 2 drops the incomplete last group |
| Examples.FlattenNested | fluent_test.py:320-325 | `[(1, 2), [3, 4], (5, [6, 7])]` flattens to `1..7` |
| Examples.FlattenOneLevel | fluent_test.py:326-327 | with `level=1` the innermost list stays whole |
| Examples.FlattenKeepsStrings | fluent_test.py:329-331 | strings are not taken apart |
| Examples.ReshapeByTwos | fluent_test.py:333-337 | `reshape()` keeps the input, `reshape(2)` pairs it and `reshape(2, 2)` gives one tuple of two pairs |
| Examples.ReshapeOneThenTwo | fluent_test.py:338 | `reshape(1, 2)` wraps every element and then pairs the singletons |
| Examples.ReshapeShortLast | fluent_test.py:352 | the last chunk may be short |
| Examples.ReshapeRefusesZero | fluent_test.py:333-352 | a chunk size below 1 at any level is refused, whatever the input and the later levels |

## Left out

- `ModuleWrapper`, `lib` and `reload` (`fluentpy/wrapper.py:310-357`, `fluentpy.py:245-281`): they import modules at run time.
- The `TextWrapper` regex methods and the iterable forwards to builtins and `itertools` (`map`, `filter`, `sorted`, `zip`, `groupby`, `get`, `join`, ...): each is a one-line forward to library code outside the model.
- Introspection and printing helpers (`print`, `pprint`, `help`, `dir`, `vars`, `proxy`, `str`/`repr` of payloads): reflection and I/O. The `repr` of a host value is the parameter `Host.repr`.
- Each.Host: what `getattr`, `getitem`, calling, `in`, the `operator` functions and `repr` do on Python objects is abstract. Exceptions they raise are not modelled, except calling something that is not callable.
- Each.IsOwnName: the attribute names a wrapper inherits are the parameter `inherited`, not a fixed list. These are the dunder names of `operator` (`dir(operator)`), the names `object` and the class machinery contribute (`__dict__`, `__module__`, `__doc__`, ...), and the `__name__` set on the root `each`.
- Examples.EachCallName: it states the `repr` of `each.foo('bar', baz='quoox')` through the host's `repr` of each argument, not through the literal Python string, because the host `repr` is abstract.
- Python argument binding: the `TypeError` when merged arguments do not fit the target's signature (`fluent_test.py:195-208`). The model stops at the merged argument lists.
- A placeholder passed as a call-time keyword value: call-time keywords are always literals in the model.
- Curry: the second hole marker (the package alias) is the same `Hole` constructor as `wrap`. Reordering placeholders are limited to `_0`..`_9`, as in the code.
- Iterables.FlattenWith: a negative `level` is not modelled (levels are `nat` or `math.inf`), and payloads are finite sequences rather than lazy iterators.
- `iflatten` of `fluentpy.py` (`fluentpy.py:439-449`): it has no `stop_at_types`, so a string recurses without end. That variant is not modelled.
- Legacy.Tee: the function's effect is recorded only as the list of wrappers it was called with. What it does and what it returns are not modelled.
- Legacy.Tee: the `Iterable.tee` override (`fluentpy.py:458-465`) is not modelled. For an iterator it calls the function with a new wrapper of one `itertools.tee` copy and returns a new wrapper of the other, not the same wrapper; the model covers `Wrapper.tee` only.
- Legacy.CallerAttr: it returns a new constructor holding the name. The code sets `_method_name` on the same constructor and returns it (`fluentpy.py:539-541`), so a reference kept to an earlier step sees later names too. Each `each.call` makes a fresh constructor, so chained use agrees.
- Legacy.Curried: it is built on the corrected `merge_args` message (`MergeArgs`). As written, a failing call reports the need of `MergeArgsAsWritten` (see Findings).
- Legacy.LegacyOperator: built on the corrected `merge_args`. As written, the no-argument call reports "Need at least 0, got 0" (`Legacy.OperatorMergeNoneAsWritten`).
- Legacy.OperatorMergeNone: states the corrected message "Need at least 1, got 0". As written it is "Need at least 0, got 0" (`Legacy.OperatorMergeNoneAsWritten`).
- Legacy.OperatorApplies: its failure case states the corrected message. As written it is "Need at least 0, got 0".
- Each.NotInStage: the `in` test is one host predicate. A generator haystack, which the first `not_in` call consumes, is not modelled.
- Each.InNotInComplement: it assumes `__contains__` answers the `in` test as a bool. A `__contains__` returning a non-bool is passed through by `in_` as is (`Each.InStage`), so the complement holds only after `bool()`.
- Each.AttrStage: "Cannot chain off of None" is an `assert` (`fluentpy/wrapper.py:142-143`); running Python with `-O` removes it, which the model does not follow.
- Each.GetAttr: it uses the corrected reflected list (`__ror__`), as the rest of the model does. As written, `each.__ror__` builds an attribute stage and `each.__ror_` is an own method; `Each.GetAttrWith` with the written list states that (`Each.ClassBodyAsWritten`).
- Each.ClassBodyShadows: its reflected names are the corrected list. As written, `__ror__` is not among the class body's names and `__ror_` is (`Each.ClassBodyAsWritten`).
- Iterables.Nested: `bytes` are not modelled. Its elements are `int`s, it is kept whole by the default `stop_at_types`, and only a custom `stop_at_types` without `bytes` would take it apart.
- Legacy.EachAttr: the dotted names `operator.attrgetter` accepts (`each.a.b` as one getter) are not separated into parts.
- `fluent.py` (an early prototype whose curry is `functools.partial`), `setup.py` and the package entry points (`fluentpy/__init__.py`, `fluentpy/__main__.py`): no logic of their own beyond the second hole marker.

## Findings

| source | as written | input that shows it | evidently intended | confidence | as-written member | corrected member |
|---|---|---|---|---|---|---|
| fluentpy/wrapper.py:795 | the last reflected operator name is `'__ror_'`, missing its closing underscore | `{1} \| each`: `EachWrapper` defines `__rand__` and `__rxor__` but no `__ror__` | `'__ror__'`, so `other \| each` builds a function like the other reflected operators | high, not executed | Each.ReflectedOrIsMissing | Each.ReflectedNamesAreDunders |
| fluentpy.py:522-525 | the loop over `dir(operator)` in the `Each` class body leaves its variable `name` as a class attribute (the last name listed, `'xor'`) | `each.name` is the string `'xor'` instead of `attrgetter('name')` | delete the loop variable, as `fluentpy/wrapper.py:834` does with the comment "prevent promotion to class variable" | medium, not executed | Legacy.LoopNameLeaks | Legacy.EachAttr |
| fluentpy.py:323-326 | the "Need at least %i, got %i" message reports `placeholder_index` | `curry(_, _)('foo')` reports "Need at least 1, got 1"; `curry(_._3)('foo')` reports "Need at least 0, got 1" | report `required_number + 1`, as `fluentpy/wrapper.py:411-414` does | high, not executed | Legacy.NeedAsWrittenCanUnderstate | Legacy.NeedExceedsGot |

=== FILE: chain.dfy ===
/** The wrapper chain of `fluentpy/wrapper.py`: `wrap`, `Wrapper.__init__`,
    `.unwrap`, `.previous`, the forwarding `__getattr__` / `__call__`, and the
    cascading `.self`.

    A wrapper is an immutable node: its payload (None for Python's `None`),
    the wrapper class `wrap` chose for it, and the node it was reached from. */
module Chain {
  import opened Wrappers
  import opened Dispatch

  /** A raw Python object other than `None` and other than a wrapper: an
      identity and the capability flags `wrap` inspects. */
  datatype Obj = Obj(id: nat, caps: Caps)

  datatype Node = Node(value: Option<Obj>, kind: Kind, previous: Option<Node>)

  /** What is handed to `wrap`: a raw value (maybe None) or a wrapper. */
  datatype Input = Raw(payload: Option<Obj>) | Wrapped(node: Node)

  datatype ChainError =
    | CannotChainOffNone   // AssertionError of Wrapper.__init__
    | NotCallable          // TypeError: only CallableWrapper defines __call__

  /** The `isinstance` tests a payload passes: `None` is an instance of none
      of the `by_type` classes. */
  function CapsOf(v: Option<Obj>): Caps {
    if v.Some? then v.value.caps else Caps(false, false, false, false, false, false)
  }

  /** The class `wrap` picks for a raw payload: the first `by_type` class it
      is an instance of, and the plain `Wrapper` for `None`. */
  function KindOf(v: Option<Obj>): (k: Kind)
    ensures Admits(CapsOf(v), k)
    ensures forall k' :: Admits(CapsOf(v), k') ==> Rank(k) <= Rank(k')
    ensures v.None? ==> k == PlainKind
  {
    match v
    case None => PlainKind
    case Some(o) => Classify(o.caps)
  }

  /** `wrap(wrapped, previous=previous)`. */
  function Wrap(x: Input, previous: Option<Node>): (r: Result<Node, ChainError>)
    ensures x.Wrapped? ==> r == Success(x.node)
    ensures x.Raw? ==> (r.Success? <==> x.payload.Some? || previous.Some?)
    ensures x.Raw? && r.Success? ==>
      && r.value.value == x.payload
      && r.value.previous == previous
      && r.value.kind == KindOf(x.payload)
      && Admits(CapsOf(x.payload), r.value.kind)
      && forall k' :: Admits(CapsOf(x.payload), k') ==> Rank(r.value.kind) <= Rank(k')
    ensures r.Failure? ==> r.error == CannotChainOffNone
  {
    match x
    case Wrapped(n) => Success(n)
    case Raw(v) =>
      if v.None? && previous.None? then Failure(CannotChainOffNone)
      else Success(Node(v, KindOf(v), previous))
  }

  /** `.unwrap` */
  function Unwrap(n: Node): Option<Obj> {
    n.value
  }

  /** A forwarded access that returns `result`: `__getattr__` and
      `__getitem__` are `wrapped(getattr)` / `wrapped(operator.getitem)`,
      and so is every other `@wrapped` method; all wrap with `previous=self`. */
  function Forward(n: Node, result: Input): (r: Node)
    ensures result.Wrapped? ==> r == result.node
    ensures result.Raw? ==> r.value == result.payload && r.previous == Some(n)
  {
    Wrap(result, Some(n)).value
  }

  /** `CallableWrapper.__call__`, returning `result`; any other wrapper class
      has no `__call__`, so calling it is a TypeError. */
  function Call(n: Node, result: Input): (r: Result<Node, ChainError>)
    ensures r.Success? <==> n.kind == CallableKind
    ensures r.Success? && result.Raw? ==> r.value.value == result.payload && r.value.previous == Some(n)
  {
    if n.kind != CallableKind then Failure(NotCallable)
    else Wrap(result, Some(n))
  }

  /** `.self`: the previous node, or the one before it when the previous node
      is a CallableWrapper (the bound method of a call `x.method(...)`).
      Independent of the node's own value. */
  function Self(n: Node): Option<Node> {
    match n.previous
    case None => None
    case Some(p) => if p.kind == CallableKind then p.previous else Some(p)
  }

  /** The cascading law: after `x.method(...)`, `.self` is `x` again, whatever
      the method returned, `None` included. */
  lemma CascadeLaw(x: Node, meth: Obj, result: Option<Obj>)
    requires Classify(meth.caps) == CallableKind
    ensures Call(Forward(x, Raw(Some(meth))), Raw(result)).Success?
    ensures Self(Call(Forward(x, Raw(Some(meth))), Raw(result)).value) == Some(x)
  {
  }

  /** `.self` after a wrapped helper method (`setattr`, `call`, ...) on a
      receiver that is not callable returns that receiver. */
  lemma SelfAfterHelper(x: Node, result: Option<Obj>)
    requires x.kind != CallableKind
    ensures Self(Forward(x, Raw(result))) == Some(x)
  {
  }

  /** ... but on a CallableWrapper receiver the same step back goes one node
      too far: `.self` skips the receiver and yields its own previous node. */
  lemma SelfAfterHelperOnCallable(x: Node, result: Option<Obj>)
    requires x.kind == CallableKind
    ensures Self(Forward(x, Raw(result))) == x.previous
  {
  }

  /** A wrapper holding `None` can only be built on top of a previous node. */
  lemma NoneNeedsPrevious(v: Option<Obj>)
    ensures Wrap(Raw(v), None).Success? <==> v.Some?
  {
  }
}

=== FILE: curry.dfy ===
/** `CallableWrapper.curry` of `fluentpy/wrapper.py`: the argument merge
    `merge_arguments` that a curried function performs on every call.

    A template entry is a literal argument or one of the placeholder objects:
    the hole (`wrap` itself, or the package alias added by
    `fluentpy/__init__.py`), the reordering placeholders `_0` .. `_9`, and the
    splat `_args`. Placeholders are recognised by identity, so they are
    distinct constructors here. The result is generic in the argument type
    `V`; `pack` builds the tuple that `_args` stands for. */
module Curry {
  import opened Wrappers
  import Dict

  /** NUMBER_OF_NAMED_ARGUMENT_PLACEHOLDERS: `_0` .. `_9` exist. */
  const NamedPlaceholders: nat := 10

  type Digit = k: nat | k < NamedPlaceholders

  datatype Entry<V> = Literal(value: V) | Hole | Index(k: Digit) | Splat {
    predicate IsPlaceholder() {
      !Literal?
    }
  }

  /** The two AssertionErrors: "Not enough arguments ... Need at least
      `need`, got `got`" and "Variable arguments placeholder <_args> needs to
      be last". */
  datatype CurryError = NotEnoughArguments(need: nat, got: nat) | SplatNotLast

  /** `placeholder_index + 1` (placeholders counted so far) and the indexes
      added to `used_arg_indexes`, in the order they were added. */
  datatype Cursor = Cursor(count: nat, used: seq<nat>)

  predicate NoPlaceholders<V>(es: seq<Entry<V>>) {
    forall i :: 0 <= i < |es| ==> !es[i].IsPlaceholder()
  }

  /** No placeholder follows position `j` of `es`. */
  predicate PlaceholderFreeAfter<V>(es: seq<Entry<V>>, j: nat) {
    forall i :: j < i < |es| ==> !es[i].IsPlaceholder()
  }

  /** Python's clamping slice `xs[i:]`. */
  function Drop<V>(xs: seq<V>, i: nat): (r: seq<V>)
    ensures i <= |xs| ==> r == xs[i..]
    ensures i > |xs| ==> r == []
  {
    if i <= |xs| then xs[i..] else []
  }

  /** `range(lo, hi)` as a list. */
  function Range(lo: nat, hi: nat): (r: seq<nat>)
    ensures |r| == if lo < hi then hi - lo else 0
    ensures forall i :: 0 <= i < |r| ==> r[i] == lo + i
    decreases hi - lo
  {
    if lo < hi then [lo] + Range(lo + 1, hi) else []
  }

  /** `max(used, default=-1)` */
  function MaxUsed(used: seq<nat>): (m: int)
    ensures m >= -1
    ensures used == [] <==> m == -1
  {
    if used == [] then -1
    else
      var m := MaxUsed(used[..|used| - 1]);
      var x := used[|used| - 1];
      if x > m then x else m
  }

  /** One template entry, met after `c.count` placeholders. The cursor is
      advanced for every placeholder before it is resolved. */
  function Step<V>(e: Entry<V>, c: Cursor, args: seq<V>, pack: seq<V> -> V, splatIsLast: bool)
    : Result<(V, Cursor), CurryError>
  {
    match e
    case Literal(v) => Success((v, c))
    case Hole =>
      if c.count < |args| then Success((args[c.count], Cursor(c.count + 1, c.used + [c.count])))
      else Failure(NotEnoughArguments(c.count + 1, |args|))
    case Index(k) =>
      if k < |args| then Success((args[k], Cursor(c.count + 1, c.used + [k])))
      else Failure(NotEnoughArguments(k + 1, |args|))
    case Splat =>
      if !splatIsLast then Failure(SplatNotLast)
      else Success((pack(Drop(args, c.count)), Cursor(c.count + 1, c.used + Range(c.count, |args|))))
  }

  /** The loop over `default_args` from position `i`. A positional `_args`
      must be the last positional entry, and then no keyword value may be a
      placeholder. */
  function PositionalPass<V>(
    template: seq<Entry<V>>, kwValues: seq<Entry<V>>, args: seq<V>, pack: seq<V> -> V, i: nat, c: Cursor)
    : (r: Result<(seq<V>, Cursor), CurryError>)
    requires i <= |template|
    ensures r.Success? ==> |r.value.0| == |template| - i
    decreases |template| - i
  {
    if i == |template| then Success(([], c))
    else
      var s :- Step(template[i], c, args, pack, i + 1 == |template| && NoPlaceholders(kwValues));
      var rest :- PositionalPass(template, kwValues, args, pack, i + 1, s.1);
      Success(([s.0] + rest.0, rest.1))
  }

  /** The loop over `merged_default_kwargs.items()` from position `j`, on
      the values (the keys are carried over unchanged, in order). A keyword
      `_args` may only be followed by non-placeholder values. */
  function KeywordPass<V>(values: seq<Entry<V>>, args: seq<V>, pack: seq<V> -> V, j: nat, c: Cursor)
    : (r: Result<(seq<V>, Cursor), CurryError>)
    requires j <= |values|
    ensures r.Success? ==> |r.value.0| == |values| - j
    decreases |values| - j
  {
    if j == |values| then Success(([], c))
    else
      var s :- Step(values[j], c, args, pack, PlaceholderFreeAfter(values, j));
      var rest :- KeywordPass(values, args, pack, j + 1, s.1);
      Success(([s.0] + rest.0, rest.1))
  }

  /** Call-time keyword arguments are plain values. */
  function Lift<V>(kwargs: Dict.Pairs<V>): (r: Dict.Pairs<Entry<V>>)
    ensures |r| == |kwargs|
    ensures forall i :: 0 <= i < |kwargs| ==> r[i] == (kwargs[i].0, Literal(kwargs[i].1))
  {
    if kwargs == [] then [] else [(kwargs[0].0, Literal(kwargs[0].1))] + Lift(kwargs[1..])
  }

  /** `dict(default_kwargs, **actual_kwargs)` */
  function MergedKeywords<V>(defaultKwargs: Dict.Pairs<Entry<V>>, actualKwargs: Dict.Pairs<V>)
    : Dict.Pairs<Entry<V>>
  {
    Dict.FromPairs(defaultKwargs + Lift(actualKwargs))
  }

  /** The two loops of `merge_arguments` and the leftover append, for the
      keyword template `kwargs` already merged with the call-time keywords. */
  function Merge<V>(pack: seq<V> -> V, defaultArgs: seq<Entry<V>>, kwargs: Dict.Pairs<Entry<V>>, actualArgs: seq<V>)
    : Result<(seq<V>, Dict.Pairs<V>), CurryError>
  {
    var p :- PositionalPass(defaultArgs, Dict.Values(kwargs), actualArgs, pack, 0, Cursor(0, []));
    var k :- KeywordPass(Dict.Values(kwargs), actualArgs, pack, 0, p.1);
    var lastUsed := MaxUsed(k.1.used);
    Success((p.0 + Drop(actualArgs, lastUsed + 1), Dict.Zip(Dict.Keys(kwargs), k.0)))
  }

  /** `merge_arguments(actual_args, actual_kwargs)` for the template given to
      `curry(*default_args, **default_kwargs)`: the positional and keyword
      arguments the curried function is finally called with. */
  function MergeArguments<V>(
    pack: seq<V> -> V,
    defaultArgs: seq<Entry<V>>, defaultKwargs: Dict.Pairs<Entry<V>>,
    actualArgs: seq<V>, actualKwargs: Dict.Pairs<V>)
    : Result<(seq<V>, Dict.Pairs<V>), CurryError>
  {
    Merge(pack, defaultArgs, MergedKeywords(defaultKwargs, actualKwargs), actualArgs)
  }
}

=== FILE: curry_spec.dfy ===
/** A declarative reading of `merge_arguments`, independent of its two loops.

    Put the positional template and the merged keyword values side by side
    into one sequence `all`; the entry at position `j` sees a cursor equal to
    the number of placeholders before it. Every entry is then judged, valued
    and charged with the argument indexes it reads on its own, and the merge
    is proved to agree with that reading. */
module CurrySpec {
  import opened Wrappers
  import Dict
  import opened Curry

  /** Number of placeholders in `es`. */
  function Count<V>(es: seq<Entry<V>>): nat {
    if es == [] then 0
    else Count(es[..|es| - 1]) + (if es[|es| - 1].IsPlaceholder() then 1 else 0)
  }

  /** The cursor the entry at position `j` sees. */
  function CursorAt<V>(all: seq<Entry<V>>, j: nat): nat
    requires j <= |all|
  {
    Count(all[..j])
  }

  /** Where a splat may stand: last among the positional entries if it is
      one, and in any case followed by no placeholder at all. */
  predicate SplatMayStand<V>(all: seq<Entry<V>>, nPos: nat, j: nat)
    requires j < |all|
  {
    (j < nPos ==> j + 1 == nPos) && PlaceholderFreeAfter(all, j)
  }

  /** An entry met at cursor `cursor` can be resolved against `n` actual
      arguments (`splatMayStand`: a splat stands where it may). */
  predicate Fits<V>(e: Entry<V>, cursor: nat, n: nat, splatMayStand: bool) {
    match e
    case Literal(_) => true
    case Hole => cursor < n
    case Index(k) => k < n
    case Splat => splatMayStand
  }

  /** What an entry met at `cursor` resolves to. */
  function Resolved<V>(e: Entry<V>, cursor: nat, args: seq<V>, pack: seq<V> -> V): V
    requires e.Hole? ==> cursor < |args|
    requires e.Index? ==> e.k < |args|
  {
    match e
    case Literal(v) => v
    case Hole => args[cursor]
    case Index(k) => args[k]
    case Splat => pack(Drop(args, cursor))
  }

  /** The failure of an entry that does not fit. */
  function Refusal<V>(e: Entry<V>, cursor: nat, n: nat): CurryError {
    match e
    case Hole => NotEnoughArguments(cursor + 1, n)
    case Index(k) => NotEnoughArguments(k + 1, n)
    case _ => SplatNotLast
  }

  /** The actual-argument indexes an entry met at `cursor` consumes. */
  function Reads<V>(e: Entry<V>, cursor: nat, n: nat): set<nat> {
    match e
    case Literal(_) => {}
    case Hole => {cursor}
    case Index(k) => {k}
    case Splat => set x | x in Range(cursor, n)
  }

  /** One past the largest index in `Reads`, 0 when it is empty. */
  function ReadsEnd<V>(e: Entry<V>, cursor: nat, n: nat): nat {
    match e
    case Literal(_) => 0
    case Hole => cursor + 1
    case Index(k) => k + 1
    case Splat => if cursor < n then n else 0
  }

  /** Entry `j` of `all` can be resolved against `n` actual arguments. */
  predicate EntryOk<V>(all: seq<Entry<V>>, nPos: nat, j: nat, n: nat)
    requires j < |all|
  {
    Fits(all[j], CursorAt(all, j), n, SplatMayStand(all, nPos, j))
  }

  predicate AllOk<V>(all: seq<Entry<V>>, nPos: nat, n: nat) {
    forall j :: 0 <= j < |all| ==> EntryOk(all, nPos, j, n)
  }

  /** `j` is the first entry at or after `lo` that cannot be resolved. */
  predicate FirstBad<V>(all: seq<Entry<V>>, nPos: nat, n: nat, lo: nat, j: nat) {
    && lo <= j < |all|
    && !EntryOk(all, nPos, j, n)
    && forall i :: lo <= i < j ==> EntryOk(all, nPos, i, n)
  }

  function ValueAt<V>(all: seq<Entry<V>>, nPos: nat, j: nat, args: seq<V>, pack: seq<V> -> V): V
    requires j < |all| && EntryOk(all, nPos, j, |args|)
  {
    Resolved(all[j], CursorAt(all, j), args, pack)
  }

  function ErrorAt<V>(all: seq<Entry<V>>, nPos: nat, j: nat, n: nat): CurryError
    requires j < |all|
  {
    Refusal(all[j], CursorAt(all, j), n)
  }

  function ReadsAt<V>(all: seq<Entry<V>>, j: nat, n: nat): set<nat>
    requires j < |all|
  {
    Reads(all[j], CursorAt(all, j), n)
  }

  /** One past the largest index consumed by the first `g` entries: where
      the appended leftover arguments start. */
  function ReadBound<V>(all: seq<Entry<V>>, g: nat, n: nat): nat
    requires g <= |all|
  {
    if g == 0 then 0
    else
      var b := ReadBound(all, g - 1, n);
      var e := ReadsEnd(all[g - 1], CursorAt(all, g - 1), n);
      if e > b then e else b
  }

  /** Where the leftover actual arguments start: one past the largest index
      any entry of `all` consumes. */
  function LeftoverStart<V>(all: seq<Entry<V>>, n: nat): nat {
    ReadBound(all, |all|, n)
  }

  /** `ReadBound` is the least strict upper bound of every consumed index. */
  lemma {:induction false} ReadBoundIsLeast<V>(all: seq<Entry<V>>, g: nat, n: nat)
    requires g <= |all|
    ensures forall j, x :: 0 <= j < g && x in ReadsAt(all, j, n) ==> x < ReadBound(all, g, n)
    ensures ReadBound(all, g, n) > 0 ==> exists j: nat :: j < g && ReadBound(all, g, n) - 1 in ReadsAt(all, j, n)
  {
    if g > 0 {
      ReadBoundIsLeast(all, g - 1, n);
      ReadsEndIsLeast(all[g - 1], CursorAt(all, g - 1), n);
      var b := ReadBound(all, g - 1, n);
      var e := ReadsEnd(all[g - 1], CursorAt(all, g - 1), n);
      if e > b {
        assert ReadBound(all, g, n) - 1 in ReadsAt(all, g - 1, n);
      } else if b > 0 {
        var j: nat :| j < g - 1 && b - 1 in ReadsAt(all, j, n);
        assert ReadBound(all, g, n) - 1 in ReadsAt(all, j, n);
      }
    }
  }

  lemma ReadsEndIsLeast<V>(e: Entry<V>, cursor: nat, n: nat)
    ensures forall x :: x in Reads(e, cursor, n) ==> x < ReadsEnd(e, cursor, n)
    ensures ReadsEnd(e, cursor, n) > 0 ==> ReadsEnd(e, cursor, n) - 1 in Reads(e, cursor, n)
  {
    if e.Splat? && cursor < n {
      var rg := Range(cursor, n);
      assert rg[|rg| - 1] == n - 1;
    }
  }

  // ---------------------------------------------------------------------
  // Proof that the two passes agree with the entry-wise reading.

  predicate Inv<V>(all: seq<Entry<V>>, g: nat, c: Cursor, n: nat)
    requires g <= |all|
  {
    c.count == CursorAt(all, g) && MaxUsed(c.used) + 1 == ReadBound(all, g, n)
  }

  lemma CountStep<V>(all: seq<Entry<V>>, g: nat)
    requires g < |all|
    ensures CursorAt(all, g + 1) == CursorAt(all, g) + (if all[g].IsPlaceholder() then 1 else 0)
  {
    assert all[..g + 1][..g] == all[..g];
  }

  /** `MaxUsed` is the largest index listed, and is one of them. */
  lemma {:induction false} MaxUsedIsMax(used: seq<nat>)
    ensures forall i :: 0 <= i < |used| ==> used[i] <= MaxUsed(used)
    ensures used != [] ==> MaxUsed(used) in used
    decreases |used|
  {
    if used != [] {
      var init := used[..|used| - 1];
      MaxUsedIsMax(init);
      assert used == init + [used[|used| - 1]];
    }
  }

  lemma {:induction false} MaxUsedConcat(a: seq<nat>, b: seq<nat>)
    ensures MaxUsed(a + b) == if MaxUsed(a) > MaxUsed(b) then MaxUsed(a) else MaxUsed(b)
  {
    var m := MaxUsed(a + b);
    MaxUsedIsMax(a);
    MaxUsedIsMax(b);
    MaxUsedIsMax(a + b);
    if b != [] {
      assert MaxUsed(b) in b;
      assert MaxUsed(b) in a + b;
    }
    if a != [] {
      assert MaxUsed(a) in a;
      assert (a + b)[..|a|] == a;
      assert MaxUsed(a) in a + b;
    }
    assert m in a + b || m == -1;
    if m != -1 {
      assert m in a || m in b;
    }
  }

  lemma MaxUsedSingle(x: nat)
    ensures MaxUsed([x]) == x
  {
  }

  lemma MaxUsedRange(lo: nat, hi: nat)
    ensures MaxUsed(Range(lo, hi)) == if lo < hi then hi - 1 else -1
  {
    var r := Range(lo, hi);
    MaxUsedIsMax(r);
    if lo < hi {
      assert r[|r| - 1] == hi - 1;
    }
  }

  /** `Step` resolves one entry exactly as `Fits`, `Resolved`, `Refusal`
      and `ReadsEnd` say, for the cursor it is given. */
  lemma StepSpec<V>(
    e: Entry<V>, c: Cursor, args: seq<V>, pack: seq<V> -> V, splatIsLast: bool,
    r: Result<(V, Cursor), CurryError>)
    requires r == Step(e, c, args, pack, splatIsLast)
    ensures r.Success? <==> Fits(e, c.count, |args|, splatIsLast)
    ensures r.Success? ==>
      && r.value.0 == Resolved(e, c.count, args, pack)
      && r.value.1.count == c.count + (if e.IsPlaceholder() then 1 else 0)
      && MaxUsed(r.value.1.used) + 1 ==
           (if ReadsEnd(e, c.count, |args|) > MaxUsed(c.used) + 1 then ReadsEnd(e, c.count, |args|) else MaxUsed(c.used) + 1)
    ensures r.Failure? ==> r.error == Refusal(e, c.count, |args|)
  {
    if r.Success? {
      var xs: seq<nat>;
      match e
      case Literal(_) =>
        xs := [];
        assert c.used + xs == c.used;
      case Hole =>
        xs := [c.count];
        MaxUsedSingle(c.count);
      case Index(k) =>
        xs := [k];
        MaxUsedSingle(k);
      case Splat =>
        xs := Range(c.count, |args|);
        MaxUsedRange(c.count, |args|);
      assert r.value.1.used == c.used + xs;
      MaxUsedConcat(c.used, xs);
    }
  }

  /** One step of either pass keeps the cursor invariant. */
  lemma StepAt<V>(
    all: seq<Entry<V>>, nPos: nat, g: nat, c: Cursor, args: seq<V>, pack: seq<V> -> V, splatIsLast: bool,
    r: Result<(V, Cursor), CurryError>)
    requires g < |all| && Inv(all, g, c, |args|)
    requires splatIsLast == SplatMayStand(all, nPos, g)
    requires r == Step(all[g], c, args, pack, splatIsLast)
    ensures r.Success? <==> EntryOk(all, nPos, g, |args|)
    ensures r.Success? ==> r.value.0 == ValueAt(all, nPos, g, args, pack) && Inv(all, g + 1, r.value.1, |args|)
    ensures r.Failure? ==> r.error == ErrorAt(all, nPos, g, |args|)
  {
    CountStep(all, g);
    StepSpec(all[g], c, args, pack, splatIsLast, r);
  }

  lemma FirstBadExtends<V>(all: seq<Entry<V>>, nPos: nat, n: nat, g: nat, b: nat)
    requires g < |all| && EntryOk(all, nPos, g, n) && FirstBad(all, nPos, n, g + 1, b)
    ensures FirstBad(all, nPos, n, g, b)
  {
    forall h | g <= h < b ensures EntryOk(all, nPos, h, n) {
      if h > g {
        assert g + 1 <= h < b;
      }
    }
  }

  /** One successful step at `g` in front of the rest of a pass, which runs
      up to `hi`: the pass from `g` fits exactly when the rest does, lists
      the step's value first, and otherwise fails at the rest's first bad
      entry. */
  lemma PassCons<V>(
    all: seq<Entry<V>>, nPos: nat, args: seq<V>, pack: seq<V> -> V, g: nat, hi: nat,
    v: V, rest: Result<(seq<V>, Cursor), CurryError>, r: Result<(seq<V>, Cursor), CurryError>)
    requires g < hi <= |all|
    requires EntryOk(all, nPos, g, |args|) && v == ValueAt(all, nPos, g, args, pack)
    requires rest.Success? <==> forall h :: g + 1 <= h < hi ==> EntryOk(all, nPos, h, |args|)
    requires rest.Success? ==> ValuesFrom(all, nPos, args, pack, g + 1, hi, rest.value.0) && Inv(all, hi, rest.value.1, |args|)
    requires rest.Failure? ==>
      exists b: nat :: FirstBad(all, nPos, |args|, g + 1, b) && rest.error == ErrorAt(all, nPos, b, |args|)
    requires r == (if rest.Failure? then Failure(rest.error) else Success(([v] + rest.value.0, rest.value.1)))
    ensures r.Success? <==> forall h :: g <= h < hi ==> EntryOk(all, nPos, h, |args|)
    ensures r.Success? ==> ValuesFrom(all, nPos, args, pack, g, hi, r.value.0) && Inv(all, hi, r.value.1, |args|)
    ensures r.Failure? ==>
      exists b: nat :: FirstBad(all, nPos, |args|, g, b) && r.error == ErrorAt(all, nPos, b, |args|)
  {
    if rest.Failure? {
      var b: nat :| FirstBad(all, nPos, |args|, g + 1, b) && rest.error == ErrorAt(all, nPos, b, |args|);
      FirstBadExtends(all, nPos, |args|, g, b);
    } else {
      ValuesExtend(all, nPos, args, pack, g, hi, v, rest.value.0);
    }
  }

  /** Entries `lo` to `hi` of `all` all fit, and `out` lists their values. */
  ghost predicate ValuesFrom<V>(all: seq<Entry<V>>, nPos: nat, args: seq<V>, pack: seq<V> -> V, lo: nat, hi: nat, out: seq<V>)
    requires lo <= hi <= |all|
  {
    && (forall g :: lo <= g < hi ==> EntryOk(all, nPos, g, |args|))
    && |out| == hi - lo
    && forall t :: 0 <= t < |out| ==> out[t] == ValueAt(all, nPos, lo + t, args, pack)
  }

  lemma ValuesExtend<V>(
    all: seq<Entry<V>>, nPos: nat, args: seq<V>, pack: seq<V> -> V, g: nat, hi: nat, v: V, rest: seq<V>)
    requires g < hi <= |all|
    requires EntryOk(all, nPos, g, |args|) && v == ValueAt(all, nPos, g, args, pack)
    requires ValuesFrom(all, nPos, args, pack, g + 1, hi, rest)
    ensures ValuesFrom(all, nPos, args, pack, g, hi, [v] + rest)
  {
    var out := [v] + rest;
    forall t | 0 <= t < |out| ensures out[t] == ValueAt(all, nPos, g + t, args, pack) {
      if t > 0 {
        assert out[t] == rest[t - 1];
      }
    }
  }

  lemma {:induction false} PositionalPassSpec<V>(
    all: seq<Entry<V>>, template: seq<Entry<V>>, kwValues: seq<Entry<V>>, args: seq<V>, pack: seq<V> -> V,
    i: nat, c: Cursor, r: Result<(seq<V>, Cursor), CurryError>)
    requires all == template + kwValues && i <= |template|
    requires Inv(all, i, c, |args|)
    requires r == PositionalPass(template, kwValues, args, pack, i, c)
    ensures r.Success? <==> forall g :: i <= g < |template| ==> EntryOk(all, |template|, g, |args|)
    ensures r.Success? ==>
      ValuesFrom(all, |template|, args, pack, i, |template|, r.value.0) && Inv(all, |template|, r.value.1, |args|)
    ensures r.Failure? ==>
      exists g: nat :: FirstBad(all, |template|, |args|, i, g) && r.error == ErrorAt(all, |template|, g, |args|)
    decreases |template| - i
  {
    var nPos := |template|;
    if i < nPos {
      var splatIsLast := i + 1 == nPos && NoPlaceholders(kwValues);
      assert all[i] == template[i];
      if i + 1 == nPos {
        assert NoPlaceholders(kwValues) == PlaceholderFreeAfter(all, i) by {
          forall k | i < k < |all| ensures all[k] == kwValues[k - nPos] { }
          forall m | 0 <= m < |kwValues| ensures kwValues[m] == all[nPos + m] { }
        }
      }
      var s := Step(template[i], c, args, pack, splatIsLast);
      StepAt(all, nPos, i, c, args, pack, splatIsLast, s);
      if s.Success? {
        var rest := PositionalPass(template, kwValues, args, pack, i + 1, s.value.1);
        PositionalPassSpec(all, template, kwValues, args, pack, i + 1, s.value.1, rest);
        PassCons(all, nPos, args, pack, i, nPos, s.value.0, rest, r);
      } else {
        assert FirstBad(all, nPos, |args|, i, i);
      }
    } else {
      assert ValuesFrom(all, nPos, args, pack, nPos, nPos, []);
    }
  }

  /** The step of the keyword loop at `values[j]` is the step at entry
      `|template| + j` of the combined template. */
  /** `values` is the tail of `all` from position `nPos` on. */
  ghost predicate TailAt<V>(all: seq<Entry<V>>, nPos: nat, values: seq<Entry<V>>) {
    && nPos + |values| == |all|
    && forall m :: 0 <= m < |values| ==> values[m] == all[nPos + m]
  }

  lemma KeywordStepAt<V>(
    all: seq<Entry<V>>, nPos: nat, values: seq<Entry<V>>, args: seq<V>, pack: seq<V> -> V,
    j: nat, c: Cursor, s: Result<(V, Cursor), CurryError>)
    requires TailAt(all, nPos, values) && j < |values|
    requires Inv(all, nPos + j, c, |args|)
    requires s == Step(values[j], c, args, pack, PlaceholderFreeAfter(values, j))
    ensures s.Success? <==> EntryOk(all, nPos, nPos + j, |args|)
    ensures s.Success? ==>
      s.value.0 == ValueAt(all, nPos, nPos + j, args, pack) && Inv(all, nPos + j + 1, s.value.1, |args|)
    ensures s.Failure? ==> s.error == ErrorAt(all, nPos, nPos + j, |args|)
  {
    var g := nPos + j;
    assert all[g] == values[j];
    assert PlaceholderFreeAfter(values, j) == PlaceholderFreeAfter(all, g) by {
      forall i | g < i < |all| ensures all[i] == values[i - nPos] { }
    }
    StepAt(all, nPos, g, c, args, pack, PlaceholderFreeAfter(values, j), s);
  }

  lemma {:induction false} KeywordPassSpec<V>(
    all: seq<Entry<V>>, nPos: nat, values: seq<Entry<V>>, args: seq<V>, pack: seq<V> -> V,
    j: nat, c: Cursor, r: Result<(seq<V>, Cursor), CurryError>)
    requires TailAt(all, nPos, values) && j <= |values|
    requires Inv(all, nPos + j, c, |args|)
    requires r == KeywordPass(values, args, pack, j, c)
    ensures r.Success? <==> forall g :: nPos + j <= g < |all| ==> EntryOk(all, nPos, g, |args|)
    ensures r.Success? ==>
      ValuesFrom(all, nPos, args, pack, nPos + j, |all|, r.value.0) && Inv(all, |all|, r.value.1, |args|)
    ensures r.Failure? ==>
      exists g: nat :: FirstBad(all, nPos, |args|, nPos + j, g) && r.error == ErrorAt(all, nPos, g, |args|)
    decreases |values| - j
  {
    if j < |values| {
      var s := Step(values[j], c, args, pack, PlaceholderFreeAfter(values, j));
      KeywordStepAt(all, nPos, values, args, pack, j, c, s);
      if s.Success? {
        var rest := KeywordPass(values, args, pack, j + 1, s.value.1);
        KeywordPassSpec(all, nPos, values, args, pack, j + 1, s.value.1, rest);
        PassCons(all, nPos, args, pack, nPos + j, |all|, s.value.0, rest, r);
      } else {
        assert FirstBad(all, nPos, |args|, nPos + j, nPos + j);
      }
    } else {
      assert ValuesFrom(all, nPos, args, pack, |all|, |all|, []);
    }
  }

  /** Both passes run one after the other over `template + values`. */
  lemma {:induction false} PassesSpec<V>(
    template: seq<Entry<V>>, values: seq<Entry<V>>, args: seq<V>, pack: seq<V> -> V,
    p: Result<(seq<V>, Cursor), CurryError>, k: Result<(seq<V>, Cursor), CurryError>)
    requires p == PositionalPass(template, values, args, pack, 0, Cursor(0, []))
    requires p.Success? ==> k == KeywordPass(values, args, pack, 0, p.value.1)
    ensures (p.Success? && k.Success?) <==> AllOk(template + values, |template|, |args|)
    ensures p.Failure? ==>
      exists g: nat :: FirstBad(template + values, |template|, |args|, 0, g) &&
        p.error == ErrorAt(template + values, |template|, g, |args|)
    ensures p.Success? && k.Failure? ==>
      exists g: nat :: FirstBad(template + values, |template|, |args|, 0, g) &&
        k.error == ErrorAt(template + values, |template|, g, |args|)
    ensures p.Success? && k.Success? ==>
      && ValuesFrom(template + values, |template|, args, pack, 0, |template|, p.value.0)
      && ValuesFrom(template + values, |template|, args, pack, |template|, |template| + |values|, k.value.0)
      && MaxUsed(k.value.1.used) + 1 == LeftoverStart(template + values, |args|)
  {
    PassesOver(template + values, template, values, args, pack, p, k);
  }

  /** `PassesSpec` over `all`, the concatenation named once. */
  lemma {:induction false} PassesOver<V>(
    all: seq<Entry<V>>, template: seq<Entry<V>>, values: seq<Entry<V>>, args: seq<V>, pack: seq<V> -> V,
    p: Result<(seq<V>, Cursor), CurryError>, k: Result<(seq<V>, Cursor), CurryError>)
    requires all == template + values
    requires p == PositionalPass(template, values, args, pack, 0, Cursor(0, []))
    requires p.Success? ==> k == KeywordPass(values, args, pack, 0, p.value.1)
    ensures (p.Success? && k.Success?) <==> AllOk(all, |template|, |args|)
    ensures p.Failure? ==>
      exists g: nat :: FirstBad(all, |template|, |args|, 0, g) && p.error == ErrorAt(all, |template|, g, |args|)
    ensures p.Success? && k.Failure? ==>
      exists g: nat :: FirstBad(all, |template|, |args|, 0, g) && k.error == ErrorAt(all, |template|, g, |args|)
    ensures p.Success? && k.Success? ==>
      && ValuesFrom(all, |template|, args, pack, 0, |template|, p.value.0)
      && ValuesFrom(all, |template|, args, pack, |template|, |all|, k.value.0)
      && MaxUsed(k.value.1.used) + 1 == LeftoverStart(all, |args|)
  {
    var nPos := |template|;
    var n := |args|;
    var c0 := Cursor(0, []);
    assert all[..0] == [];
    PositionalPassSpec(all, template, values, args, pack, 0, c0, p);
    if p.Success? {
      assert TailAt(all, nPos, values) by {
        forall m | 0 <= m < |values| ensures values[m] == all[nPos + m] { }
      }
      KeywordPassSpec(all, nPos, values, args, pack, 0, p.value.1, k);
      if k.Failure? {
        var g: nat :| FirstBad(all, nPos, n, nPos, g) && k.error == ErrorAt(all, nPos, g, n);
        assert FirstBad(all, nPos, n, 0, g);
      }
    }
  }

  lemma {:induction false} LiftLastValue<V>(kwargs: Dict.Pairs<V>, k: string)
    requires Dict.HasKey(kwargs, k)
    ensures Dict.HasKey(Lift(kwargs), k)
    ensures Dict.LastValue(Lift(kwargs), k) == Literal(Dict.LastValue(kwargs, k))
    decreases |kwargs|
  {
    var lifted := Lift(kwargs);
    var i :| 0 <= i < |kwargs| && kwargs[i].0 == k;
    assert lifted[i].0 == k;
    var n := |kwargs| - 1;
    if kwargs[n].0 != k {
      assert Dict.HasKey(kwargs[..n], k) by {
        assert kwargs[..n][i].0 == k;
      }
      assert Lift(kwargs)[..n] == Lift(kwargs[..n]);
      LiftLastValue(kwargs[..n], k);
    }
  }

  lemma LiftHasKey<V>(kwargs: Dict.Pairs<V>, k: string)
    ensures Dict.HasKey(Lift(kwargs), k) <==> Dict.HasKey(kwargs, k)
  {
    if Dict.HasKey(Lift(kwargs), k) {
      var i :| 0 <= i < |Lift(kwargs)| && Lift(kwargs)[i].0 == k;
      assert kwargs[i].0 == k;
    }
    if Dict.HasKey(kwargs, k) {
      LiftLastValue(kwargs, k);
    }
  }

  /** `dict(default_kwargs, **actual_kwargs)`: a call-time keyword replaces
      the template's value for the same name, every other template keyword
      keeps its value, and nothing else is added. */
  lemma MergedKeywordsSpec<V>(defaultKwargs: Dict.Pairs<Entry<V>>, actualKwargs: Dict.Pairs<V>, k: string)
    ensures Dict.UniqueKeys(MergedKeywords(defaultKwargs, actualKwargs))
    ensures Dict.HasKey(MergedKeywords(defaultKwargs, actualKwargs), k) <==>
      Dict.HasKey(defaultKwargs, k) || Dict.HasKey(actualKwargs, k)
    ensures Dict.HasKey(actualKwargs, k) ==>
      Dict.Get(MergedKeywords(defaultKwargs, actualKwargs), k) == Some(Literal(Dict.LastValue(actualKwargs, k)))
    ensures !Dict.HasKey(actualKwargs, k) && Dict.HasKey(defaultKwargs, k) ==>
      Dict.Get(MergedKeywords(defaultKwargs, actualKwargs), k) == Some(Dict.LastValue(defaultKwargs, k))
  {
    var lifted := Lift(actualKwargs);
    LiftHasKey(actualKwargs, k);
    assert Dict.HasKey(defaultKwargs + lifted, k) <==> Dict.HasKey(defaultKwargs, k) || Dict.HasKey(lifted, k) by {
      if Dict.HasKey(defaultKwargs + lifted, k) {
        var i :| 0 <= i < |defaultKwargs + lifted| && (defaultKwargs + lifted)[i].0 == k;
        if i >= |defaultKwargs| {
          assert lifted[i - |defaultKwargs|].0 == k;
        }
      }
      if Dict.HasKey(lifted, k) {
        var i :| 0 <= i < |lifted| && lifted[i].0 == k;
        assert (defaultKwargs + lifted)[|defaultKwargs| + i].0 == k;
      }
      if Dict.HasKey(defaultKwargs, k) {
        var i :| 0 <= i < |defaultKwargs| && defaultKwargs[i].0 == k;
        assert (defaultKwargs + lifted)[i].0 == k;
      }
    }
    if Dict.HasKey(defaultKwargs, k) || Dict.HasKey(lifted, k) {
      Dict.MergeOverrides(defaultKwargs, lifted, k);
      if Dict.HasKey(actualKwargs, k) {
        LiftLastValue(actualKwargs, k);
      }
    }
  }

  /** A template's keywords keep their place at the front of the merge;
      after them come the call-time names the template lacks, in the order
      they were first passed. */
  lemma MergedKeywordsOrder<V>(defaultKwargs: Dict.Pairs<Entry<V>>, actualKwargs: Dict.Pairs<V>)
    requires Dict.UniqueKeys(defaultKwargs)
    ensures |MergedKeywords(defaultKwargs, actualKwargs)| >= |defaultKwargs|
    ensures forall i :: 0 <= i < |defaultKwargs| ==>
      MergedKeywords(defaultKwargs, actualKwargs)[i].0 == defaultKwargs[i].0
    ensures forall i :: |defaultKwargs| <= i < |MergedKeywords(defaultKwargs, actualKwargs)| ==>
      !Dict.HasKey(defaultKwargs, MergedKeywords(defaultKwargs, actualKwargs)[i].0) &&
      Dict.HasKey(actualKwargs, MergedKeywords(defaultKwargs, actualKwargs)[i].0)
    ensures forall i, j :: |defaultKwargs| <= i < j < |MergedKeywords(defaultKwargs, actualKwargs)| ==>
      Dict.IndexOf(actualKwargs, MergedKeywords(defaultKwargs, actualKwargs)[i].0) <
      Dict.IndexOf(actualKwargs, MergedKeywords(defaultKwargs, actualKwargs)[j].0)
  {
    var lifted := Lift(actualKwargs);
    var m := MergedKeywords(defaultKwargs, actualKwargs);
    Dict.MergeKeepsPositions(defaultKwargs, lifted);
    Dict.MergeAppendsNewKeys(defaultKwargs, lifted);
    forall i | |defaultKwargs| <= i < |m|
      ensures Dict.HasKey(actualKwargs, m[i].0) && Dict.IndexOf(actualKwargs, m[i].0) == Dict.IndexOf(lifted, m[i].0)
    {
      LiftIndexOf(actualKwargs, m[i].0);
    }
  }

  /** Lifting keeps every name where it was. */
  lemma LiftIndexOf<V>(kwargs: Dict.Pairs<V>, k: string)
    requires Dict.HasKey(Lift(kwargs), k)
    ensures Dict.HasKey(kwargs, k) && Dict.IndexOf(kwargs, k) == Dict.IndexOf(Lift(kwargs), k)
  {
    var i := Dict.IndexOf(Lift(kwargs), k);
    assert kwargs[i].0 == k;
    var j := Dict.IndexOf(kwargs, k);
    assert Lift(kwargs)[j].0 == k;
  }

  /** The merge succeeds exactly when every entry of the positional template
      and of the merged keyword template can be resolved; otherwise it
      raises the failure of the first entry that cannot. */
  lemma MergeSucceedsIff<V>(pack: seq<V> -> V, defaultArgs: seq<Entry<V>>, kwargs: Dict.Pairs<Entry<V>>, actualArgs: seq<V>)
    ensures Merge(pack, defaultArgs, kwargs, actualArgs).Success? <==>
      AllOk(defaultArgs + Dict.Values(kwargs), |defaultArgs|, |actualArgs|)
    ensures Merge(pack, defaultArgs, kwargs, actualArgs).Failure? ==>
      exists j: nat :: FirstBad(defaultArgs + Dict.Values(kwargs), |defaultArgs|, |actualArgs|, 0, j) &&
        Merge(pack, defaultArgs, kwargs, actualArgs).error
          == ErrorAt(defaultArgs + Dict.Values(kwargs), |defaultArgs|, j, |actualArgs|)
  {
    var values := Dict.Values(kwargs);
    var p := PositionalPass(defaultArgs, values, actualArgs, pack, 0, Cursor(0, []));
    if p.Success? {
      var k := KeywordPass(values, actualArgs, pack, 0, p.value.1);
      PassesSpec(defaultArgs, values, actualArgs, pack, p, k);
    } else {
      PassesSpec(defaultArgs, values, actualArgs, pack, p, p);
    }
  }

  /** What a successful merge is made of. */
  lemma {:induction false} MergeParts<V>(
    pack: seq<V> -> V, defaultArgs: seq<Entry<V>>, kwargs: Dict.Pairs<Entry<V>>, actualArgs: seq<V>,
    pos: seq<V>, kw: Dict.Pairs<V>, p: Result<(seq<V>, Cursor), CurryError>, k: Result<(seq<V>, Cursor), CurryError>)
    requires Merge(pack, defaultArgs, kwargs, actualArgs) == Success((pos, kw))
    requires p == PositionalPass(defaultArgs, Dict.Values(kwargs), actualArgs, pack, 0, Cursor(0, []))
    requires p.Success? ==> k == KeywordPass(Dict.Values(kwargs), actualArgs, pack, 0, p.value.1)
    ensures p.Success? && k.Success?
    ensures pos == p.value.0 + Drop(actualArgs, MaxUsed(k.value.1.used) + 1)
    ensures Dict.Keys(kw) == Dict.Keys(kwargs) && Dict.Values(kw) == k.value.0
  {
    MergeCases(pack, defaultArgs, kwargs, actualArgs, p, k);
  }

  /** `Merge` as a case split on its two passes: the first failure is
      raised, and otherwise the results are assembled. */
  lemma {:induction false} MergeCases<V>(
    pack: seq<V> -> V, defaultArgs: seq<Entry<V>>, kwargs: Dict.Pairs<Entry<V>>, actualArgs: seq<V>,
    p: Result<(seq<V>, Cursor), CurryError>, k: Result<(seq<V>, Cursor), CurryError>)
    requires p == PositionalPass(defaultArgs, Dict.Values(kwargs), actualArgs, pack, 0, Cursor(0, []))
    requires p.Success? ==> k == KeywordPass(Dict.Values(kwargs), actualArgs, pack, 0, p.value.1)
    ensures p.Failure? ==> Merge(pack, defaultArgs, kwargs, actualArgs) == Failure(p.error)
    ensures p.Success? && k.Failure? ==> Merge(pack, defaultArgs, kwargs, actualArgs) == Failure(k.error)
    ensures p.Success? && k.Success? ==> MergeOfPasses(pack, defaultArgs, kwargs, actualArgs, p, k)
  {
    if p.Success? && k.Success? {
      var pos := p.value.0 + Drop(actualArgs, MaxUsed(k.value.1.used) + 1);
      assert Merge(pack, defaultArgs, kwargs, actualArgs) == Success((pos, Dict.Zip(Dict.Keys(kwargs), k.value.0)));
    }
  }

  ghost predicate MergeOfPasses<V>(
    pack: seq<V> -> V, defaultArgs: seq<Entry<V>>, kwargs: Dict.Pairs<Entry<V>>, actualArgs: seq<V>,
    p: Result<(seq<V>, Cursor), CurryError>, k: Result<(seq<V>, Cursor), CurryError>)
    requires p.Success? && k.Success?
  {
    && |k.value.0| == |kwargs|
    && Merge(pack, defaultArgs, kwargs, actualArgs) ==
         Success((p.value.0 + Drop(actualArgs, MaxUsed(k.value.1.used) + 1), Dict.Zip(Dict.Keys(kwargs), k.value.0)))
  }

  /** On success, every template position holds what its entry resolves to,
      the keyword names are those of the merged keyword template in that
      order, each holding what its value resolves to, and the positional
      result ends with the actual arguments from one past the largest
      consumed index onward. */
  lemma MergeResult<V>(
    pack: seq<V> -> V, defaultArgs: seq<Entry<V>>, kwargs: Dict.Pairs<Entry<V>>, actualArgs: seq<V>,
    pos: seq<V>, kw: Dict.Pairs<V>)
    requires Merge(pack, defaultArgs, kwargs, actualArgs) == Success((pos, kw))
    ensures AllOk(defaultArgs + Dict.Values(kwargs), |defaultArgs|, |actualArgs|)
    ensures |pos| >= |defaultArgs|
    ensures forall i :: 0 <= i < |defaultArgs| ==>
      pos[i] == ValueAt(defaultArgs + Dict.Values(kwargs), |defaultArgs|, i, actualArgs, pack)
    ensures pos[|defaultArgs|..] == Drop(actualArgs, LeftoverStart(defaultArgs + Dict.Values(kwargs), |actualArgs|))
    ensures Dict.Keys(kw) == Dict.Keys(kwargs)
    ensures forall j :: 0 <= j < |kw| ==>
      kw[j].1 == ValueAt(defaultArgs + Dict.Values(kwargs), |defaultArgs|, |defaultArgs| + j, actualArgs, pack)
  {
    MergePositional(pack, defaultArgs, kwargs, actualArgs, pos, kw);
    MergeKeywordValues(pack, defaultArgs, kwargs, actualArgs, pos, kw);
  }

  lemma MergePositional<V>(
    pack: seq<V> -> V, defaultArgs: seq<Entry<V>>, kwargs: Dict.Pairs<Entry<V>>, actualArgs: seq<V>,
    pos: seq<V>, kw: Dict.Pairs<V>)
    requires Merge(pack, defaultArgs, kwargs, actualArgs) == Success((pos, kw))
    ensures AllOk(defaultArgs + Dict.Values(kwargs), |defaultArgs|, |actualArgs|)
    ensures |pos| >= |defaultArgs|
    ensures forall i :: 0 <= i < |defaultArgs| ==>
      pos[i] == ValueAt(defaultArgs + Dict.Values(kwargs), |defaultArgs|, i, actualArgs, pack)
    ensures pos[|defaultArgs|..] == Drop(actualArgs, LeftoverStart(defaultArgs + Dict.Values(kwargs), |actualArgs|))
  {
    var values := Dict.Values(kwargs);
    var p := PositionalPass(defaultArgs, values, actualArgs, pack, 0, Cursor(0, []));
    var k := KeywordPass(values, actualArgs, pack, 0, p.value.1);
    MergeParts(pack, defaultArgs, kwargs, actualArgs, pos, kw, p, k);
    PassesSpec(defaultArgs, values, actualArgs, pack, p, k);
    PrefixValues(pos, p.value.0, Drop(actualArgs, MaxUsed(k.value.1.used) + 1));
  }

  lemma MergeKeywordValues<V>(
    pack: seq<V> -> V, defaultArgs: seq<Entry<V>>, kwargs: Dict.Pairs<Entry<V>>, actualArgs: seq<V>,
    pos: seq<V>, kw: Dict.Pairs<V>)
    requires Merge(pack, defaultArgs, kwargs, actualArgs) == Success((pos, kw))
    ensures AllOk(defaultArgs + Dict.Values(kwargs), |defaultArgs|, |actualArgs|)
    ensures Dict.Keys(kw) == Dict.Keys(kwargs)
    ensures forall j :: 0 <= j < |kw| ==>
      kw[j].1 == ValueAt(defaultArgs + Dict.Values(kwargs), |defaultArgs|, |defaultArgs| + j, actualArgs, pack)
  {
    var values := Dict.Values(kwargs);
    var p := PositionalPass(defaultArgs, values, actualArgs, pack, 0, Cursor(0, []));
    var k := KeywordPass(values, actualArgs, pack, 0, p.value.1);
    MergeParts(pack, defaultArgs, kwargs, actualArgs, pos, kw, p, k);
    PassesSpec(defaultArgs, values, actualArgs, pack, p, k);
    forall j | 0 <= j < |kw|
      ensures kw[j].1 == ValueAt(defaultArgs + values, |defaultArgs|, |defaultArgs| + j, actualArgs, pack)
    {
      assert kw[j].1 == Dict.Values(kw)[j];
    }
  }

  lemma PrefixValues<V>(pos: seq<V>, front: seq<V>, back: seq<V>)
    requires pos == front + back
    ensures pos[..|front|] == front && pos[|front|..] == back
  {
  }
}

=== FILE: dict.dfy ===
/** Python 3.7+ keyword dictionaries as association lists in insertion order.

    `d[k] = v` keeps the position of an existing key and appends a new one;
    `dict(a, **b)` starts from the pairs of `a` and then stores the pairs of `b`
    in order. `merge_arguments` relies on both when it walks
    `merged_default_kwargs.items()` positionally. */
module Dict {
  import opened Wrappers

  type Pairs<W> = seq<(string, W)>

  function Keys<W>(d: Pairs<W>): (ks: seq<string>)
    ensures |ks| == |d|
    ensures forall i {:trigger ks[i]} :: 0 <= i < |d| ==> ks[i] == d[i].0
  {
    if d == [] then [] else [d[0].0] + Keys(d[1..])
  }

  function Values<W>(d: Pairs<W>): (vs: seq<W>)
    ensures |vs| == |d|
    ensures forall i {:trigger vs[i]} :: 0 <= i < |d| ==> vs[i] == d[i].1
  {
    if d == [] then [] else [d[0].1] + Values(d[1..])
  }

  /** Pairs up keys and values position by position. */
  function Zip<W>(ks: seq<string>, vs: seq<W>): (d: Pairs<W>)
    requires |ks| == |vs|
    ensures Keys(d) == ks && Values(d) == vs
  {
    if ks == [] then [] else [(ks[0], vs[0])] + Zip(ks[1..], vs[1..])
  }

  /** No key occurs twice, as in every Python dict. */
  predicate UniqueKeys<W>(d: Pairs<W>) {
    forall i, j :: 0 <= i < j < |d| ==> d[i].0 != d[j].0
  }

  predicate HasKey<W>(d: Pairs<W>, k: string) {
    exists i :: 0 <= i < |d| && d[i].0 == k
  }

  /** Position of the first pair whose key is `k`. */
  function IndexOf<W>(d: Pairs<W>, k: string): (r: nat)
    requires HasKey(d, k)
    ensures r < |d| && d[r].0 == k
    ensures forall j :: 0 <= j < r ==> d[j].0 != k
  {
    if d[0].0 == k then 0
    else
      assert HasKey(d[1..], k) by {
        var i :| 0 <= i < |d| && d[i].0 == k;
        assert d[1..][i - 1].0 == k;
      }
      1 + IndexOf(d[1..], k)
  }

  /** `d[k]` as an Option: the value of the first pair for `k`. */
  function Get<W>(d: Pairs<W>, k: string): (r: Option<W>)
    ensures r.None? <==> !HasKey(d, k)
    ensures r.Some? ==> r.value == d[IndexOf(d, k)].1
  {
    if HasKey(d, k) then Some(d[IndexOf(d, k)].1) else None
  }

  /** `d[k] = v`: an existing key keeps its position and only its value
      changes; a new key is appended at the end (what lookups see:
      `StoreSpec`). */
  function Store<W>(d: Pairs<W>, k: string, v: W): Pairs<W> {
    if HasKey(d, k) then d[IndexOf(d, k) := (k, v)] else d + [(k, v)]
  }

  /** What `d[k] = v` means for lookups: `k` now maps to `v`, every other key
      keeps its value, the keys are those of `d` and `k`, and a dict stays a
      dict. */
  lemma StoreSpec<W>(d: Pairs<W>, k: string, v: W)
    ensures Get(Store(d, k, v), k) == Some(v)
    ensures forall k' :: k' != k ==> Get(Store(d, k, v), k') == Get(d, k')
    ensures forall k' :: HasKey(Store(d, k, v), k') <==> HasKey(d, k') || k' == k
    ensures UniqueKeys(d) ==> UniqueKeys(Store(d, k, v))
  {
    var r := Store(d, k, v);
    assert |r| >= |d|;
    assert forall i :: 0 <= i < |d| ==> (r[i].0 == d[i].0 || d[i].0 == k) && (r[i].0 == k || r[i].0 == d[i].0);
    assert HasKey(r, k) by {
      if HasKey(d, k) { assert r[IndexOf(d, k)].0 == k; } else { assert r[|d|].0 == k; }
    }
    assert IndexOf(r, k) == if HasKey(d, k) then IndexOf(d, k) else |d|;
    forall k' | k' != k
      ensures Get(r, k') == Get(d, k')
      ensures HasKey(r, k') <==> HasKey(d, k')
    {
      if HasKey(d, k') {
        var i := IndexOf(d, k');
        assert r[i] == d[i];
        assert HasKey(r, k');
        assert IndexOf(r, k') == i;
      }
      if HasKey(r, k') {
        var i :| 0 <= i < |r| && r[i].0 == k';
        assert i < |d| && d[i].0 == k';
      }
    }
  }

  /** The value the last pair for `k` carries: who wins when `k` repeats. */
  function LastValue<W>(ps: Pairs<W>, k: string): W
    requires HasKey(ps, k)
  {
    var last := ps[|ps| - 1];
    if last.0 == k then last.1
    else
      assert HasKey(ps[..|ps| - 1], k) by {
        var i :| 0 <= i < |ps| && ps[i].0 == k;
        assert ps[..|ps| - 1][i].0 == k;
      }
      LastValue(ps[..|ps| - 1], k)
  }

  /** `dict(pairs)`: store every pair in order into an empty dict. */
  function FromPairs<W>(ps: Pairs<W>): (d: Pairs<W>)
    ensures UniqueKeys(d)
    ensures forall k :: HasKey(d, k) <==> HasKey(ps, k)
    ensures forall k :: HasKey(ps, k) ==> Get(d, k) == Some(LastValue(ps, k))
    decreases |ps|
  {
    if ps == [] then []
    else
      var init := ps[..|ps| - 1];
      var prev := FromPairs(init);
      StoreKeys(init, prev, ps[|ps| - 1].0, ps[|ps| - 1].1);
      StoreValues(init, prev, ps[|ps| - 1].0, ps[|ps| - 1].1);
      assert init + [ps[|ps| - 1]] == ps;
      Store(prev, ps[|ps| - 1].0, ps[|ps| - 1].1)
  }

  /** One more pair stored into the dict of `init` has the keys of
      `init + [(k, v)]`. */
  lemma StoreKeys<W>(init: Pairs<W>, prev: Pairs<W>, k: string, v: W)
    requires UniqueKeys(prev)
    requires forall k' :: HasKey(prev, k') <==> HasKey(init, k')
    ensures UniqueKeys(Store(prev, k, v))
    ensures forall k' :: HasKey(Store(prev, k, v), k') <==> HasKey(init + [(k, v)], k')
  {
    var d := Store(prev, k, v);
    var ps := init + [(k, v)];
    forall k' ensures HasKey(d, k') <==> HasKey(ps, k') {
      if HasKey(ps, k') && k' != k {
        var i :| 0 <= i < |ps| && ps[i].0 == k';
        assert init[i].0 == k';
      }
      if HasKey(prev, k') {
        var i :| 0 <= i < |prev| && prev[i].0 == k';
        assert d[i].0 == k';
      }
      if HasKey(init, k') {
        var i :| 0 <= i < |init| && init[i].0 == k';
        assert ps[i].0 == k';
      }
      if k' == k {
        assert HasKey(d, k) by {
          if HasKey(prev, k) { assert d[IndexOf(prev, k)].0 == k; } else { assert d[|d| - 1].0 == k; }
        }
        assert ps[|ps| - 1].0 == k;
      }
    }
  }

  /** One more pair stored into the dict of `init` holds the last value of
      every key of `init + [(k, v)]`. */
  lemma StoreValues<W>(init: Pairs<W>, prev: Pairs<W>, k: string, v: W)
    requires UniqueKeys(prev)
    requires forall k' :: HasKey(prev, k') <==> HasKey(init, k')
    requires forall k' :: HasKey(init, k') ==> Get(prev, k') == Some(LastValue(init, k'))
    ensures forall k' :: HasKey(init + [(k, v)], k') ==> Get(Store(prev, k, v), k') == Some(LastValue(init + [(k, v)], k'))
  {
    var d := Store(prev, k, v);
    var ps := init + [(k, v)];
    StoreKeys(init, prev, k, v);
    assert ps[..|ps| - 1] == init;
    forall k' | HasKey(ps, k') ensures Get(d, k') == Some(LastValue(ps, k')) {
      if k' == k {
        if HasKey(prev, k) {
          assert IndexOf(d, k) == IndexOf(prev, k);
        } else {
          assert IndexOf(d, k) == |prev|;
        }
      } else {
        assert HasKey(init, k') by {
          var i :| 0 <= i < |ps| && ps[i].0 == k';
          assert init[i].0 == k';
        }
        StoreOtherKey(prev, k, v, k');
      }
    }
  }

  lemma StoreOtherKey<W>(d: Pairs<W>, k: string, v: W, k': string)
    requires UniqueKeys(d) && k' != k && HasKey(d, k')
    ensures Get(Store(d, k, v), k') == Get(d, k')
  {
    var r := Store(d, k, v);
    var i := IndexOf(d, k');
    assert r[i] == d[i];
    assert HasKey(r, k');
    assert IndexOf(r, k') == i;
  }

  /** `dict(d)` of something that already is a dict changes nothing. */
  lemma {:induction false} FromPairsOfDict<W>(ps: Pairs<W>)
    requires UniqueKeys(ps)
    ensures FromPairs(ps) == ps
    decreases |ps|
  {
    if ps != [] {
      var init := ps[..|ps| - 1];
      FromPairsOfDict(init);
      assert !HasKey(init, ps[|ps| - 1].0);
      assert init + [ps[|ps| - 1]] == ps;
    }
  }

  /** `dict(a, **b)`: the keys of `a` keep their positions (only values may
      change), and every key of the result comes from `a` or `b`. */
  lemma {:induction false} MergeKeepsPositions<W>(a: Pairs<W>, b: Pairs<W>)
    requires UniqueKeys(a)
    ensures |FromPairs(a + b)| >= |a|
    ensures forall i :: 0 <= i < |a| ==> FromPairs(a + b)[i].0 == a[i].0
    decreases |b|
  {
    if b == [] {
      assert a + b == a;
      FromPairsOfDict(a);
    } else {
      var b' := b[..|b| - 1];
      MergeKeepsPositions(a, b');
      assert (a + b)[..|a + b| - 1] == a + b';
    }
  }

  /** Past position `|a|`, `r` holds only keys of `b` that `a` lacks, in
      the order of their first occurrence in `b`. */
  predicate NewKeysInOrder<W>(r: Pairs<W>, a: Pairs<W>, b: Pairs<W>) {
    && |r| >= |a|
    && (forall i :: |a| <= i < |r| ==> !HasKey(a, r[i].0) && HasKey(b, r[i].0))
    && (forall i, j :: |a| <= i < j < |r| ==> IndexOf(b, r[i].0) < IndexOf(b, r[j].0))
  }

  /** `dict(a, **b)`: after the keys of `a` come the keys of `b` that `a`
      lacks, in the order of their first occurrence in `b`. */
  lemma {:induction false} MergeAppendsNewKeys<W>(a: Pairs<W>, b: Pairs<W>)
    requires UniqueKeys(a)
    ensures NewKeysInOrder(FromPairs(a + b), a, b)
    decreases |b|
  {
    if b == [] {
      assert a + b == a;
      FromPairsOfDict(a);
    } else {
      var b' := b[..|b| - 1];
      var (k, v) := b[|b| - 1];
      assert b' + [(k, v)] == b;
      MergeAppendsNewKeys(a, b');
      assert (a + b)[..|a + b| - 1] == a + b';
      var prev := FromPairs(a + b');
      ConcatHasKey(a, b', k);
      NewKeyStored(a, b', prev, k, v);
    }
  }

  lemma ConcatHasKey<W>(a: Pairs<W>, b: Pairs<W>, k: string)
    ensures HasKey(a + b, k) <==> HasKey(a, k) || HasKey(b, k)
  {
    if HasKey(a + b, k) {
      var i :| 0 <= i < |a + b| && (a + b)[i].0 == k;
      if i >= |a| {
        assert b[i - |a|].0 == k;
      }
    }
    if HasKey(a, k) {
      var i :| 0 <= i < |a| && a[i].0 == k;
      assert (a + b)[i].0 == k;
    }
    if HasKey(b, k) {
      var i :| 0 <= i < |b| && b[i].0 == k;
      assert (a + b)[|a| + i].0 == k;
    }
  }

  /** One more pair of `b` stored keeps the new keys in order: an existing
      key leaves the keys as they are, a new one lands last. */
  lemma NewKeyStored<W>(a: Pairs<W>, b: Pairs<W>, prev: Pairs<W>, k: string, v: W)
    requires NewKeysInOrder(prev, a, b)
    requires HasKey(prev, k) || (!HasKey(a, k) && !HasKey(b, k))
    ensures NewKeysInOrder(Store(prev, k, v), a, b + [(k, v)])
  {
    var r := Store(prev, k, v);
    var b2 := b + [(k, v)];
    forall i | |a| <= i < |prev| ensures HasKey(b2, prev[i].0) && IndexOf(b2, prev[i].0) == IndexOf(b, prev[i].0) {
      IndexOfSnoc(b, (k, v), prev[i].0);
    }
    if HasKey(prev, k) {
      assert forall i :: 0 <= i < |r| ==> r[i].0 == prev[i].0;
    } else {
      assert r == prev + [(k, v)];
      assert b2[|b|].0 == k;
      assert IndexOf(b2, k) == |b|;
    }
  }

  /** Appending a pair does not move the first occurrence of a key already
      present. */
  lemma IndexOfSnoc<W>(d: Pairs<W>, p: (string, W), k: string)
    requires HasKey(d, k)
    ensures HasKey(d + [p], k) && IndexOf(d + [p], k) == IndexOf(d, k)
  {
    assert (d + [p])[IndexOf(d, k)].0 == k;
  }

  /** `dict(a, **b)`: a key given in `b` takes `b`'s value, any other key
      keeps `a`'s: call-time keywords override curry-time ones. */
  lemma {:induction false} MergeOverrides<W>(a: Pairs<W>, b: Pairs<W>, k: string)
    requires HasKey(a, k) || HasKey(b, k)
    ensures HasKey(b, k) ==> Get(FromPairs(a + b), k) == Some(LastValue(b, k))
    ensures !HasKey(b, k) ==> Get(FromPairs(a + b), k) == Some(LastValue(a, k))
  {
    assert HasKey(a + b, k) by {
      if HasKey(b, k) {
        var i :| 0 <= i < |b| && b[i].0 == k;
        assert (a + b)[|a| + i].0 == k;
      } else {
        var i :| 0 <= i < |a| && a[i].0 == k;
        assert (a + b)[i].0 == k;
      }
    }
    LastValueOfConcat(a, b, k);
  }

  lemma {:induction false} LastValueOfConcat<W>(a: Pairs<W>, b: Pairs<W>, k: string)
    requires HasKey(a + b, k)
    ensures HasKey(b, k) ==> LastValue(a + b, k) == LastValue(b, k)
    ensures !HasKey(b, k) ==> HasKey(a, k) && LastValue(a + b, k) == LastValue(a, k)
    decreases |b|
  {
    if b == [] {
      assert a + b == a;
    } else {
      var b' := b[..|b| - 1];
      assert (a + b)[..|a + b| - 1] == a + b';
      if b[|b| - 1].0 != k {
        assert HasKey(a + b', k) by {
          var i :| 0 <= i < |a + b| && (a + b)[i].0 == k;
          assert (a + b')[i].0 == k;
        }
        LastValueOfConcat(a, b', k);
        if HasKey(b, k) {
          var i :| 0 <= i < |b| && b[i].0 == k;
          assert b'[i].0 == k;
        }
        if HasKey(b', k) {
          var i :| 0 <= i < |b'| && b'[i].0 == k;
          assert b[i].0 == k;
        }
      }
    }
  }
}

=== FILE: dispatch.dfy ===
/** Capability dispatch of `wrap`: which wrapper class a raw value gets.

    Python's `isinstance` tests against `types.ModuleType`, `typing.Text`,
    `typing.Mapping`, `typing.AbstractSet`, `typing.Iterable` and
    `typing.Callable` are host reflection; here each one is a flag of `Caps`,
    and a value may raise several of them at once (a dict is also iterable, a
    str is also iterable, an object can be both iterable and callable). */
module Dispatch {

  datatype Caps = Caps(
    isModule: bool,
    isText: bool,
    isMapping: bool,
    isSet: bool,
    isIterable: bool,
    isCallable: bool)

  /** The wrapper classes `wrap` can produce (ModuleWrapper, TextWrapper,
      MappingWrapper, SetWrapper, IterableWrapper, CallableWrapper, Wrapper). */
  datatype Kind = ModuleKind | TextKind | MappingKind | SetKind | IterableKind | CallableKind | PlainKind

  /** Does the value pass the `isinstance` test that selects kind `k`?
      Every value passes the test of the plain `Wrapper` fallback. */
  predicate Admits(c: Caps, k: Kind) {
    match k
    case ModuleKind => c.isModule
    case TextKind => c.isText
    case MappingKind => c.isMapping
    case SetKind => c.isSet
    case IterableKind => c.isIterable
    case CallableKind => c.isCallable
    case PlainKind => true
  }

  /** Position of a kind in the `by_type` table; the fallback comes last. */
  function Rank(k: Kind): nat {
    match k
    case ModuleKind => 0
    case TextKind => 1
    case MappingKind => 2
    case SetKind => 3
    case IterableKind => 4
    case CallableKind => 5
    case PlainKind => 6
  }

  /** The `by_type` loop of `wrap`: the first class the value is an instance of. */
  function Classify(c: Caps): (k: Kind)
    ensures Admits(c, k)
    ensures forall k' :: Admits(c, k') ==> Rank(k) <= Rank(k')
  {
    if c.isModule then ModuleKind
    else if c.isText then TextKind
    else if c.isMapping then MappingKind
    else if c.isSet then SetKind
    else if c.isIterable then IterableKind
    else if c.isCallable then CallableKind
    else PlainKind
  }

  /** Ranks are distinct, so the first-match choice is the only kind with the
      two properties of `Classify`'s contract: dispatch is deterministic. */
  lemma ClassifyIsUnique(c: Caps, k: Kind)
    requires Admits(c, k)
    requires forall k' :: Admits(c, k') ==> Rank(k) <= Rank(k')
    ensures k == Classify(c)
  {
    var r := Classify(c);
    assert Rank(k) <= Rank(r) && Rank(r) <= Rank(k);
  }

  /** A mapping is always a MappingWrapper, although it is iterable (and a set
      too, for a mapping that is also a set), unless it is text or a module. */
  lemma MappingBeatsIterable(c: Caps)
    requires c.isMapping && !c.isModule && !c.isText
    ensures Classify(c) == MappingKind
  {
  }

  /** A str is always a TextWrapper, although it is iterable. */
  lemma TextBeatsIterable(c: Caps)
    requires c.isText && !c.isModule
    ensures Classify(c) == TextKind
  {
  }

  /** A value that is iterable and callable is an IterableWrapper, so calling
      it through the wrapper is not available. */
  lemma IterableBeatsCallable(c: Caps)
    requires c.isIterable && c.isCallable && !c.isModule && !c.isText && !c.isMapping && !c.isSet
    ensures Classify(c) == IterableKind
  {
  }
}

=== FILE: each.dfy ===
/** The `each` expression builder of `fluentpy/wrapper.py` (`EachWrapper`,
    `_make_operator`, `_make_reverse_operator`, `identity`).

    A builder is the list of stages applied so far; both its function (a fold
    of `CallableWrapper.compose` starting from `identity`) and its name (a
    fold of the name rendering starting from `'each'`) are derived from that
    list. Python objects are an abstract domain `V`; attribute access, item
    access, calling, containment, operators and `repr` are supplied by a
    `Host` and left uninterpreted, except for the classification `wrap`
    performs, which decides how an attribute stage and a call stage behave. */
module Each {
  import opened Wrappers
  import opened Dispatch
  import Dict

  /** What the Python runtime provides for objects of type `V`. */
  datatype Host<!V> = Host(
    caps: V -> Caps,                           // the isinstance checks of `wrap`
    isNone: V -> bool,                         // obj is None
    hasKey: (V, string) -> bool,               // `name in mapping`
    text: string -> V,                         // the str object with these characters
    getattr: (V, string) -> V,                 // getattr(obj, name)
    getitem: (V, V) -> V,                      // obj[key]
    call: (V, seq<V>, Dict.Pairs<V>) -> V,     // obj(*args, **kwargs)
    hasContains: V -> bool,                    // the type of haystack defines __contains__
    containsMethod: (V, V) -> V,               // haystack.__contains__(needle), as returned
    isIn: (V, V) -> bool,                      // needle in haystack (__contains__ made a bool, else iteration)
    boolean: bool -> V,                        // True / False
    op: (string, V, seq<V>) -> V,              // getattr(operator, name)(x, *others)
    repr: V -> string,                         // repr(obj)
    reprText: string -> string)                // repr of a str

  datatype Stage<V> =
    | Attr(name: string)                              // each.name
    | Item(key: V)                                    // each[key]
    | Call(args: seq<V>, kwargs: Dict.Pairs<V>)       // each(*args, **kwargs)
    | In(haystack: V)                                 // each.in_(haystack)
    | NotIn(haystack: V)                              // each.not_in(haystack)

  /** An `EachWrapper`: the root `each` is `Builder([])`. */
  datatype Builder<V> = Builder(stages: seq<Stage<V>>)

  datatype EachError =
    | NotCallable    // TypeError: the wrapper of a non-callable has no __call__
    | NoSuchOperator // TypeError: EachWrapper defines no such reflected operator
    | CannotChainOffNone // AssertionError: `_(None)` has no previous wrapper
    | NoContainsMethod   // AttributeError: `haystack.__contains__` does not exist

  type Fn<!V> = V -> Result<V, EachError>

  // ---------------------------------------------------------------------
  // One stage on one object.

  /** `_(obj).__getattr__(name)._`: the method is called explicitly, so a
      mapping holding the key answers with the item (MappingWrapper), and
      nothing defined on the wrapper classes shadows the object's own
      attribute. */
  function AttrOf<V>(host: Host<V>, obj: V, name: string): (r: V)
    ensures Classify(host.caps(obj)) == MappingKind && host.hasKey(obj, name) ==> r == host.getitem(obj, host.text(name))
    ensures !(Classify(host.caps(obj)) == MappingKind && host.hasKey(obj, name)) ==> r == host.getattr(obj, name)
  {
    if Classify(host.caps(obj)) == MappingKind && host.hasKey(obj, name) then host.getitem(obj, host.text(name))
    else host.getattr(obj, name)
  }

  /** The function one stage adds to the chain. The attribute, item and call
      stages first wrap the object with `_(obj)`, which refuses `None`
      (there is no previous wrapper to chain off); `in_` and `not_in` use
      the object directly. */
  function Apply<V>(host: Host<V>, s: Stage<V>, obj: V): Result<V, EachError> {
    match s
    case Attr(name) => if host.isNone(obj) then Failure(CannotChainOffNone) else Success(AttrOf(host, obj, name))
    case Item(key) => if host.isNone(obj) then Failure(CannotChainOffNone) else Success(host.getitem(obj, key))
    case Call(args, kwargs) =>
      if host.isNone(obj) then Failure(CannotChainOffNone)
      else if Classify(host.caps(obj)) == CallableKind then Success(host.call(obj, args, kwargs))
      else Failure(NotCallable)
    case In(h) => Success(host.containsMethod(h, obj))
    case NotIn(h) => Success(host.boolean(!host.isIn(h, obj)))
  }

  /** Reference semantics: the stages applied left to right, the first
      failure ending the evaluation. */
  function Run<V>(host: Host<V>, stages: seq<Stage<V>>, obj: V): Result<V, EachError> {
    if stages == [] then Success(obj)
    else
      var y :- Apply(host, stages[0], obj);
      Run(host, stages[1..], y)
  }

  // ---------------------------------------------------------------------
  // The builder's function, as the source builds it.

  /** `identity`, the function of the root `each`. */
  function Identity<V>(): Fn<V> {
    x => Success(x)
  }

  /** `inner.compose(outer)` is `lambda *a, **k: outer(inner(*a, **k))`; an
      exception raised by `inner` propagates. */
  function Compose<V>(inner: Fn<V>, outer: Fn<V>): Fn<V> {
    x => if inner(x).Failure? then Failure(inner(x).error) else outer(inner(x).value)
  }

  function StageFn<V>(host: Host<V>, s: Stage<V>): Fn<V> {
    x => Apply(host, s, x)
  }

  /** `builder._`: every stage composed onto the function built so far. */
  function Denote<V>(host: Host<V>, stages: seq<Stage<V>>): Fn<V> {
    if stages == [] then Identity()
    else Compose(Denote(host, stages[..|stages| - 1]), StageFn(host, stages[|stages| - 1]))
  }

  lemma {:induction false} RunSnoc<V>(host: Host<V>, stages: seq<Stage<V>>, s: Stage<V>, obj: V)
    ensures Run(host, stages + [s], obj) ==
      if Run(host, stages, obj).Failure? then Failure(Run(host, stages, obj).error)
      else Apply(host, s, Run(host, stages, obj).value)
    decreases |stages|
  {
    if stages == [] {
      assert [] + [s] == [s];
      assert [s][1..] == [];
    } else {
      assert (stages + [s])[0] == stages[0];
      assert (stages + [s])[1..] == stages[1..] + [s];
      var y := Apply(host, stages[0], obj);
      if y.Success? {
        RunSnoc(host, stages[1..], s, y.value);
      }
    }
  }

  /** The composed function is the left-to-right evaluation of the stages. */
  lemma {:induction false} DenoteIsRun<V>(host: Host<V>, stages: seq<Stage<V>>, obj: V)
    ensures Denote(host, stages)(obj) == Run(host, stages, obj)
    decreases |stages|
  {
    if stages != [] {
      var front := stages[..|stages| - 1];
      var last := stages[|stages| - 1];
      DenoteIsRun(host, front, obj);
      assert front + [last] == stages;
      RunSnoc(host, front, last, obj);
    }
  }

  /** Running the stages of `a + b` runs `a`, then `b` on its result. */
  lemma {:induction false} RunConcat<V>(host: Host<V>, a: seq<Stage<V>>, b: seq<Stage<V>>, obj: V)
    ensures Run(host, a + b, obj) ==
      if Run(host, a, obj).Failure? then Failure(Run(host, a, obj).error)
      else Run(host, b, Run(host, a, obj).value)
    decreases |a|
  {
    if a == [] {
      assert [] + b == b;
    } else {
      assert (a + b)[0] == a[0];
      assert (a + b)[1..] == a[1..] + b;
      var y := Apply(host, a[0], obj);
      if y.Success? {
        RunConcat(host, a[1..], b, y.value);
      }
    }
  }

  // ---------------------------------------------------------------------
  // Names and repr.

  function Join(parts: seq<string>, sep: string): string {
    if parts == [] then "" else if |parts| == 1 then parts[0] else parts[0] + sep + Join(parts[1..], sep)
  }

  /** `repr` of a tuple: `()`, `(a,)`, `(a, b)`. */
  function TupleRepr<V>(host: Host<V>, xs: seq<V>): string {
    var parts := seq(|xs|, i requires 0 <= i < |xs| => host.repr(xs[i]));
    if |xs| == 1 then "(" + parts[0] + ",)" else "(" + Join(parts, ", ") + ")"
  }

  /** `repr` of a dict with str keys: `{'k': v, ...}`. */
  function DictRepr<V>(host: Host<V>, kw: Dict.Pairs<V>): string {
    "{" + Join(seq(|kw|, i requires 0 <= i < |kw| => host.reprText(kw[i].0) + ": " + host.repr(kw[i].1)), ", ") + "}"
  }

  /** The name a stage appends. */
  function Suffix<V>(host: Host<V>, s: Stage<V>): string {
    match s
    case Attr(name) => "." + name
    case Item(key) => "[" + host.repr(key) + "]"
    case Call(args, kwargs) => "(*" + TupleRepr(host, args) + ", **" + DictRepr(host, kwargs) + ")"
    case In(h) => " in " + host.repr(h)
    case NotIn(h) => " not in " + host.repr(h)
  }

  /** The `__name` an `EachWrapper` carries. */
  function Name<V>(host: Host<V>, stages: seq<Stage<V>>): string {
    if stages == [] then "each"
    else Name(host, stages[..|stages| - 1]) + Suffix(host, stages[|stages| - 1])
  }

  /** `repr(builder)` (and `str`). */
  function Repr<V>(host: Host<V>, b: Builder<V>): (r: string)
    ensures "fluentpy.wrap(" <= r && r[|r| - 1] == ')'
  {
    "fluentpy.wrap(" + Name(host, b.stages) + ")"
  }

  /** The repr is the builder's name and nothing else between
      `fluentpy.wrap(` and `)`. */
  lemma ReprShape<V>(host: Host<V>, b: Builder<V>)
    ensures |Repr(host, b)| == |Name(host, b.stages)| + 15
    ensures Repr(host, b)[..14] == "fluentpy.wrap("
    ensures Repr(host, b)[14..|Repr(host, b)| - 1] == Name(host, b.stages)
    ensures Repr(host, b)[|Repr(host, b)| - 1] == ')'
  {
  }

  /** Every name starts with `each`. */
  lemma {:induction false} NameStartsWithEach<V>(host: Host<V>, stages: seq<Stage<V>>)
    ensures "each" <= Name(host, stages)
  {
    if stages != [] {
      var front := stages[..|stages| - 1];
      NameStartsWithEach(host, front);
      PrefixOfConcat("each", Name(host, front), Suffix(host, stages[|stages| - 1]));
    }
  }

  lemma PrefixOfConcat(p: string, x: string, y: string)
    requires p <= x
    ensures p <= x + y
  {
    assert (x + y)[..|p|] == x[..|p|];
  }

  lemma NameSnoc<V>(host: Host<V>, front: seq<Stage<V>>, s: Stage<V>)
    ensures Name(host, front + [s]) == Name(host, front) + Suffix(host, s)
  {
    assert (front + [s])[..|front|] == front;
  }

  /** Names only grow: each further stage appends to the name built so far. */
  lemma {:induction false} NameExtends<V>(host: Host<V>, a: seq<Stage<V>>, b: seq<Stage<V>>)
    ensures Name(host, a) <= Name(host, a + b)
    decreases |b|
  {
    if b == [] {
      assert a + b == a;
    } else {
      var front := a + b[..|b| - 1];
      assert a + b == front + [b[|b| - 1]];
      NameSnoc(host, front, b[|b| - 1]);
      NameExtends(host, a, b[..|b| - 1]);
      PrefixOfConcat(Name(host, a), Name(host, front), Suffix(host, b[|b| - 1]));
    }
  }

  // ---------------------------------------------------------------------
  // The builder operations.

  /** The attributes `EachWrapper` defines in its own body, given the list
      of reflected operator names its loop defines, and the two its
      `__init__` sets on every instance. */
  function DefinedNamesWith(reflected: seq<string>): (r: set<string>)
    ensures forall i :: 0 <= i < |reflected| ==> reflected[i] in r
    ensures forall n :: n in r && n !in reflected ==> n in BodyNames
  {
    BodyNames + set i | 0 <= i < |reflected| :: reflected[i]
  }

  /** The class body's names apart from the reflected operators. */
  const BodyNames: set<string> :=
    {"__init__", "unwrap", "_", "__repr__", "__str__", "in_", "not_in",
     "__getattr__", "__getitem__", "__call__", "_EachWrapper__operation", "_EachWrapper__name"}

  /** The class body's names with the corrected reflected list (see
      `ReflectedOrIsMissing`); `ClassBodyAsWritten` shows the difference. */
  const DefinedNames: set<string> := DefinedNamesWith(ReflectedNames)

  /** Normal attribute lookup finds `name` on the instance or its class: the
      names defined in the class body, or one of `inherited`, the names the
      class gets from `object` and the class machinery (`__dict__`,
      `__module__`, ...) and the dunder names of the `operator` module (which
      `dir(operator)` decides, so it is a parameter; for the root `each` it
      also holds the instance attributes `__name__` and `__doc__`). Any other
      name falls through to `__getattr__` and builds a stage. */
  predicate IsOwnName(inherited: set<string>, name: string) {
    IsOwnNameWith(inherited, ReflectedNames, name)
  }

  predicate IsOwnNameWith(inherited: set<string>, reflected: seq<string>, name: string) {
    name in DefinedNamesWith(reflected) || name in inherited
  }

  datatype Access<V> = NewBuilder(builder: Builder<V>) | OwnMember(name: string)

  /** `builder.name` */
  function GetAttr<V>(inherited: set<string>, b: Builder<V>, name: string): (r: Access<V>)
    ensures r.OwnMember? <==> IsOwnName(inherited, name)
    ensures r.NewBuilder? ==> r.builder.stages == b.stages + [Attr(name)]
  {
    GetAttrWith(inherited, ReflectedNames, b, name)
  }

  /** `builder.name` for a class body whose loop defines `reflected`. */
  function GetAttrWith<V>(inherited: set<string>, reflected: seq<string>, b: Builder<V>, name: string): (r: Access<V>)
    ensures r.OwnMember? <==> IsOwnNameWith(inherited, reflected, name)
    ensures r.NewBuilder? ==> r.builder.stages == b.stages + [Attr(name)]
  {
    if IsOwnNameWith(inherited, reflected, name) then OwnMember(name)
    else NewBuilder(Builder(b.stages + [Attr(name)]))
  }

  /** `builder[key]` (what it computes: `ItemStage`) */
  function GetItem<V>(b: Builder<V>, key: V): Builder<V> {
    Builder(b.stages + [Item(key)])
  }

  /** `builder(*args, **kwargs)` (what it computes: `CallStage`) */
  function CallWith<V>(b: Builder<V>, args: seq<V>, kwargs: Dict.Pairs<V>): Builder<V> {
    Builder(b.stages + [Call(args, kwargs)])
  }

  /** `builder.in_(haystack)` reads the bound method `haystack.__contains__`
      when the builder is made, so a haystack without one (a generator, say)
      is refused there (what the builder computes: `InStage`). */
  function InOp<V>(host: Host<V>, b: Builder<V>, haystack: V): (r: Result<Builder<V>, EachError>)
    ensures r.Success? <==> host.hasContains(haystack)
    ensures r.Failure? ==> r.error == NoContainsMethod
  {
    if host.hasContains(haystack) then Success(Builder(b.stages + [In(haystack)]))
    else Failure(NoContainsMethod)
  }

  /** `builder.not_in(haystack)`, which uses the `in` operator only when
      called (what it computes: `NotInStage`) */
  function NotInOp<V>(b: Builder<V>, haystack: V): Builder<V> {
    Builder(b.stages + [NotIn(haystack)])
  }

  /** The class body shadows `__getattr__`: its own methods, the reflected
      operators among them, are found before any stage is built. */
  lemma ClassBodyShadows<V>(inherited: set<string>, b: Builder<V>)
    ensures forall i :: 0 <= i < |ReflectedNames| ==> GetAttr(inherited, b, ReflectedNames[i]).OwnMember?
    ensures GetAttr(inherited, b, "__getattr__").OwnMember? && GetAttr(inherited, b, "__call__").OwnMember?
    ensures "foo" !in inherited ==> GetAttr(inherited, b, "foo") == NewBuilder(Builder(b.stages + [Attr("foo")]))
  {
    assert "foo" !in DefinedNames by {
      assert forall i :: 0 <= i < |ReflectedNames| ==> ReflectedNames[i] != "foo";
    }
  }

  /** As written, the loop defines `__ror_` and no `__ror__`: `each.__ror__`
      falls through to `__getattr__` and builds a stage, while `each.__ror_`
      is the class's own method. The corrected body (`ClassBodyShadows`)
      answers the other way round. */
  lemma ClassBodyAsWritten<V>(inherited: set<string>, b: Builder<V>)
    requires "__ror__" !in inherited
    ensures GetAttrWith(inherited, ReflectedNamesAsWritten, b, "__ror__") == NewBuilder(Builder(b.stages + [Attr("__ror__")]))
    ensures GetAttrWith(inherited, ReflectedNamesAsWritten, b, "__ror_").OwnMember?
    ensures GetAttr(inherited, b, "__ror__").OwnMember?
  {
    assert "__ror__" !in DefinedNamesWith(ReflectedNamesAsWritten) by {
      assert forall i :: 0 <= i < |ReflectedNamesAsWritten| ==> ReflectedNamesAsWritten[i] != "__ror__";
    }
    assert ReflectedNamesAsWritten[13] == "__ror_";
    assert ReflectedNames[13] == "__ror__";
  }

  /** One more stage: the builder's function runs the old chain and then the
      stage, and its name gains the stage's rendering. */
  lemma StageExtends<V>(host: Host<V>, b: Builder<V>, s: Stage<V>, obj: V)
    ensures Unwrap(host, Builder(b.stages + [s]))(obj) ==
      (if Run(host, b.stages, obj).Failure? then Failure(Run(host, b.stages, obj).error)
       else Apply(host, s, Run(host, b.stages, obj).value))
    ensures Name(host, b.stages + [s]) == Name(host, b.stages) + Suffix(host, s)
  {
    DenoteIsRun(host, b.stages + [s], obj);
    RunSnoc(host, b.stages, s, obj);
    NameSnoc(host, b.stages, s);
  }

  /** `each.name._` (for a name the class does not define) gets the
      attribute of what the chain computed, or the item when that is a
      mapping holding the key, and refuses `None`; `.name` is appended to
      the name. */
  lemma AttrStage<V>(host: Host<V>, inherited: set<string>, b: Builder<V>, name: string, obj: V)
    requires !IsOwnName(inherited, name)
    ensures GetAttr(inherited, b, name).NewBuilder?
    ensures var y := Run(host, b.stages, obj);
      Unwrap(host, GetAttr(inherited, b, name).builder)(obj) ==
        if y.Failure? then Failure(y.error)
        else if host.isNone(y.value) then Failure(CannotChainOffNone)
        else if Classify(host.caps(y.value)) == MappingKind && host.hasKey(y.value, name) then
          Success(host.getitem(y.value, host.text(name)))
        else Success(host.getattr(y.value, name))
    ensures Name(host, GetAttr(inherited, b, name).builder.stages) == Name(host, b.stages) + ("." + name)
  {
    StageExtends(host, b, Attr(name), obj);
  }

  /** `each[key]._` indexes what the chain computed, unless that is `None`;
      `[repr(key)]` is appended to the name. */
  lemma ItemStage<V>(host: Host<V>, b: Builder<V>, key: V, obj: V)
    ensures var y := Run(host, b.stages, obj);
      Unwrap(host, GetItem(b, key))(obj) ==
        if y.Failure? then Failure(y.error)
        else if host.isNone(y.value) then Failure(CannotChainOffNone)
        else Success(host.getitem(y.value, key))
    ensures Name(host, GetItem(b, key).stages) == Name(host, b.stages) + ("[" + host.repr(key) + "]")
  {
    StageExtends(host, b, Item(key), obj);
  }

  /** `each(*args, **kwargs)._` calls what the chain computed, which must be
      callable and not `None`; `(*args, **kwargs)` in repr form is appended
      to the name. */
  lemma CallStage<V>(host: Host<V>, b: Builder<V>, args: seq<V>, kwargs: Dict.Pairs<V>, obj: V)
    ensures var y := Run(host, b.stages, obj);
      Unwrap(host, CallWith(b, args, kwargs))(obj) ==
        if y.Failure? then Failure(y.error)
        else if host.isNone(y.value) then Failure(CannotChainOffNone)
        else if Classify(host.caps(y.value)) == CallableKind then Success(host.call(y.value, args, kwargs))
        else Failure(NotCallable)
    ensures Name(host, CallWith(b, args, kwargs).stages) ==
      Name(host, b.stages) + ("(*" + TupleRepr(host, args) + ", **" + DictRepr(host, kwargs) + ")")
  {
    StageExtends(host, b, Call(args, kwargs), obj);
  }

  /** `each.in_(haystack)` needs `haystack.__contains__`; its function
      returns what that method answers for the result of the earlier stages,
      and ` in repr(haystack)` is appended to the name. */
  lemma InStage<V>(host: Host<V>, b: Builder<V>, haystack: V, obj: V)
    ensures InOp(host, b, haystack).Failure? <==> !host.hasContains(haystack)
    ensures InOp(host, b, haystack).Success? ==>
      var y := Run(host, b.stages, obj);
      Unwrap(host, InOp(host, b, haystack).value)(obj) ==
        if y.Failure? then Failure(y.error) else Success(host.containsMethod(haystack, y.value))
    ensures InOp(host, b, haystack).Success? ==>
      Name(host, InOp(host, b, haystack).value.stages) == Name(host, b.stages) + (" in " + host.repr(haystack))
  {
    StageExtends(host, b, In(haystack), obj);
  }

  /** `each.not_in(haystack)._` answers `needle not in haystack`, which
      works for any haystack `in` accepts, a generator included; ` not in
      repr(haystack)` is appended to the name. */
  lemma NotInStage<V>(host: Host<V>, b: Builder<V>, haystack: V, obj: V)
    ensures var y := Run(host, b.stages, obj);
      Unwrap(host, NotInOp(b, haystack))(obj) ==
        if y.Failure? then Failure(y.error) else Success(host.boolean(!host.isIn(haystack, y.value)))
    ensures Name(host, NotInOp(b, haystack).stages) == Name(host, b.stages) + (" not in " + host.repr(haystack))
  {
    StageExtends(host, b, NotIn(haystack), obj);
  }

  /** Extending a builder by a stage composes that stage onto its function
      and appends its rendering to its name. */
  lemma ExtendComposes<V>(host: Host<V>, b: Builder<V>, s: Stage<V>, obj: V)
    ensures Denote(host, b.stages + [s])(obj) == Compose(Denote(host, b.stages), StageFn(host, s))(obj)
    ensures Name(host, b.stages + [s]) == Name(host, b.stages) + Suffix(host, s)
  {
    var st := b.stages + [s];
    assert st[..|st| - 1] == b.stages;
  }

  /** `builder._`, the plain function. */
  function Unwrap<V>(host: Host<V>, b: Builder<V>): Fn<V> {
    Denote(host, b.stages)
  }

  /** The root `each` unwraps to the identity function. */
  lemma RootIsIdentity<V>(host: Host<V>, obj: V)
    ensures Unwrap(host, Builder([]))(obj) == Success(obj)
    ensures Repr(host, Builder([])) == "fluentpy.wrap(each)"
  {
  }

  /** `in_` and `not_in` answer complementary booleans when the haystack
      has a `__contains__` that answers a bool, which `in` then reports. */
  lemma InNotInComplement<V>(host: Host<V>, b: Builder<V>, haystack: V, obj: V)
    requires Unwrap(host, b)(obj).Success? && host.hasContains(haystack)
    requires var y := Unwrap(host, b)(obj).value;
      host.containsMethod(haystack, y) == host.boolean(host.isIn(haystack, y))
    ensures InOp(host, b, haystack).Success?
    ensures Unwrap(host, InOp(host, b, haystack).value)(obj) ==
      Success(host.boolean(host.isIn(haystack, Unwrap(host, b)(obj).value)))
    ensures Unwrap(host, NotInOp(b, haystack))(obj) ==
      Success(host.boolean(!host.isIn(haystack, Unwrap(host, b)(obj).value)))
  {
    DenoteIsRun(host, b.stages, obj);
    DenoteIsRun(host, b.stages + [In(haystack)], obj);
    DenoteIsRun(host, b.stages + [NotIn(haystack)], obj);
    RunSnoc(host, b.stages, In(haystack), obj);
    RunSnoc(host, b.stages, NotIn(haystack), obj);
  }

  /** Calling a stage fails exactly when the object reached is `None` (which
      `_` refuses) or not callable. */
  lemma CallNeedsCallable<V>(host: Host<V>, b: Builder<V>, args: seq<V>, kwargs: Dict.Pairs<V>, obj: V)
    requires Unwrap(host, b)(obj).Success?
    ensures Unwrap(host, CallWith(b, args, kwargs))(obj).Failure? <==>
      host.isNone(Unwrap(host, b)(obj).value) || Classify(host.caps(Unwrap(host, b)(obj).value)) != CallableKind
    ensures host.isNone(Unwrap(host, b)(obj).value) ==>
      Unwrap(host, CallWith(b, args, kwargs))(obj) == Failure(CannotChainOffNone)
  {
    DenoteIsRun(host, b.stages, obj);
    DenoteIsRun(host, b.stages + [Call(args, kwargs)], obj);
    RunSnoc(host, b.stages, Call(args, kwargs), obj);
  }

  // ---------------------------------------------------------------------
  // Operators end the chain with a plain function.

  /** `builder <op> others` for a dunder name of the `operator` module
      (`__mod__`, say), which the class body defines as a method: the plain
      function `x -> op(f(x), *others)`. */
  function Operator<V>(host: Host<V>, b: Builder<V>, opName: string, others: seq<V>): Fn<V> {
    Compose(Denote(host, b.stages), x => Success(host.op(opName, x, others)))
  }

  lemma OperatorTerminates<V>(host: Host<V>, b: Builder<V>, opName: string, others: seq<V>, obj: V)
    ensures Operator(host, b, opName, others)(obj) ==
      (if Run(host, b.stages, obj).Failure? then Failure(Run(host, b.stages, obj).error)
       else Success(host.op(opName, Run(host, b.stages, obj).value, others)))
  {
    DenoteIsRun(host, b.stages, obj);
  }

  /** The reflected operator names `EachWrapper` defines, as written: the
      last entry lacks its closing underscore. */
  const ReflectedNamesAsWritten: seq<string> := [
    "__radd__", "__rsub__", "__rmul__", "__rmatmul__", "__rtruediv__",
    "__rfloordiv__", "__rmod__", "__rdivmod__", "__rpow__", "__rlshift__",
    "__rrshift__", "__rand__", "__rxor__", "__ror_"]

  /** The same list with the closing underscore restored. */
  const ReflectedNames: seq<string> := [
    "__radd__", "__rsub__", "__rmul__", "__rmatmul__", "__rtruediv__",
    "__rfloordiv__", "__rmod__", "__rdivmod__", "__rpow__", "__rlshift__",
    "__rrshift__", "__rand__", "__rxor__", "__ror__"]

  predicate IsDunder(name: string) {
    |name| >= 4 && name[..2] == "__" && name[|name| - 2..] == "__"
  }

  /** `other <op> builder`, when `other` does not handle it: Python looks up
      the reflected method `name` on the class; if defined, the result is the
      plain function `x -> getattr(f(x), name)(other)`, otherwise TypeError. */
  function ReflectedIn<V>(host: Host<V>, names: seq<string>, b: Builder<V>, name: string, other: V)
    : (r: Result<Fn<V>, EachError>)
    ensures r.Success? <==> name in names
  {
    if name !in names then Failure(NoSuchOperator)
    else Success(Compose(Denote(host, b.stages), x => Success(host.call(host.getattr(x, name), [other], []))))
  }

  /** The reflected operators of the model, with the corrected list. */
  function Reflected<V>(host: Host<V>, b: Builder<V>, name: string, other: V): (r: Result<Fn<V>, EachError>)
    ensures r.Success? <==> name in ReflectedNames
  {
    ReflectedIn(host, ReflectedNames, b, name, other)
  }

  lemma ReflectedTerminates<V>(host: Host<V>, b: Builder<V>, name: string, other: V, obj: V)
    requires name in ReflectedNames
    ensures Reflected(host, b, name, other).value(obj) ==
      (if Run(host, b.stages, obj).Failure? then Failure(Run(host, b.stages, obj).error)
       else Success(host.call(host.getattr(Run(host, b.stages, obj).value, name), [other], [])))
  {
    DenoteIsRun(host, b.stages, obj);
  }

  /** As written, `other | each` finds no `__ror__` (only the unused
      `__ror_`), while `other & each` and `other ^ each` do work. */
  lemma ReflectedOrIsMissing<V>(host: Host<V>, b: Builder<V>, other: V)
    ensures ReflectedIn(host, ReflectedNamesAsWritten, b, "__ror__", other).Failure?
    ensures ReflectedIn(host, ReflectedNamesAsWritten, b, "__rand__", other).Success?
    ensures !IsDunder(ReflectedNamesAsWritten[13])
  {
  }

  /** With the corrected list every entry is a dunder name and all three
      bitwise reflected operators are defined. */
  lemma ReflectedNamesAreDunders<V>(host: Host<V>, b: Builder<V>, other: V)
    ensures forall i :: 0 <= i < |ReflectedNames| ==> IsDunder(ReflectedNames[i])
    ensures Reflected(host, b, "__ror__", other).Success?
    ensures Reflected(host, b, "__rand__", other).Success?
    ensures Reflected(host, b, "__rxor__", other).Success?
  {
  }
}

=== FILE: examples.dfy ===
/** Concrete cases from the library's test suite (`fluent_test.py`), stated
    against the model over a small universe of Python values. */
module Examples {
  import opened Wrappers
  import opened Dispatch
  import Dict
  import opened Curry
  import CurrySpec
  import Iterables
  import Each

  /** Python values as far as `curry` looks at them: the tuple an `_args`
      placeholder packs, and every other value. */
  datatype Val = Tup(items: seq<Val>) | Value(id: nat)

  function Pack(xs: seq<Val>): Val {
    Tup(xs)
  }

  // ---------------------------------------------------------------------
  // Evaluating the two passes of `merge_arguments` one entry at a time.

  lemma PosEnd(t: seq<Entry<Val>>, kwv: seq<Entry<Val>>, a: seq<Val>, c: Cursor)
    ensures PositionalPass(t, kwv, a, Pack, |t|, c) == Success(([], c))
  {
  }

  lemma PosStep(
    t: seq<Entry<Val>>, kwv: seq<Entry<Val>>, a: seq<Val>, i: nat, c: Cursor,
    v: Val, c1: Cursor, rest: seq<Val>, c2: Cursor)
    requires i < |t|
    requires Step(t[i], c, a, Pack, i + 1 == |t| && NoPlaceholders(kwv)) == Success((v, c1))
    requires PositionalPass(t, kwv, a, Pack, i + 1, c1) == Success((rest, c2))
    ensures PositionalPass(t, kwv, a, Pack, i, c) == Success(([v] + rest, c2))
  {
  }

  lemma PosFail(t: seq<Entry<Val>>, kwv: seq<Entry<Val>>, a: seq<Val>, i: nat, c: Cursor, e: CurryError)
    requires i < |t|
    requires Step(t[i], c, a, Pack, i + 1 == |t| && NoPlaceholders(kwv)) == Failure(e)
    ensures PositionalPass(t, kwv, a, Pack, i, c) == Failure(e)
  {
  }

  lemma PosFailLater(
    t: seq<Entry<Val>>, kwv: seq<Entry<Val>>, a: seq<Val>, i: nat, c: Cursor,
    v: Val, c1: Cursor, e: CurryError)
    requires i < |t|
    requires Step(t[i], c, a, Pack, i + 1 == |t| && NoPlaceholders(kwv)) == Success((v, c1))
    requires PositionalPass(t, kwv, a, Pack, i + 1, c1) == Failure(e)
    ensures PositionalPass(t, kwv, a, Pack, i, c) == Failure(e)
  {
  }

  lemma KwEnd(kwv: seq<Entry<Val>>, a: seq<Val>, c: Cursor)
    ensures KeywordPass(kwv, a, Pack, |kwv|, c) == Success(([], c))
  {
  }

  lemma KwStep(
    kwv: seq<Entry<Val>>, a: seq<Val>, j: nat, c: Cursor,
    v: Val, c1: Cursor, rest: seq<Val>, c2: Cursor)
    requires j < |kwv|
    requires Step(kwv[j], c, a, Pack, PlaceholderFreeAfter(kwv, j)) == Success((v, c1))
    requires KeywordPass(kwv, a, Pack, j + 1, c1) == Success((rest, c2))
    ensures KeywordPass(kwv, a, Pack, j, c) == Success(([v] + rest, c2))
  {
  }

  lemma KwFail(kwv: seq<Entry<Val>>, a: seq<Val>, j: nat, c: Cursor, e: CurryError)
    requires j < |kwv|
    requires Step(kwv[j], c, a, Pack, PlaceholderFreeAfter(kwv, j)) == Failure(e)
    ensures KeywordPass(kwv, a, Pack, j, c) == Failure(e)
  {
  }

  lemma KwFailLater(kwv: seq<Entry<Val>>, a: seq<Val>, j: nat, c: Cursor, v: Val, c1: Cursor, e: CurryError)
    requires j < |kwv|
    requires Step(kwv[j], c, a, Pack, PlaceholderFreeAfter(kwv, j)) == Success((v, c1))
    requires KeywordPass(kwv, a, Pack, j + 1, c1) == Failure(e)
    ensures KeywordPass(kwv, a, Pack, j, c) == Failure(e)
  {
  }

  lemma {:induction false} MergeFrom(
    t: seq<Entry<Val>>, kw: Dict.Pairs<Entry<Val>>, a: seq<Val>,
    out: seq<Val>, c: Cursor, kwOut: seq<Val>, c2: Cursor)
    requires PositionalPass(t, Dict.Values(kw), a, Pack, 0, Cursor(0, [])) == Success((out, c))
    requires KeywordPass(Dict.Values(kw), a, Pack, 0, c) == Success((kwOut, c2))
    ensures Merge(Pack, t, kw, a) == Success((out + Drop(a, MaxUsed(c2.used) + 1), Dict.Zip(Dict.Keys(kw), kwOut)))
  {
    var p := PositionalPass(t, Dict.Values(kw), a, Pack, 0, Cursor(0, []));
    CurrySpec.MergeCases(Pack, t, kw, a, p, KeywordPass(Dict.Values(kw), a, Pack, 0, c));
  }

  lemma MergeFailsPos(t: seq<Entry<Val>>, kw: Dict.Pairs<Entry<Val>>, a: seq<Val>, e: CurryError)
    requires PositionalPass(t, Dict.Values(kw), a, Pack, 0, Cursor(0, [])) == Failure(e)
    ensures Merge(Pack, t, kw, a) == Failure(e)
  {
  }

  lemma MergeFailsKw(t: seq<Entry<Val>>, kw: Dict.Pairs<Entry<Val>>, a: seq<Val>, out: seq<Val>, c: Cursor, e: CurryError)
    requires PositionalPass(t, Dict.Values(kw), a, Pack, 0, Cursor(0, [])) == Success((out, c))
    requires KeywordPass(Dict.Values(kw), a, Pack, 0, c) == Failure(e)
    ensures Merge(Pack, t, kw, a) == Failure(e)
  {
  }

  // ---------------------------------------------------------------------
  // curry (fluent_test.py:126-208)

  /** fluent_test.py:127: `curry(2, 3)()` calls with `(2, 3)`. */
  lemma CurryLiteralsOnly(two: Val, three: Val)
    ensures Merge(Pack, [Literal(two), Literal(three)], [], [])
      == Success(([two, three], []))
  {
    assert Dict.Values<Entry<Val>>([]) == [];
    CurryLiteralsOnlyPositional(two, three);
    CurryLiteralsOnlyKeywords(two, three);
    MergeFrom([Literal(two), Literal(three)], [], [], [two, three], Cursor(0, []), [], Cursor(0, []));
    assert [two, three] + Drop<Val>([], MaxUsed([]) + 1) == [two, three] by {
      assert MaxUsed([]) == -1;
    }
    assert Dict.Zip<Val>(Dict.Keys<Entry<Val>>([]), []) == [] by {
      assert Dict.Keys<Entry<Val>>([]) == [];
    }
  }

  lemma CurryLiteralsOnlyPositional(two: Val, three: Val)
    ensures PositionalPass([Literal(two), Literal(three)], [], [], Pack, 0, Cursor(0, []))
      == Success(([two, three], Cursor(0, [])))
  {
    var a: seq<Val> := [];
    var t: seq<Entry<Val>> := [Literal(two), Literal(three)];
    var kwv: seq<Entry<Val>> := [];
    assert NoPlaceholders(kwv);
    PosEnd(t, kwv, a, Cursor(0, []));
    assert [three] + [] == [three];
    PosStep(t, kwv, a, 1, Cursor(0, []), three, Cursor(0, []), [], Cursor(0, []));
    assert [two] + [three] == [two, three];
    PosStep(t, kwv, a, 0, Cursor(0, []), two, Cursor(0, []), [three], Cursor(0, []));
  }

  lemma CurryLiteralsOnlyKeywords(two: Val, three: Val)
    ensures KeywordPass([], [], Pack, 0, Cursor(0, []))
      == Success(([], Cursor(0, [])))
  {
    var a: seq<Val> := [];
    var kwv: seq<Entry<Val>> := [];
    KwEnd(kwv, a, Cursor(0, []));
  }

  /** fluent_test.py:131: `curry(_, 'foo')('bar')` calls with `('bar', 'foo')`. */
  lemma CurryHoleThenLiteral(foo: Val, bar: Val)
    ensures Merge(Pack, [Hole, Literal(foo)], [], [bar])
      == Success(([bar, foo], []))
  {
    assert Dict.Values<Entry<Val>>([]) == [];
    CurryHoleThenLiteralPositional(foo, bar);
    CurryHoleThenLiteralKeywords(foo, bar);
    MergeFrom([Hole, Literal(foo)], [], [bar], [bar, foo], Cursor(1, [0]), [], Cursor(1, [0]));
    assert [bar, foo] + Drop<Val>([bar], MaxUsed([0]) + 1) == [bar, foo] by {
      assert MaxUsed([0]) == 0;
    }
    assert Dict.Zip<Val>(Dict.Keys<Entry<Val>>([]), []) == [] by {
      assert Dict.Keys<Entry<Val>>([]) == [];
    }
  }

  lemma CurryHoleThenLiteralPositional(foo: Val, bar: Val)
    ensures PositionalPass([Hole, Literal(foo)], [], [bar], Pack, 0, Cursor(0, []))
      == Success(([bar, foo], Cursor(1, [0])))
  {
    var a: seq<Val> := [bar];
    var t: seq<Entry<Val>> := [Hole, Literal(foo)];
    var kwv: seq<Entry<Val>> := [];
    assert NoPlaceholders(kwv);
    assert [] + [0] == [0];
    PosEnd(t, kwv, a, Cursor(1, [0]));
    assert [foo] + [] == [foo];
    PosStep(t, kwv, a, 1, Cursor(1, [0]), foo, Cursor(1, [0]), [], Cursor(1, [0]));
    assert [bar] + [foo] == [bar, foo];
    PosStep(t, kwv, a, 0, Cursor(0, []), bar, Cursor(1, [0]), [foo], Cursor(1, [0]));
  }

  lemma CurryHoleThenLiteralKeywords(foo: Val, bar: Val)
    ensures KeywordPass([], [bar], Pack, 0, Cursor(1, [0]))
      == Success(([], Cursor(1, [0])))
  {
    var a: seq<Val> := [bar];
    var kwv: seq<Entry<Val>> := [];
    KwEnd(kwv, a, Cursor(1, [0]));
  }

  /** fluent_test.py:132: `curry(_, 'baz', _)('foo', 'bar')` calls with `('foo', 'baz', 'bar')`. */
  lemma CurryHolesAroundLiteral(baz: Val, foo: Val, bar: Val)
    ensures Merge(Pack, [Hole, Literal(baz), Hole], [], [foo, bar])
      == Success(([foo, baz, bar], []))
  {
    assert Dict.Values<Entry<Val>>([]) == [];
    CurryHolesAroundLiteralPositional(baz, foo, bar);
    CurryHolesAroundLiteralKeywords(baz, foo, bar);
    MergeFrom([Hole, Literal(baz), Hole], [], [foo, bar], [foo, baz, bar], Cursor(2, [0, 1]), [], Cursor(2, [0, 1]));
    assert [foo, baz, bar] + Drop<Val>([foo, bar], MaxUsed([0, 1]) + 1) == [foo, baz, bar] by {
      assert MaxUsed([0]) == 0;
      assert MaxUsed([0, 1]) == 1;
    }
    assert Dict.Zip<Val>(Dict.Keys<Entry<Val>>([]), []) == [] by {
      assert Dict.Keys<Entry<Val>>([]) == [];
    }
  }

  lemma CurryHolesAroundLiteralPositional(baz: Val, foo: Val, bar: Val)
    ensures PositionalPass([Hole, Literal(baz), Hole], [], [foo, bar], Pack, 0, Cursor(0, []))
      == Success(([foo, baz, bar], Cursor(2, [0, 1])))
  {
    var a: seq<Val> := [foo, bar];
    var t: seq<Entry<Val>> := [Hole, Literal(baz), Hole];
    var kwv: seq<Entry<Val>> := [];
    assert NoPlaceholders(kwv);
    assert [] + [0] == [0];
    assert [0] + [1] == [0, 1];
    PosEnd(t, kwv, a, Cursor(2, [0, 1]));
    assert [bar] + [] == [bar];
    PosStep(t, kwv, a, 2, Cursor(1, [0]), bar, Cursor(2, [0, 1]), [], Cursor(2, [0, 1]));
    assert [baz] + [bar] == [baz, bar];
    PosStep(t, kwv, a, 1, Cursor(1, [0]), baz, Cursor(1, [0]), [bar], Cursor(2, [0, 1]));
    assert [foo] + [baz, bar] == [foo, baz, bar];
    PosStep(t, kwv, a, 0, Cursor(0, []), foo, Cursor(1, [0]), [baz, bar], Cursor(2, [0, 1]));
  }

  lemma CurryHolesAroundLiteralKeywords(baz: Val, foo: Val, bar: Val)
    ensures KeywordPass([], [foo, bar], Pack, 0, Cursor(2, [0, 1]))
      == Success(([], Cursor(2, [0, 1])))
  {
    var a: seq<Val> := [foo, bar];
    var kwv: seq<Entry<Val>> := [];
    KwEnd(kwv, a, Cursor(2, [0, 1]));
  }

  /** fluent_test.py:135: `curry(_, 'bar')('foo', 'baz')` appends the unclaimed `'baz'`. */
  lemma CurryAppendsLeftovers(bar: Val, foo: Val, baz: Val)
    ensures Merge(Pack, [Hole, Literal(bar)], [], [foo, baz])
      == Success(([foo, bar, baz], []))
  {
    assert Dict.Values<Entry<Val>>([]) == [];
    CurryAppendsLeftoversPositional(bar, foo, baz);
    CurryAppendsLeftoversKeywords(bar, foo, baz);
    MergeFrom([Hole, Literal(bar)], [], [foo, baz], [foo, bar], Cursor(1, [0]), [], Cursor(1, [0]));
    assert [foo, bar] + Drop<Val>([foo, baz], MaxUsed([0]) + 1) == [foo, bar, baz] by {
      assert MaxUsed([0]) == 0;
    }
    assert Dict.Zip<Val>(Dict.Keys<Entry<Val>>([]), []) == [] by {
      assert Dict.Keys<Entry<Val>>([]) == [];
    }
  }

  lemma CurryAppendsLeftoversPositional(bar: Val, foo: Val, baz: Val)
    ensures PositionalPass([Hole, Literal(bar)], [], [foo, baz], Pack, 0, Cursor(0, []))
      == Success(([foo, bar], Cursor(1, [0])))
  {
    var a: seq<Val> := [foo, baz];
    var t: seq<Entry<Val>> := [Hole, Literal(bar)];
    var kwv: seq<Entry<Val>> := [];
    assert NoPlaceholders(kwv);
    assert [] + [0] == [0];
    PosEnd(t, kwv, a, Cursor(1, [0]));
    assert [bar] + [] == [bar];
    PosStep(t, kwv, a, 1, Cursor(1, [0]), bar, Cursor(1, [0]), [], Cursor(1, [0]));
    assert [foo] + [bar] == [foo, bar];
    PosStep(t, kwv, a, 0, Cursor(0, []), foo, Cursor(1, [0]), [bar], Cursor(1, [0]));
  }

  lemma CurryAppendsLeftoversKeywords(bar: Val, foo: Val, baz: Val)
    ensures KeywordPass([], [foo, baz], Pack, 0, Cursor(1, [0]))
      == Success(([], Cursor(1, [0])))
  {
    var a: seq<Val> := [foo, baz];
    var kwv: seq<Entry<Val>> := [];
    KwEnd(kwv, a, Cursor(1, [0]));
  }

  /** fluent_test.py:139: once `x=0` is merged into `curry(x=_, y=1)`, no placeholder is left. */
  lemma CurryKeywordLiterals(zero: Val, one: Val)
    ensures Merge(Pack, [], [("x", Literal(zero)), ("y", Literal(one))], [])
      == Success(([], [("x", zero), ("y", one)]))
  {
    assert Dict.Values<Entry<Val>>([("x", Literal(zero)), ("y", Literal(one))]) == [Literal(zero), Literal(one)];
    CurryKeywordLiteralsPositional(zero, one);
    CurryKeywordLiteralsKeywords(zero, one);
    MergeFrom([], [("x", Literal(zero)), ("y", Literal(one))], [], [], Cursor(0, []), [zero, one], Cursor(0, []));
    assert [] + Drop<Val>([], MaxUsed([]) + 1) == [] by {
      assert MaxUsed([]) == -1;
    }
    assert Dict.Zip<Val>(Dict.Keys<Entry<Val>>([("x", Literal(zero)), ("y", Literal(one))]), [zero, one]) == [("x", zero), ("y", one)] by {
      assert Dict.Keys<Entry<Val>>([("x", Literal(zero)), ("y", Literal(one))]) == ["x", "y"];
    }
  }

  lemma CurryKeywordLiteralsPositional(zero: Val, one: Val)
    ensures PositionalPass([], [Literal(zero), Literal(one)], [], Pack, 0, Cursor(0, []))
      == Success(([], Cursor(0, [])))
  {
    var a: seq<Val> := [];
    var t: seq<Entry<Val>> := [];
    var kwv: seq<Entry<Val>> := [Literal(zero), Literal(one)];
    assert NoPlaceholders(kwv);
    PosEnd(t, kwv, a, Cursor(0, []));
  }

  lemma CurryKeywordLiteralsKeywords(zero: Val, one: Val)
    ensures KeywordPass([Literal(zero), Literal(one)], [], Pack, 0, Cursor(0, []))
      == Success(([zero, one], Cursor(0, [])))
  {
    var a: seq<Val> := [];
    var kwv: seq<Entry<Val>> := [Literal(zero), Literal(one)];
    assert PlaceholderFreeAfter(kwv, 0);
    assert PlaceholderFreeAfter(kwv, 1);
    KwEnd(kwv, a, Cursor(0, []));
    assert [one] + [] == [one];
    KwStep(kwv, a, 1, Cursor(0, []), one, Cursor(0, []), [], Cursor(0, []));
    assert [zero] + [one] == [zero, one];
    KwStep(kwv, a, 0, Cursor(0, []), zero, Cursor(0, []), [one], Cursor(0, []));
  }

  /** fluent_test.py:140: `curry(x=_, y=1)(0)` calls with `x=0, y=1`. */
  lemma CurryKeywordHole(one: Val, zero: Val)
    ensures Merge(Pack, [], [("x", Hole), ("y", Literal(one))], [zero])
      == Success(([], [("x", zero), ("y", one)]))
  {
    assert Dict.Values<Entry<Val>>([("x", Hole), ("y", Literal(one))]) == [Hole, Literal(one)];
    CurryKeywordHolePositional(one, zero);
    CurryKeywordHoleKeywords(one, zero);
    MergeFrom([], [("x", Hole), ("y", Literal(one))], [zero], [], Cursor(0, []), [zero, one], Cursor(1, [0]));
    assert [] + Drop<Val>([zero], MaxUsed([0]) + 1) == [] by {
      assert MaxUsed([0]) == 0;
    }
    assert Dict.Zip<Val>(Dict.Keys<Entry<Val>>([("x", Hole), ("y", Literal(one))]), [zero, one]) == [("x", zero), ("y", one)] by {
      assert Dict.Keys<Entry<Val>>([("x", Hole), ("y", Literal(one))]) == ["x", "y"];
    }
  }

  lemma CurryKeywordHolePositional(one: Val, zero: Val)
    ensures PositionalPass([], [Hole, Literal(one)], [zero], Pack, 0, Cursor(0, []))
      == Success(([], Cursor(0, [])))
  {
    var a: seq<Val> := [zero];
    var t: seq<Entry<Val>> := [];
    var kwv: seq<Entry<Val>> := [Hole, Literal(one)];
    assert !NoPlaceholders(kwv) by { assert kwv[0].IsPlaceholder(); }
    PosEnd(t, kwv, a, Cursor(0, []));
  }

  lemma CurryKeywordHoleKeywords(one: Val, zero: Val)
    ensures KeywordPass([Hole, Literal(one)], [zero], Pack, 0, Cursor(0, []))
      == Success(([zero, one], Cursor(1, [0])))
  {
    var a: seq<Val> := [zero];
    var kwv: seq<Entry<Val>> := [Hole, Literal(one)];
    assert PlaceholderFreeAfter(kwv, 0);
    assert PlaceholderFreeAfter(kwv, 1);
    assert [] + [0] == [0];
    KwEnd(kwv, a, Cursor(1, [0]));
    assert [one] + [] == [one];
    KwStep(kwv, a, 1, Cursor(1, [0]), one, Cursor(1, [0]), [], Cursor(1, [0]));
    assert [zero] + [one] == [zero, one];
    KwStep(kwv, a, 0, Cursor(0, []), zero, Cursor(1, [0]), [one], Cursor(1, [0]));
  }

  /** fluent_test.py:143: `curry(_, y=_)(1, 2)` calls with `(1,)` and `y=2`. */
  lemma CurryHoleAndKeywordHole(one: Val, two: Val)
    ensures Merge(Pack, [Hole], [("y", Hole)], [one, two])
      == Success(([one], [("y", two)]))
  {
    assert Dict.Values<Entry<Val>>([("y", Hole)]) == [Hole];
    CurryHoleAndKeywordHolePositional(one, two);
    CurryHoleAndKeywordHoleKeywords(one, two);
    MergeFrom([Hole], [("y", Hole)], [one, two], [one], Cursor(1, [0]), [two], Cursor(2, [0, 1]));
    assert [one] + Drop<Val>([one, two], MaxUsed([0, 1]) + 1) == [one] by {
      assert MaxUsed([0]) == 0;
      assert MaxUsed([0, 1]) == 1;
    }
    assert Dict.Zip<Val>(Dict.Keys<Entry<Val>>([("y", Hole)]), [two]) == [("y", two)] by {
      assert Dict.Keys<Entry<Val>>([("y", Hole)]) == ["y"];
    }
  }

  lemma CurryHoleAndKeywordHolePositional(one: Val, two: Val)
    ensures PositionalPass([Hole], [Hole], [one, two], Pack, 0, Cursor(0, []))
      == Success(([one], Cursor(1, [0])))
  {
    var a: seq<Val> := [one, two];
    var t: seq<Entry<Val>> := [Hole];
    var kwv: seq<Entry<Val>> := [Hole];
    assert !NoPlaceholders(kwv) by { assert kwv[0].IsPlaceholder(); }
    assert [] + [0] == [0];
    PosEnd(t, kwv, a, Cursor(1, [0]));
    assert [one] + [] == [one];
    PosStep(t, kwv, a, 0, Cursor(0, []), one, Cursor(1, [0]), [], Cursor(1, [0]));
  }

  lemma CurryHoleAndKeywordHoleKeywords(one: Val, two: Val)
    ensures KeywordPass([Hole], [one, two], Pack, 0, Cursor(1, [0]))
      == Success(([two], Cursor(2, [0, 1])))
  {
    var a: seq<Val> := [one, two];
    var kwv: seq<Entry<Val>> := [Hole];
    assert PlaceholderFreeAfter(kwv, 0);
    assert [0] + [1] == [0, 1];
    KwEnd(kwv, a, Cursor(2, [0, 1]));
    assert [two] + [] == [two];
    KwStep(kwv, a, 0, Cursor(1, [0]), two, Cursor(2, [0, 1]), [], Cursor(2, [0, 1]));
  }

  /** fluent_test.py:153: `curry(_._1, _._0)('foo', 'bar')` calls with `('bar', 'foo')`. */
  lemma CurrySwaps(foo: Val, bar: Val)
    ensures Merge(Pack, [Index(1), Index(0)], [], [foo, bar])
      == Success(([bar, foo], []))
  {
    assert Dict.Values<Entry<Val>>([]) == [];
    CurrySwapsPositional(foo, bar);
    CurrySwapsKeywords(foo, bar);
    MergeFrom([Index(1), Index(0)], [], [foo, bar], [bar, foo], Cursor(2, [1, 0]), [], Cursor(2, [1, 0]));
    assert [bar, foo] + Drop<Val>([foo, bar], MaxUsed([1, 0]) + 1) == [bar, foo] by {
      assert MaxUsed([1]) == 1;
      assert MaxUsed([1, 0]) == 1;
    }
    assert Dict.Zip<Val>(Dict.Keys<Entry<Val>>([]), []) == [] by {
      assert Dict.Keys<Entry<Val>>([]) == [];
    }
  }

  lemma CurrySwapsPositional(foo: Val, bar: Val)
    ensures PositionalPass([Index(1), Index(0)], [], [foo, bar], Pack, 0, Cursor(0, []))
      == Success(([bar, foo], Cursor(2, [1, 0])))
  {
    var a: seq<Val> := [foo, bar];
    var t: seq<Entry<Val>> := [Index(1), Index(0)];
    var kwv: seq<Entry<Val>> := [];
    assert NoPlaceholders(kwv);
    assert [] + [1] == [1];
    assert [1] + [0] == [1, 0];
    PosEnd(t, kwv, a, Cursor(2, [1, 0]));
    assert [foo] + [] == [foo];
    PosStep(t, kwv, a, 1, Cursor(1, [1]), foo, Cursor(2, [1, 0]), [], Cursor(2, [1, 0]));
    assert [bar] + [foo] == [bar, foo];
    PosStep(t, kwv, a, 0, Cursor(0, []), bar, Cursor(1, [1]), [foo], Cursor(2, [1, 0]));
  }

  lemma CurrySwapsKeywords(foo: Val, bar: Val)
    ensures KeywordPass([], [foo, bar], Pack, 0, Cursor(2, [1, 0]))
      == Success(([], Cursor(2, [1, 0])))
  {
    var a: seq<Val> := [foo, bar];
    var kwv: seq<Entry<Val>> := [];
    KwEnd(kwv, a, Cursor(2, [1, 0]));
  }

  /** fluent_test.py:154: `curry(_._1, 'baz', _._0)('foo', 'bar')` calls with `('bar', 'baz', 'foo')`. */
  lemma CurryReorders(baz: Val, foo: Val, bar: Val)
    ensures Merge(Pack, [Index(1), Literal(baz), Index(0)], [], [foo, bar])
      == Success(([bar, baz, foo], []))
  {
    assert Dict.Values<Entry<Val>>([]) == [];
    CurryReordersPositional(baz, foo, bar);
    CurryReordersKeywords(baz, foo, bar);
    MergeFrom([Index(1), Literal(baz), Index(0)], [], [foo, bar], [bar, baz, foo], Cursor(2, [1, 0]), [], Cursor(2, [1, 0]));
    assert [bar, baz, foo] + Drop<Val>([foo, bar], MaxUsed([1, 0]) + 1) == [bar, baz, foo] by {
      assert MaxUsed([1]) == 1;
      assert MaxUsed([1, 0]) == 1;
    }
    assert Dict.Zip<Val>(Dict.Keys<Entry<Val>>([]), []) == [] by {
      assert Dict.Keys<Entry<Val>>([]) == [];
    }
  }

  lemma CurryReordersPositional(baz: Val, foo: Val, bar: Val)
    ensures PositionalPass([Index(1), Literal(baz), Index(0)], [], [foo, bar], Pack, 0, Cursor(0, []))
      == Success(([bar, baz, foo], Cursor(2, [1, 0])))
  {
    var a: seq<Val> := [foo, bar];
    var t: seq<Entry<Val>> := [Index(1), Literal(baz), Index(0)];
    var kwv: seq<Entry<Val>> := [];
    assert NoPlaceholders(kwv);
    assert [] + [1] == [1];
    assert [1] + [0] == [1, 0];
    PosEnd(t, kwv, a, Cursor(2, [1, 0]));
    assert [foo] + [] == [foo];
    PosStep(t, kwv, a, 2, Cursor(1, [1]), foo, Cursor(2, [1, 0]), [], Cursor(2, [1, 0]));
    assert [baz] + [foo] == [baz, foo];
    PosStep(t, kwv, a, 1, Cursor(1, [1]), baz, Cursor(1, [1]), [foo], Cursor(2, [1, 0]));
    assert [bar] + [baz, foo] == [bar, baz, foo];
    PosStep(t, kwv, a, 0, Cursor(0, []), bar, Cursor(1, [1]), [baz, foo], Cursor(2, [1, 0]));
  }

  lemma CurryReordersKeywords(baz: Val, foo: Val, bar: Val)
    ensures KeywordPass([], [foo, bar], Pack, 0, Cursor(2, [1, 0]))
      == Success(([], Cursor(2, [1, 0])))
  {
    var a: seq<Val> := [foo, bar];
    var kwv: seq<Entry<Val>> := [];
    KwEnd(kwv, a, Cursor(2, [1, 0]));
  }

  /** fluent_test.py:157: `curry(_, _)('foo')` needs at least 2 arguments, got 1. */
  lemma CurryMissingHole(foo: Val)
    ensures Merge(Pack, [Hole, Hole], [], [foo])
      == Failure(NotEnoughArguments(2, 1))
  {
    assert Dict.Values<Entry<Val>>([]) == [];
    CurryMissingHolePositional(foo);
    MergeFailsPos([Hole, Hole], [], [foo], NotEnoughArguments(2, 1));
  }

  lemma CurryMissingHolePositional(foo: Val)
    ensures PositionalPass([Hole, Hole], [], [foo], Pack, 0, Cursor(0, []))
      == Failure(NotEnoughArguments(2, 1))
  {
    var a: seq<Val> := [foo];
    var t: seq<Entry<Val>> := [Hole, Hole];
    var kwv: seq<Entry<Val>> := [];
    assert NoPlaceholders(kwv);
    assert [] + [0] == [0];
    PosFail(t, kwv, a, 1, Cursor(1, [0]), NotEnoughArguments(2, 1));
    PosFailLater(t, kwv, a, 0, Cursor(0, []), foo, Cursor(1, [0]), NotEnoughArguments(2, 1));
  }

  /** fluent_test.py:158-163: `curry(_._1)` called with one argument needs at least 2, got 1. */
  lemma CurryMissingIndex(foo: Val)
    ensures Merge(Pack, [Index(1)], [], [foo])
      == Failure(NotEnoughArguments(2, 1))
  {
    assert Dict.Values<Entry<Val>>([]) == [];
    CurryMissingIndexPositional(foo);
    MergeFailsPos([Index(1)], [], [foo], NotEnoughArguments(2, 1));
  }

  lemma CurryMissingIndexPositional(foo: Val)
    ensures PositionalPass([Index(1)], [], [foo], Pack, 0, Cursor(0, []))
      == Failure(NotEnoughArguments(2, 1))
  {
    var a: seq<Val> := [foo];
    var t: seq<Entry<Val>> := [Index(1)];
    var kwv: seq<Entry<Val>> := [];
    assert NoPlaceholders(kwv);
    PosFail(t, kwv, a, 0, Cursor(0, []), NotEnoughArguments(2, 1));
  }

  /** fluent_test.py:167: `curry(1, _._args)(2, 3)` calls with `(1, (2, 3))`. */
  lemma CurrySplatAfterLiteral(one: Val, two: Val, three: Val)
    ensures Merge(Pack, [Literal(one), Splat], [], [two, three])
      == Success(([one, Tup([two, three])], []))
  {
    assert Dict.Values<Entry<Val>>([]) == [];
    CurrySplatAfterLiteralPositional(one, two, three);
    CurrySplatAfterLiteralKeywords(one, two, three);
    MergeFrom([Literal(one), Splat], [], [two, three], [one, Tup([two, three])], Cursor(1, [0, 1]), [], Cursor(1, [0, 1]));
    assert [one, Tup([two, three])] + Drop<Val>([two, three], MaxUsed([0, 1]) + 1) == [one, Tup([two, three])] by {
      assert MaxUsed([0]) == 0;
      assert MaxUsed([0, 1]) == 1;
    }
    assert Dict.Zip<Val>(Dict.Keys<Entry<Val>>([]), []) == [] by {
      assert Dict.Keys<Entry<Val>>([]) == [];
    }
  }

  lemma CurrySplatAfterLiteralPositional(one: Val, two: Val, three: Val)
    ensures PositionalPass([Literal(one), Splat], [], [two, three], Pack, 0, Cursor(0, []))
      == Success(([one, Tup([two, three])], Cursor(1, [0, 1])))
  {
    var a: seq<Val> := [two, three];
    var t: seq<Entry<Val>> := [Literal(one), Splat];
    var kwv: seq<Entry<Val>> := [];
    assert NoPlaceholders(kwv);
    assert Drop(a, 0) == [two, three];
    assert [] + Range(0, 2) == [0, 1];
    PosEnd(t, kwv, a, Cursor(1, [0, 1]));
    assert [Tup([two, three])] + [] == [Tup([two, three])];
    PosStep(t, kwv, a, 1, Cursor(0, []), Tup([two, three]), Cursor(1, [0, 1]), [], Cursor(1, [0, 1]));
    assert [one] + [Tup([two, three])] == [one, Tup([two, three])];
    PosStep(t, kwv, a, 0, Cursor(0, []), one, Cursor(0, []), [Tup([two, three])], Cursor(1, [0, 1]));
  }

  lemma CurrySplatAfterLiteralKeywords(one: Val, two: Val, three: Val)
    ensures KeywordPass([], [two, three], Pack, 0, Cursor(1, [0, 1]))
      == Success(([], Cursor(1, [0, 1])))
  {
    var a: seq<Val> := [two, three];
    var kwv: seq<Entry<Val>> := [];
    KwEnd(kwv, a, Cursor(1, [0, 1]));
  }

  /** fluent_test.py:168: `curry(1, _._args)()` calls with `(1, ())`. */
  lemma CurryEmptySplat(one: Val)
    ensures Merge(Pack, [Literal(one), Splat], [], [])
      == Success(([one, Tup([])], []))
  {
    assert Dict.Values<Entry<Val>>([]) == [];
    CurryEmptySplatPositional(one);
    CurryEmptySplatKeywords(one);
    MergeFrom([Literal(one), Splat], [], [], [one, Tup([])], Cursor(1, []), [], Cursor(1, []));
    assert [one, Tup([])] + Drop<Val>([], MaxUsed([]) + 1) == [one, Tup([])] by {
      assert MaxUsed([]) == -1;
    }
    assert Dict.Zip<Val>(Dict.Keys<Entry<Val>>([]), []) == [] by {
      assert Dict.Keys<Entry<Val>>([]) == [];
    }
  }

  lemma CurryEmptySplatPositional(one: Val)
    ensures PositionalPass([Literal(one), Splat], [], [], Pack, 0, Cursor(0, []))
      == Success(([one, Tup([])], Cursor(1, [])))
  {
    var a: seq<Val> := [];
    var t: seq<Entry<Val>> := [Literal(one), Splat];
    var kwv: seq<Entry<Val>> := [];
    assert NoPlaceholders(kwv);
    assert Drop(a, 0) == [];
    assert [] + Range(0, 0) == [];
    PosEnd(t, kwv, a, Cursor(1, []));
    assert [Tup([])] + [] == [Tup([])];
    PosStep(t, kwv, a, 1, Cursor(0, []), Tup([]), Cursor(1, []), [], Cursor(1, []));
    assert [one] + [Tup([])] == [one, Tup([])];
    PosStep(t, kwv, a, 0, Cursor(0, []), one, Cursor(0, []), [Tup([])], Cursor(1, []));
  }

  lemma CurryEmptySplatKeywords(one: Val)
    ensures KeywordPass([], [], Pack, 0, Cursor(1, []))
      == Success(([], Cursor(1, [])))
  {
    var a: seq<Val> := [];
    var kwv: seq<Entry<Val>> := [];
    KwEnd(kwv, a, Cursor(1, []));
  }

  /** fluent_test.py:169: `curry(1, 2, _._args)(3)` calls with `(1, 2, (3,))`. */
  lemma CurrySplatAfterLiterals(one: Val, two: Val, three: Val)
    ensures Merge(Pack, [Literal(one), Literal(two), Splat], [], [three])
      == Success(([one, two, Tup([three])], []))
  {
    assert Dict.Values<Entry<Val>>([]) == [];
    CurrySplatAfterLiteralsPositional(one, two, three);
    CurrySplatAfterLiteralsKeywords(one, two, three);
    MergeFrom([Literal(one), Literal(two), Splat], [], [three], [one, two, Tup([three])], Cursor(1, [0]), [], Cursor(1, [0]));
    assert [one, two, Tup([three])] + Drop<Val>([three], MaxUsed([0]) + 1) == [one, two, Tup([three])] by {
      assert MaxUsed([0]) == 0;
    }
    assert Dict.Zip<Val>(Dict.Keys<Entry<Val>>([]), []) == [] by {
      assert Dict.Keys<Entry<Val>>([]) == [];
    }
  }

  lemma CurrySplatAfterLiteralsPositional(one: Val, two: Val, three: Val)
    ensures PositionalPass([Literal(one), Literal(two), Splat], [], [three], Pack, 0, Cursor(0, []))
      == Success(([one, two, Tup([three])], Cursor(1, [0])))
  {
    var a: seq<Val> := [three];
    var t: seq<Entry<Val>> := [Literal(one), Literal(two), Splat];
    var kwv: seq<Entry<Val>> := [];
    assert NoPlaceholders(kwv);
    assert Drop(a, 0) == [three];
    assert [] + Range(0, 1) == [0];
    PosEnd(t, kwv, a, Cursor(1, [0]));
    assert [Tup([three])] + [] == [Tup([three])];
    PosStep(t, kwv, a, 2, Cursor(0, []), Tup([three]), Cursor(1, [0]), [], Cursor(1, [0]));
    assert [two] + [Tup([three])] == [two, Tup([three])];
    PosStep(t, kwv, a, 1, Cursor(0, []), two, Cursor(0, []), [Tup([three])], Cursor(1, [0]));
    assert [one] + [two, Tup([three])] == [one, two, Tup([three])];
    PosStep(t, kwv, a, 0, Cursor(0, []), one, Cursor(0, []), [two, Tup([three])], Cursor(1, [0]));
  }

  lemma CurrySplatAfterLiteralsKeywords(one: Val, two: Val, three: Val)
    ensures KeywordPass([], [three], Pack, 0, Cursor(1, [0]))
      == Success(([], Cursor(1, [0])))
  {
    var a: seq<Val> := [three];
    var kwv: seq<Entry<Val>> := [];
    KwEnd(kwv, a, Cursor(1, [0]));
  }

  /** fluent_test.py:170: `curry(_, _._args)(1, 2, 3)` calls with `(1, (2, 3))`. */
  lemma CurrySplatAfterHole(one: Val, two: Val, three: Val)
    ensures Merge(Pack, [Hole, Splat], [], [one, two, three])
      == Success(([one, Tup([two, three])], []))
  {
    assert Dict.Values<Entry<Val>>([]) == [];
    CurrySplatAfterHolePositional(one, two, three);
    CurrySplatAfterHoleKeywords(one, two, three);
    MergeFrom([Hole, Splat], [], [one, two, three], [one, Tup([two, three])], Cursor(2, [0, 1, 2]), [], Cursor(2, [0, 1, 2]));
    assert [one, Tup([two, three])] + Drop<Val>([one, two, three], MaxUsed([0, 1, 2]) + 1) == [one, Tup([two, three])] by {
      assert MaxUsed([0]) == 0;
      assert MaxUsed([0, 1]) == 1;
      assert MaxUsed([0, 1, 2]) == 2;
    }
    assert Dict.Zip<Val>(Dict.Keys<Entry<Val>>([]), []) == [] by {
      assert Dict.Keys<Entry<Val>>([]) == [];
    }
  }

  lemma CurrySplatAfterHolePositional(one: Val, two: Val, three: Val)
    ensures PositionalPass([Hole, Splat], [], [one, two, three], Pack, 0, Cursor(0, []))
      == Success(([one, Tup([two, three])], Cursor(2, [0, 1, 2])))
  {
    var a: seq<Val> := [one, two, three];
    var t: seq<Entry<Val>> := [Hole, Splat];
    var kwv: seq<Entry<Val>> := [];
    assert NoPlaceholders(kwv);
    assert [] + [0] == [0];
    assert Drop(a, 1) == [two, three];
    assert [0] + Range(1, 3) == [0, 1, 2];
    PosEnd(t, kwv, a, Cursor(2, [0, 1, 2]));
    assert [Tup([two, three])] + [] == [Tup([two, three])];
    PosStep(t, kwv, a, 1, Cursor(1, [0]), Tup([two, three]), Cursor(2, [0, 1, 2]), [], Cursor(2, [0, 1, 2]));
    assert [one] + [Tup([two, three])] == [one, Tup([two, three])];
    PosStep(t, kwv, a, 0, Cursor(0, []), one, Cursor(1, [0]), [Tup([two, three])], Cursor(2, [0, 1, 2]));
  }

  lemma CurrySplatAfterHoleKeywords(one: Val, two: Val, three: Val)
    ensures KeywordPass([], [one, two, three], Pack, 0, Cursor(2, [0, 1, 2]))
      == Success(([], Cursor(2, [0, 1, 2])))
  {
    var a: seq<Val> := [one, two, three];
    var kwv: seq<Entry<Val>> := [];
    KwEnd(kwv, a, Cursor(2, [0, 1, 2]));
  }

  /** fluent_test.py:171-173: `curry(_._1, _._args)(1, 2, 3)` calls with `(2, (2, 3))`: the splat starts at the placeholder count, not after the largest index read. */
  lemma CurrySplatAfterIndex(one: Val, two: Val, three: Val)
    ensures Merge(Pack, [Index(1), Splat], [], [one, two, three])
      == Success(([two, Tup([two, three])], []))
  {
    assert Dict.Values<Entry<Val>>([]) == [];
    CurrySplatAfterIndexPositional(one, two, three);
    CurrySplatAfterIndexKeywords(one, two, three);
    MergeFrom([Index(1), Splat], [], [one, two, three], [two, Tup([two, three])], Cursor(2, [1, 1, 2]), [], Cursor(2, [1, 1, 2]));
    assert [two, Tup([two, three])] + Drop<Val>([one, two, three], MaxUsed([1, 1, 2]) + 1) == [two, Tup([two, three])] by {
      assert MaxUsed([1]) == 1;
      assert MaxUsed([1, 1]) == 1;
      assert MaxUsed([1, 1, 2]) == 2;
    }
    assert Dict.Zip<Val>(Dict.Keys<Entry<Val>>([]), []) == [] by {
      assert Dict.Keys<Entry<Val>>([]) == [];
    }
  }

  lemma CurrySplatAfterIndexPositional(one: Val, two: Val, three: Val)
    ensures PositionalPass([Index(1), Splat], [], [one, two, three], Pack, 0, Cursor(0, []))
      == Success(([two, Tup([two, three])], Cursor(2, [1, 1, 2])))
  {
    var a: seq<Val> := [one, two, three];
    var t: seq<Entry<Val>> := [Index(1), Splat];
    var kwv: seq<Entry<Val>> := [];
    assert NoPlaceholders(kwv);
    assert [] + [1] == [1];
    assert Drop(a, 1) == [two, three];
    assert [1] + Range(1, 3) == [1, 1, 2];
    PosEnd(t, kwv, a, Cursor(2, [1, 1, 2]));
    assert [Tup([two, three])] + [] == [Tup([two, three])];
    PosStep(t, kwv, a, 1, Cursor(1, [1]), Tup([two, three]), Cursor(2, [1, 1, 2]), [], Cursor(2, [1, 1, 2]));
    assert [two] + [Tup([two, three])] == [two, Tup([two, three])];
    PosStep(t, kwv, a, 0, Cursor(0, []), two, Cursor(1, [1]), [Tup([two, three])], Cursor(2, [1, 1, 2]));
  }

  lemma CurrySplatAfterIndexKeywords(one: Val, two: Val, three: Val)
    ensures KeywordPass([], [one, two, three], Pack, 0, Cursor(2, [1, 1, 2]))
      == Success(([], Cursor(2, [1, 1, 2])))
  {
    var a: seq<Val> := [one, two, three];
    var kwv: seq<Entry<Val>> := [];
    KwEnd(kwv, a, Cursor(2, [1, 1, 2]));
  }

  /** fluent_test.py:174: `curry(_._args)(1, 2, 3)` calls with `((1, 2, 3),)`. */
  lemma CurrySplatAlone(one: Val, two: Val, three: Val)
    ensures Merge(Pack, [Splat], [], [one, two, three])
      == Success(([Tup([one, two, three])], []))
  {
    assert Dict.Values<Entry<Val>>([]) == [];
    CurrySplatAlonePositional(one, two, three);
    CurrySplatAloneKeywords(one, two, three);
    MergeFrom([Splat], [], [one, two, three], [Tup([one, two, three])], Cursor(1, [0, 1, 2]), [], Cursor(1, [0, 1, 2]));
    assert [Tup([one, two, three])] + Drop<Val>([one, two, three], MaxUsed([0, 1, 2]) + 1) == [Tup([one, two, three])] by {
      assert MaxUsed([0]) == 0;
      assert MaxUsed([0, 1]) == 1;
      assert MaxUsed([0, 1, 2]) == 2;
    }
    assert Dict.Zip<Val>(Dict.Keys<Entry<Val>>([]), []) == [] by {
      assert Dict.Keys<Entry<Val>>([]) == [];
    }
  }

  lemma CurrySplatAlonePositional(one: Val, two: Val, three: Val)
    ensures PositionalPass([Splat], [], [one, two, three], Pack, 0, Cursor(0, []))
      == Success(([Tup([one, two, three])], Cursor(1, [0, 1, 2])))
  {
    var a: seq<Val> := [one, two, three];
    var t: seq<Entry<Val>> := [Splat];
    var kwv: seq<Entry<Val>> := [];
    assert NoPlaceholders(kwv);
    assert Drop(a, 0) == [one, two, three];
    assert [] + Range(0, 3) == [0, 1, 2];
    PosEnd(t, kwv, a, Cursor(1, [0, 1, 2]));
    assert [Tup([one, two, three])] + [] == [Tup([one, two, three])];
    PosStep(t, kwv, a, 0, Cursor(0, []), Tup([one, two, three]), Cursor(1, [0, 1, 2]), [], Cursor(1, [0, 1, 2]));
  }

  lemma CurrySplatAloneKeywords(one: Val, two: Val, three: Val)
    ensures KeywordPass([], [one, two, three], Pack, 0, Cursor(1, [0, 1, 2]))
      == Success(([], Cursor(1, [0, 1, 2])))
  {
    var a: seq<Val> := [one, two, three];
    var kwv: seq<Entry<Val>> := [];
    KwEnd(kwv, a, Cursor(1, [0, 1, 2]));
  }

  /** fluent_test.py:175: `curry(x=_._args)(1, 2, 3)` calls with `x=(1, 2, 3)`. */
  lemma CurryKeywordSplat(one: Val, two: Val, three: Val)
    ensures Merge(Pack, [], [("x", Splat)], [one, two, three])
      == Success(([], [("x", Tup([one, two, three]))]))
  {
    assert Dict.Values<Entry<Val>>([("x", Splat)]) == [Splat];
    CurryKeywordSplatPositional(one, two, three);
    CurryKeywordSplatKeywords(one, two, three);
    MergeFrom([], [("x", Splat)], [one, two, three], [], Cursor(0, []), [Tup([one, two, three])], Cursor(1, [0, 1, 2]));
    assert [] + Drop<Val>([one, two, three], MaxUsed([0, 1, 2]) + 1) == [] by {
      assert MaxUsed([0]) == 0;
      assert MaxUsed([0, 1]) == 1;
      assert MaxUsed([0, 1, 2]) == 2;
    }
    assert Dict.Zip<Val>(Dict.Keys<Entry<Val>>([("x", Splat)]), [Tup([one, two, three])]) == [("x", Tup([one, two, three]))] by {
      assert Dict.Keys<Entry<Val>>([("x", Splat)]) == ["x"];
    }
  }

  lemma CurryKeywordSplatPositional(one: Val, two: Val, three: Val)
    ensures PositionalPass([], [Splat], [one, two, three], Pack, 0, Cursor(0, []))
      == Success(([], Cursor(0, [])))
  {
    var a: seq<Val> := [one, two, three];
    var t: seq<Entry<Val>> := [];
    var kwv: seq<Entry<Val>> := [Splat];
    assert !NoPlaceholders(kwv) by { assert kwv[0].IsPlaceholder(); }
    PosEnd(t, kwv, a, Cursor(0, []));
  }

  lemma CurryKeywordSplatKeywords(one: Val, two: Val, three: Val)
    ensures KeywordPass([Splat], [one, two, three], Pack, 0, Cursor(0, []))
      == Success(([Tup([one, two, three])], Cursor(1, [0, 1, 2])))
  {
    var a: seq<Val> := [one, two, three];
    var kwv: seq<Entry<Val>> := [Splat];
    assert PlaceholderFreeAfter(kwv, 0);
    assert Drop(a, 0) == [one, two, three];
    assert [] + Range(0, 3) == [0, 1, 2];
    KwEnd(kwv, a, Cursor(1, [0, 1, 2]));
    assert [Tup([one, two, three])] + [] == [Tup([one, two, three])];
    KwStep(kwv, a, 0, Cursor(0, []), Tup([one, two, three]), Cursor(1, [0, 1, 2]), [], Cursor(1, [0, 1, 2]));
  }

  /** fluent_test.py:177-181: `curry(_._args, _)` is refused. */
  lemma CurrySplatFirst(foo: Val, bar: Val)
    ensures Merge(Pack, [Splat, Hole], [], [foo, bar])
      == Failure(SplatNotLast)
  {
    assert Dict.Values<Entry<Val>>([]) == [];
    CurrySplatFirstPositional(foo, bar);
    MergeFailsPos([Splat, Hole], [], [foo, bar], SplatNotLast);
  }

  lemma CurrySplatFirstPositional(foo: Val, bar: Val)
    ensures PositionalPass([Splat, Hole], [], [foo, bar], Pack, 0, Cursor(0, []))
      == Failure(SplatNotLast)
  {
    var a: seq<Val> := [foo, bar];
    var t: seq<Entry<Val>> := [Splat, Hole];
    var kwv: seq<Entry<Val>> := [];
    assert NoPlaceholders(kwv);
    PosFail(t, kwv, a, 0, Cursor(0, []), SplatNotLast);
  }

  /** fluent_test.py:183-185: `curry(_._args, y=_)` is refused. */
  lemma CurrySplatBeforeKeywordHole(one: Val, two: Val, three: Val)
    ensures Merge(Pack, [Splat], [("y", Hole)], [one, two, three])
      == Failure(SplatNotLast)
  {
    assert Dict.Values<Entry<Val>>([("y", Hole)]) == [Hole];
    CurrySplatBeforeKeywordHolePositional(one, two, three);
    MergeFailsPos([Splat], [("y", Hole)], [one, two, three], SplatNotLast);
  }

  lemma CurrySplatBeforeKeywordHolePositional(one: Val, two: Val, three: Val)
    ensures PositionalPass([Splat], [Hole], [one, two, three], Pack, 0, Cursor(0, []))
      == Failure(SplatNotLast)
  {
    var a: seq<Val> := [one, two, three];
    var t: seq<Entry<Val>> := [Splat];
    var kwv: seq<Entry<Val>> := [Hole];
    assert !NoPlaceholders(kwv) by { assert kwv[0].IsPlaceholder(); }
    PosFail(t, kwv, a, 0, Cursor(0, []), SplatNotLast);
  }

  /** fluent_test.py:186-188: `curry(x=_._args, y=_)` is refused. */
  lemma CurryKeywordSplatBeforeHole(one: Val, two: Val, three: Val)
    ensures Merge(Pack, [], [("x", Splat), ("y", Hole)], [one, two, three])
      == Failure(SplatNotLast)
  {
    assert Dict.Values<Entry<Val>>([("x", Splat), ("y", Hole)]) == [Splat, Hole];
    CurryKeywordSplatBeforeHolePositional(one, two, three);
    CurryKeywordSplatBeforeHoleKeywords(one, two, three);
    MergeFailsKw([], [("x", Splat), ("y", Hole)], [one, two, three], [], Cursor(0, []), SplatNotLast);
  }

  lemma CurryKeywordSplatBeforeHolePositional(one: Val, two: Val, three: Val)
    ensures PositionalPass([], [Splat, Hole], [one, two, three], Pack, 0, Cursor(0, []))
      == Success(([], Cursor(0, [])))
  {
    var a: seq<Val> := [one, two, three];
    var t: seq<Entry<Val>> := [];
    var kwv: seq<Entry<Val>> := [Splat, Hole];
    assert !NoPlaceholders(kwv) by { assert kwv[0].IsPlaceholder(); }
    PosEnd(t, kwv, a, Cursor(0, []));
  }

  lemma CurryKeywordSplatBeforeHoleKeywords(one: Val, two: Val, three: Val)
    ensures KeywordPass([Splat, Hole], [one, two, three], Pack, 0, Cursor(0, []))
      == Failure(SplatNotLast)
  {
    var a: seq<Val> := [one, two, three];
    var kwv: seq<Entry<Val>> := [Splat, Hole];
    assert !PlaceholderFreeAfter(kwv, 0) by { assert kwv[1].IsPlaceholder(); }
    assert PlaceholderFreeAfter(kwv, 1);
    KwFail(kwv, a, 0, Cursor(0, []), SplatNotLast);
  }

  /** fluent_test.py:192: the outer `curry('foo', _)` applied to `('baz',)`. */
  lemma CurryOuterCurry(foo: Val, baz: Val)
    ensures Merge(Pack, [Literal(foo), Hole], [], [baz])
      == Success(([foo, baz], []))
  {
    assert Dict.Values<Entry<Val>>([]) == [];
    CurryOuterCurryPositional(foo, baz);
    CurryOuterCurryKeywords(foo, baz);
    MergeFrom([Literal(foo), Hole], [], [baz], [foo, baz], Cursor(1, [0]), [], Cursor(1, [0]));
    assert [foo, baz] + Drop<Val>([baz], MaxUsed([0]) + 1) == [foo, baz] by {
      assert MaxUsed([0]) == 0;
    }
    assert Dict.Zip<Val>(Dict.Keys<Entry<Val>>([]), []) == [] by {
      assert Dict.Keys<Entry<Val>>([]) == [];
    }
  }

  lemma CurryOuterCurryPositional(foo: Val, baz: Val)
    ensures PositionalPass([Literal(foo), Hole], [], [baz], Pack, 0, Cursor(0, []))
      == Success(([foo, baz], Cursor(1, [0])))
  {
    var a: seq<Val> := [baz];
    var t: seq<Entry<Val>> := [Literal(foo), Hole];
    var kwv: seq<Entry<Val>> := [];
    assert NoPlaceholders(kwv);
    assert [] + [0] == [0];
    PosEnd(t, kwv, a, Cursor(1, [0]));
    assert [baz] + [] == [baz];
    PosStep(t, kwv, a, 1, Cursor(0, []), baz, Cursor(1, [0]), [], Cursor(1, [0]));
    assert [foo] + [baz] == [foo, baz];
    PosStep(t, kwv, a, 0, Cursor(0, []), foo, Cursor(0, []), [baz], Cursor(1, [0]));
  }

  lemma CurryOuterCurryKeywords(foo: Val, baz: Val)
    ensures KeywordPass([], [baz], Pack, 0, Cursor(1, [0]))
      == Success(([], Cursor(1, [0])))
  {
    var a: seq<Val> := [baz];
    var kwv: seq<Entry<Val>> := [];
    KwEnd(kwv, a, Cursor(1, [0]));
  }

  /** fluent_test.py:192: the inner `curry(_, 'bar', _)` applied to what the outer one passes on. */
  lemma CurryInnerCurry(bar: Val, foo: Val, baz: Val)
    ensures Merge(Pack, [Hole, Literal(bar), Hole], [], [foo, baz])
      == Success(([foo, bar, baz], []))
  {
    assert Dict.Values<Entry<Val>>([]) == [];
    CurryInnerCurryPositional(bar, foo, baz);
    CurryInnerCurryKeywords(bar, foo, baz);
    MergeFrom([Hole, Literal(bar), Hole], [], [foo, baz], [foo, bar, baz], Cursor(2, [0, 1]), [], Cursor(2, [0, 1]));
    assert [foo, bar, baz] + Drop<Val>([foo, baz], MaxUsed([0, 1]) + 1) == [foo, bar, baz] by {
      assert MaxUsed([0]) == 0;
      assert MaxUsed([0, 1]) == 1;
    }
    assert Dict.Zip<Val>(Dict.Keys<Entry<Val>>([]), []) == [] by {
      assert Dict.Keys<Entry<Val>>([]) == [];
    }
  }

  lemma CurryInnerCurryPositional(bar: Val, foo: Val, baz: Val)
    ensures PositionalPass([Hole, Literal(bar), Hole], [], [foo, baz], Pack, 0, Cursor(0, []))
      == Success(([foo, bar, baz], Cursor(2, [0, 1])))
  {
    var a: seq<Val> := [foo, baz];
    var t: seq<Entry<Val>> := [Hole, Literal(bar), Hole];
    var kwv: seq<Entry<Val>> := [];
    assert NoPlaceholders(kwv);
    assert [] + [0] == [0];
    assert [0] + [1] == [0, 1];
    PosEnd(t, kwv, a, Cursor(2, [0, 1]));
    assert [baz] + [] == [baz];
    PosStep(t, kwv, a, 2, Cursor(1, [0]), baz, Cursor(2, [0, 1]), [], Cursor(2, [0, 1]));
    assert [bar] + [baz] == [bar, baz];
    PosStep(t, kwv, a, 1, Cursor(1, [0]), bar, Cursor(1, [0]), [baz], Cursor(2, [0, 1]));
    assert [foo] + [bar, baz] == [foo, bar, baz];
    PosStep(t, kwv, a, 0, Cursor(0, []), foo, Cursor(1, [0]), [bar, baz], Cursor(2, [0, 1]));
  }

  lemma CurryInnerCurryKeywords(bar: Val, foo: Val, baz: Val)
    ensures KeywordPass([], [foo, baz], Pack, 0, Cursor(2, [0, 1]))
      == Success(([], Cursor(2, [0, 1])))
  {
    var a: seq<Val> := [foo, baz];
    var kwv: seq<Entry<Val>> := [];
    KwEnd(kwv, a, Cursor(2, [0, 1]));
  }

  /** fluent_test.py:196-197: `curry(3)(2)` passes the surplus `2` on, so the one-argument callee raises TypeError. */
  lemma CurryPassesSurplus(three: Val, two: Val)
    ensures Merge(Pack, [Literal(three)], [], [two])
      == Success(([three, two], []))
  {
    assert Dict.Values<Entry<Val>>([]) == [];
    CurryPassesSurplusPositional(three, two);
    CurryPassesSurplusKeywords(three, two);
    MergeFrom([Literal(three)], [], [two], [three], Cursor(0, []), [], Cursor(0, []));
    assert [three] + Drop<Val>([two], MaxUsed([]) + 1) == [three, two] by {
      assert MaxUsed([]) == -1;
    }
    assert Dict.Zip<Val>(Dict.Keys<Entry<Val>>([]), []) == [] by {
      assert Dict.Keys<Entry<Val>>([]) == [];
    }
  }

  lemma CurryPassesSurplusPositional(three: Val, two: Val)
    ensures PositionalPass([Literal(three)], [], [two], Pack, 0, Cursor(0, []))
      == Success(([three], Cursor(0, [])))
  {
    var a: seq<Val> := [two];
    var t: seq<Entry<Val>> := [Literal(three)];
    var kwv: seq<Entry<Val>> := [];
    assert NoPlaceholders(kwv);
    PosEnd(t, kwv, a, Cursor(0, []));
    assert [three] + [] == [three];
    PosStep(t, kwv, a, 0, Cursor(0, []), three, Cursor(0, []), [], Cursor(0, []));
  }

  lemma CurryPassesSurplusKeywords(three: Val, two: Val)
    ensures KeywordPass([], [two], Pack, 0, Cursor(0, []))
      == Success(([], Cursor(0, [])))
  {
    var a: seq<Val> := [two];
    var kwv: seq<Entry<Val>> := [];
    KwEnd(kwv, a, Cursor(0, []));
  }

  /** fluent_test.py:201-202: `curry(_._2)(1, 2, 3)` ignores the first two arguments. */
  lemma CurryIndexIgnoresEarlier(one: Val, two: Val, three: Val)
    ensures Merge(Pack, [Index(2)], [], [one, two, three])
      == Success(([three], []))
  {
    assert Dict.Values<Entry<Val>>([]) == [];
    CurryIndexIgnoresEarlierPositional(one, two, three);
    CurryIndexIgnoresEarlierKeywords(one, two, three);
    MergeFrom([Index(2)], [], [one, two, three], [three], Cursor(1, [2]), [], Cursor(1, [2]));
    assert [three] + Drop<Val>([one, two, three], MaxUsed([2]) + 1) == [three] by {
      assert MaxUsed([2]) == 2;
    }
    assert Dict.Zip<Val>(Dict.Keys<Entry<Val>>([]), []) == [] by {
      assert Dict.Keys<Entry<Val>>([]) == [];
    }
  }

  lemma CurryIndexIgnoresEarlierPositional(one: Val, two: Val, three: Val)
    ensures PositionalPass([Index(2)], [], [one, two, three], Pack, 0, Cursor(0, []))
      == Success(([three], Cursor(1, [2])))
  {
    var a: seq<Val> := [one, two, three];
    var t: seq<Entry<Val>> := [Index(2)];
    var kwv: seq<Entry<Val>> := [];
    assert NoPlaceholders(kwv);
    assert [] + [2] == [2];
    PosEnd(t, kwv, a, Cursor(1, [2]));
    assert [three] + [] == [three];
    PosStep(t, kwv, a, 0, Cursor(0, []), three, Cursor(1, [2]), [], Cursor(1, [2]));
  }

  lemma CurryIndexIgnoresEarlierKeywords(one: Val, two: Val, three: Val)
    ensures KeywordPass([], [one, two, three], Pack, 0, Cursor(1, [2]))
      == Success(([], Cursor(1, [2])))
  {
    var a: seq<Val> := [one, two, three];
    var kwv: seq<Entry<Val>> := [];
    KwEnd(kwv, a, Cursor(1, [2]));
  }

  /** fluent_test.py:201-204: `curry(_._2)(1, 2, 3, 4)` ignores the first two arguments and passes the fourth on, so the one-argument callee raises TypeError. */
  lemma CurryDropsBelowLargestIndex(one: Val, two: Val, three: Val, four: Val)
    ensures Merge(Pack, [Index(2)], [], [one, two, three, four])
      == Success(([three, four], []))
  {
    assert Dict.Values<Entry<Val>>([]) == [];
    CurryDropsBelowLargestIndexPositional(one, two, three, four);
    CurryDropsBelowLargestIndexKeywords(one, two, three, four);
    MergeFrom([Index(2)], [], [one, two, three, four], [three], Cursor(1, [2]), [], Cursor(1, [2]));
    assert [three] + Drop<Val>([one, two, three, four], MaxUsed([2]) + 1) == [three, four] by {
      assert MaxUsed([2]) == 2;
    }
    assert Dict.Zip<Val>(Dict.Keys<Entry<Val>>([]), []) == [] by {
      assert Dict.Keys<Entry<Val>>([]) == [];
    }
  }

  lemma CurryDropsBelowLargestIndexPositional(one: Val, two: Val, three: Val, four: Val)
    ensures PositionalPass([Index(2)], [], [one, two, three, four], Pack, 0, Cursor(0, []))
      == Success(([three], Cursor(1, [2])))
  {
    var a: seq<Val> := [one, two, three, four];
    var t: seq<Entry<Val>> := [Index(2)];
    var kwv: seq<Entry<Val>> := [];
    assert NoPlaceholders(kwv);
    assert [] + [2] == [2];
    PosEnd(t, kwv, a, Cursor(1, [2]));
    assert [three] + [] == [three];
    PosStep(t, kwv, a, 0, Cursor(0, []), three, Cursor(1, [2]), [], Cursor(1, [2]));
  }

  lemma CurryDropsBelowLargestIndexKeywords(one: Val, two: Val, three: Val, four: Val)
    ensures KeywordPass([], [one, two, three, four], Pack, 0, Cursor(1, [2]))
      == Success(([], Cursor(1, [2])))
  {
    var a: seq<Val> := [one, two, three, four];
    var kwv: seq<Entry<Val>> := [];
    KwEnd(kwv, a, Cursor(1, [2]));
  }

  /** fluent_test.py:139: `dict(x=_, y=1, **{'x': 0})` replaces the value of
      `x` in place and keeps `y`. */
  lemma KeywordOverride(zero: Val, one: Val)
    ensures MergedKeywords([("x", Hole), ("y", Literal(one))], [("x", zero)])
      == [("x", Literal(zero)), ("y", Literal(one))]
  {
    var ps := [("x", Hole), ("y", Literal(one))] + Lift([("x", zero)]);
    assert ps == [("x", Hole), ("y", Literal(one)), ("x", Literal(zero))];
    var init := ps[..2];
    assert init == [("x", Hole), ("y", Literal(one))];
    assert Dict.UniqueKeys(init);
    Dict.FromPairsOfDict(init);
    assert Dict.HasKey(init, "x") && Dict.IndexOf(init, "x") == 0;
    assert Dict.FromPairs(ps) == Dict.Store(init, "x", Literal(zero));
  }

  /** fluent_test.py:138-139: `curry(x=_, y=1)(x=0)` calls with `x=0, y=1`:
      the call-time keyword fills the keyword placeholder by name. */
  lemma CurryKeywordByName(zero: Val, one: Val)
    ensures MergeArguments(Pack, [], [("x", Hole), ("y", Literal(one))], [], [("x", zero)])
      == Success(([], [("x", zero), ("y", one)]))
  {
    KeywordOverride(zero, one);
    CurryKeywordLiterals(zero, one);
  }

  /** fluent_test.py:191-192: currying a curried function; the outer template
      fills in first and hands its result to the inner one. */
  lemma CurryAppliedTwice(foo: Val, bar: Val, baz: Val)
    ensures var outer := Merge(Pack, [Literal(foo), Hole], [], [baz]);
      && outer == Success(([foo, baz], []))
      && Merge(Pack, [Hole, Literal(bar), Hole], [], outer.value.0) == Success(([foo, bar, baz], []))
  {
    CurryOuterCurry(foo, baz);
    CurryInnerCurry(bar, foo, baz);
  }

  // ---------------------------------------------------------------------
  // each (fluent_test.py:500-572)

  /** The repr of a builder with one or two stages. */
  lemma ReprOfOne<V>(host: Each.Host<V>, s: Each.Stage<V>)
    ensures Each.Repr(host, Each.Builder([s])) == "fluentpy.wrap(each" + Each.Suffix(host, s) + ")"
  {
    Each.NameSnoc(host, [], s);
  }

  lemma ReprOfTwo<V>(host: Each.Host<V>, s: Each.Stage<V>, t: Each.Stage<V>)
    ensures Each.Repr(host, Each.Builder([s, t])) == "fluentpy.wrap(each" + Each.Suffix(host, s) + Each.Suffix(host, t) + ")"
  {
    var ss, st := Each.Suffix(host, s), Each.Suffix(host, t);
    Each.NameSnoc(host, [], s);
    assert [] + [s] == [s];
    Each.NameSnoc(host, [s], t);
    assert [s] + [t] == [s, t];
    assert Each.Name(host, [s, t]) == "each" + ss + st;
    assert "fluentpy.wrap(" + "each" == "fluentpy.wrap(each";
    SeqAssoc4("fluentpy.wrap(", "each", ss, st);
  }

  lemma SeqAssoc4<T>(a: seq<T>, b: seq<T>, c: seq<T>, d: seq<T>)
    ensures a + (b + c + d) == a + b + c + d
  {
  }

  /** fluent_test.py:565: `repr(each['foo'])` */
  lemma EachItemName<V>(host: Each.Host<V>, foo: V)
    requires host.repr(foo) == "'foo'"
    ensures Each.Repr(host, Each.GetItem(Each.Builder([]), foo)) == "fluentpy.wrap(each['foo'])"
  {
    assert [] + [Each.Item(foo)] == [Each.Item(foo)];
    ReprOfOne(host, Each.Item(foo));
  }

  /** fluent_test.py:566: `each.foo` is a new builder (the name is not one of
      the builder's own) named `each.foo`. */
  lemma EachAttrName<V>(host: Each.Host<V>, inherited: set<string>)
    requires "foo" !in inherited
    ensures Each.GetAttr<V>(inherited, Each.Builder([]), "foo") == Each.NewBuilder(Each.Builder([Each.Attr("foo")]))
    ensures Each.Repr(host, Each.Builder([Each.Attr("foo")])) == "fluentpy.wrap(each.foo)"
  {
    assert "foo" !in Each.DefinedNames;
    ReprOfOne(host, Each.Attr("foo"));
  }

  /** fluent_test.py:569: `repr(each.foo['bar'])` */
  lemma EachAttrItemName<V>(host: Each.Host<V>, bar: V)
    requires host.repr(bar) == "'bar'"
    ensures Each.Repr(host, Each.GetItem(Each.Builder([Each.Attr("foo")]), bar)) == "fluentpy.wrap(each.foo['bar'])"
  {
    assert [Each.Attr("foo")] + [Each.Item(bar)] == [Each.Stage<V>.Attr("foo"), Each.Item(bar)];
    ReprOfTwo(host, Each.Attr("foo"), Each.Item(bar));
  }

  /** A call with one positional and one keyword argument renders as
      `(*(a,), **{'k': v})`: a one-element tuple keeps its trailing comma. */
  lemma CallSuffixOne<V>(host: Each.Host<V>, x: V, k: string, v: V)
    ensures Each.Suffix(host, Each.Call([x], [(k, v)]))
      == "(*(" + host.repr(x) + ",), **{" + host.reprText(k) + ": " + host.repr(v) + "})"
  {
    var kw: Dict.Pairs<V> := [(k, v)];
    var parts := seq(|kw|, i requires 0 <= i < |kw| => host.reprText(kw[i].0) + ": " + host.repr(kw[i].1));
    assert |parts| == 1 && parts[0] == host.reprText(k) + ": " + host.repr(v);
  }

  /** fluent_test.py:567: `repr(each.foo('bar', baz='quoox'))` is
      `fluentpy.wrap(each.foo(*('bar',), **{'baz': 'quoox'}))`. */
  lemma EachCallName<V>(host: Each.Host<V>, bar: V, baz: string, quoox: V)
    ensures Each.Repr(host, Each.CallWith(Each.Builder([Each.Attr("foo")]), [bar], [(baz, quoox)]))
      == "fluentpy.wrap(each" + ".foo"
         + ("(*(" + host.repr(bar) + ",), **{" + host.reprText(baz) + ": " + host.repr(quoox) + "})") + ")"
  {
    var call := Each.Call([bar], [(baz, quoox)]);
    assert [Each.Attr("foo")] + [call] == [Each.Stage<V>.Attr("foo"), call];
    ReprOfTwo(host, Each.Attr("foo"), call);
    CallSuffixOne(host, bar, baz, quoox);
  }

  /** fluent_test.py:571: `repr(each.in_([1, 2]))` */
  lemma EachInName<V>(host: Each.Host<V>, haystack: V)
    requires host.repr(haystack) == "[1, 2]" && host.hasContains(haystack)
    ensures Each.InOp(host, Each.Builder([]), haystack).Success?
    ensures Each.Repr(host, Each.InOp(host, Each.Builder([]), haystack).value) == "fluentpy.wrap(each in [1, 2])"
  {
    assert [] + [Each.In(haystack)] == [Each.In(haystack)];
    ReprOfOne(host, Each.In(haystack));
  }

  /** fluent_test.py:572: `repr(each.not_in([1, 2]))` */
  lemma EachNotInName<V>(host: Each.Host<V>, haystack: V)
    requires host.repr(haystack) == "[1, 2]"
    ensures Each.Repr(host, Each.NotInOp(Each.Builder([]), haystack)) == "fluentpy.wrap(each not in [1, 2])"
  {
    assert [] + [Each.NotIn(haystack)] == [Each.NotIn(haystack)];
    ReprOfOne(host, Each.NotIn(haystack));
  }

  /** fluent_test.py:538-543: `each.in_([1, 2])` and `each.not_in([1, 2])`
      applied to a member and to a non-member; a list's `__contains__`
      answers the bool that `in` reports. */
  lemma EachInEvaluates<V>(host: Each.Host<V>, haystack: V, one: V, three: V)
    requires host.hasContains(haystack) && host.isIn(haystack, one) && !host.isIn(haystack, three)
    requires host.containsMethod(haystack, one) == host.boolean(true)
    requires host.containsMethod(haystack, three) == host.boolean(false)
    ensures Each.InOp(host, Each.Builder([]), haystack).Success?
    ensures Each.Unwrap(host, Each.InOp(host, Each.Builder([]), haystack).value)(three) == Success(host.boolean(false))
    ensures Each.Unwrap(host, Each.InOp(host, Each.Builder([]), haystack).value)(one) == Success(host.boolean(true))
    ensures Each.Unwrap(host, Each.NotInOp(Each.Builder([]), haystack))(three) == Success(host.boolean(true))
    ensures Each.Unwrap(host, Each.NotInOp(Each.Builder([]), haystack))(one) == Success(host.boolean(false))
  {
    Each.InNotInComplement(host, Each.Builder([]), haystack, three);
    Each.InNotInComplement(host, Each.Builder([]), haystack, one);
  }

  /** fluent_test.py:519-520: `each.first` on a dict holding the key `first`
      reads the item, as a wrapped dict would. */
  lemma EachAttributeOfMapping<V>(host: Each.Host<V>, d: V, foo: V)
    requires !host.isNone(d) && Classify(host.caps(d)) == MappingKind && host.hasKey(d, "first")
    requires host.getitem(d, host.text("first")) == foo
    ensures Each.Unwrap(host, Each.Builder([Each.Attr("first")]))(d) == Success(foo)
  {
    Each.DenoteIsRun(host, [Each.Attr("first")], d);
  }

  /** fluent_test.py:545-553: `each['foo'][0].bar().baz` applied to
      `{'foo': [obj]}`, where `obj.bar()` returns `obj` and `obj.baz` is
      `'fnord'`. */
  lemma EachAutoChains<V>(host: Each.Host<V>, data: V, fooKey: V, zero: V, lst: V, obj: V, bound: V, fnord: V)
    requires !host.isNone(data) && !host.isNone(lst) && !host.isNone(obj) && !host.isNone(bound)
    requires host.getitem(data, fooKey) == lst && host.getitem(lst, zero) == obj
    requires Classify(host.caps(obj)) != MappingKind
    requires host.getattr(obj, "bar") == bound && Classify(host.caps(bound)) == CallableKind
    requires host.call(bound, [], []) == obj
    requires host.getattr(obj, "baz") == fnord
    ensures Each.Unwrap(host, Each.Builder([Each.Item(fooKey), Each.Item(zero), Each.Attr("bar"), Each.Call([], []), Each.Attr("baz")]))(data)
      == Success(fnord)
  {
    var stages := [Each.Item(fooKey), Each.Item(zero), Each.Attr("bar"), Each.Call([], []), Each.Attr("baz")];
    Each.DenoteIsRun(host, stages, data);
    assert Each.Run(host, stages[4..][1..], fnord) == Success(fnord);
    assert Each.Run(host, stages[4..], obj) == Success(fnord);
    assert Each.Run(host, stages[3..], bound) == Success(fnord);
    assert Each.Run(host, stages[2..], obj) == Success(fnord);
    assert Each.Run(host, stages[1..], lst) == Success(fnord);
    assert stages[1..] == [Each.Item(zero), Each.Attr("bar"), Each.Call([], []), Each.Attr("baz")];
    assert stages[2..] == [Each.Attr("bar"), Each.Call([], []), Each.Attr("baz")];
    assert stages[3..] == [Each.Call([], []), Each.Attr("baz")];
    assert stages[4..] == [Each.Attr("baz")];
  }

  /** fluent_test.py:558-561: `each['foo'] % 3` is the plain function
      `x -> x['foo'] % 3`. */
  lemma EachOperatorTerminates<V>(host: Each.Host<V>, data: V, fooKey: V, five: V, three: V)
    requires !host.isNone(data) && host.getitem(data, fooKey) == five
    ensures Each.Operator(host, Each.Builder([Each.Item(fooKey)]), "__mod__", [three])(data)
      == Success(host.op("__mod__", five, [three]))
  {
    Each.OperatorTerminates(host, Each.Builder([Each.Item(fooKey)]), "__mod__", [three], data);
  }

  // ---------------------------------------------------------------------
  // grouped, flatten, reshape (fluent_test.py:284-352)

  /** fluent_test.py:285-287: only full groups are kept. */
  lemma GroupedPairs<T>(a: T, b: T, c: T, d: T, e: T, f: T)
    ensures Iterables.Grouped([a, b, c, d, e, f], 2) == [[a, b], [c, d], [e, f]]
    ensures Iterables.Grouped([a, b, c, d, e], 2) == [[a, b], [c, d]]
  {
    var g3 := [e, f];
    assert g3[..2] == [e, f] && g3[2..] == [];
    assert Iterables.Grouped(g3, 2) == [[e, f]];
    var g2 := [c, d, e, f];
    assert g2[..2] == [c, d] && g2[2..] == g3;
    assert Iterables.Grouped(g2, 2) == [[c, d], [e, f]];
    var g1 := [a, b, c, d, e, f];
    assert g1[..2] == [a, b] && g1[2..] == g2;
    var h2 := [c, d, e];
    assert h2[..2] == [c, d] && h2[2..] == [e];
    assert Iterables.Grouped(h2, 2) == [[c, d]];
    var h1 := [a, b, c, d, e];
    assert h1[..2] == [a, b] && h1[2..] == h2;
  }

  /** Elements that are not iterables pass through a flatten unchanged. */
  lemma {:induction false} FlattenFlat<A>(xs: seq<Iterables.Nested<A>>, level: Option<nat>)
    requires forall i :: 0 <= i < |xs| ==> !xs[i].List?
    ensures Iterables.Flatten(xs, level) == xs
    decreases |xs|
  {
    if xs != [] {
      FlattenFlat(xs[1..], level);
      assert xs == [xs[0]] + xs[1..];
    }
  }

  /** fluent_test.py:320-325: `[(1, 2), [3, 4], (5, [6, 7])]` flattens to
      `(1, 2, 3, 4, 5, 6, 7)`. */
  lemma FlattenNested<A>(x1: A, x2: A, x3: A, x4: A, x5: A, x6: A, x7: A)
    ensures var a1, a2, a3, a4, a5, a6, a7 := Iterables.Atom(x1), Iterables.Atom(x2), Iterables.Atom(x3),
              Iterables.Atom(x4), Iterables.Atom(x5), Iterables.Atom(x6), Iterables.Atom(x7);
      Iterables.Flatten([Iterables.List([a1, a2]), Iterables.List([a3, a4]), Iterables.List([a5, Iterables.List([a6, a7])])], None)
      == [a1, a2, a3, a4, a5, a6, a7]
  {
    var a1, a2, a3, a4, a5, a6, a7 := Iterables.Atom(x1), Iterables.Atom(x2), Iterables.Atom(x3),
      Iterables.Atom(x4), Iterables.Atom(x5), Iterables.Atom(x6), Iterables.Atom(x7);
    var inner := Iterables.List([a6, a7]);
    FlattenThree(Iterables.List([a1, a2]), Iterables.List([a3, a4]), Iterables.List([a5, inner]), None);
    FlattenFlat([a1, a2], None);
    FlattenFlat([a3, a4], None);
    Iterables.FlattenAppend([a5], [inner], None);
    assert [a5] + [inner] == [a5, inner];
    Iterables.FlattenSingle(a5, None);
    Iterables.FlattenSingle(inner, None);
    FlattenFlat([a6, a7], None);
  }

  /** fluent_test.py:326-327: with `level=1` the innermost list stays whole. */
  lemma FlattenOneLevel<A>(x1: A, x2: A, x3: A, x4: A, x5: A, x6: A, x7: A)
    ensures var a1, a2, a3, a4, a5, a6, a7 := Iterables.Atom(x1), Iterables.Atom(x2), Iterables.Atom(x3),
              Iterables.Atom(x4), Iterables.Atom(x5), Iterables.Atom(x6), Iterables.Atom(x7);
      Iterables.Flatten([Iterables.List([a1, a2]), Iterables.List([a3, a4]), Iterables.List([a5, Iterables.List([a6, a7])])], Some(1))
      == [a1, a2, a3, a4, a5, Iterables.List([a6, a7])]
  {
    var a1, a2, a3, a4, a5, a6, a7 := Iterables.Atom(x1), Iterables.Atom(x2), Iterables.Atom(x3),
      Iterables.Atom(x4), Iterables.Atom(x5), Iterables.Atom(x6), Iterables.Atom(x7);
    var inner := Iterables.List([a6, a7]);
    FlattenThree(Iterables.List([a1, a2]), Iterables.List([a3, a4]), Iterables.List([a5, inner]), Some(1));
    FlattenFlat([a1, a2], Some(0));
    FlattenFlat([a3, a4], Some(0));
    Iterables.FlattenLevelZero([a5, inner]);
  }

  /** A flatten of three lists is the concatenation of their flattens one
      level down. */
  lemma FlattenThree<A>(p: Iterables.Nested<A>, q: Iterables.Nested<A>, r: Iterables.Nested<A>, level: Option<nat>)
    requires p.List? && q.List? && r.List? && Iterables.Positive(level)
    ensures Iterables.Flatten([p, q, r], level)
      == Iterables.Flatten(p.items, Iterables.Pred(level)) + Iterables.Flatten(q.items, Iterables.Pred(level))
         + Iterables.Flatten(r.items, Iterables.Pred(level))
  {
    Iterables.FlattenAppend([p], [q, r], level);
    Iterables.FlattenAppend([q], [r], level);
    assert [p] + [q, r] == [p, q, r] && [q] + [r] == [q, r];
    Iterables.FlattenSingle(p, level);
    Iterables.FlattenSingle(q, level);
    Iterables.FlattenSingle(r, level);
  }

  /** fluent_test.py:329-331: strings are not taken apart. */
  lemma FlattenKeepsStrings(d: string, l: string, b: string, g: string)
    ensures Iterables.Flatten<int>([Iterables.List([Iterables.Text(d), Iterables.Text(l)]), Iterables.List([Iterables.Text(b), Iterables.Text(g)])], None)
      == [Iterables.Text(d), Iterables.Text(l), Iterables.Text(b), Iterables.Text(g)]
  {
    var p: Iterables.Nested<int> := Iterables.List([Iterables.Text(d), Iterables.Text(l)]);
    var q: Iterables.Nested<int> := Iterables.List([Iterables.Text(b), Iterables.Text(g)]);
    Iterables.FlattenAppend([p], [q], None);
    assert [p] + [q] == [p, q];
    Iterables.FlattenSingle(p, None);
    Iterables.FlattenSingle(q, None);
    FlattenFlat(p.items, None);
    FlattenFlat(q.items, None);
  }

  /** Chunks of a four-element sequence. */
  lemma ChunksOfFour<T>(a: T, b: T, c: T, d: T)
    ensures Iterables.Chunks([a, b, c, d], 2) == [[a, b], [c, d]]
    ensures Iterables.Chunks([a, b, c, d], 1) == [[a], [b], [c], [d]]
  {
    var xs := [a, b, c, d];
    assert xs[..2] == [a, b] && xs[2..] == [c, d];
    assert Iterables.Chunks([c, d], 2) == [[c, d]];
    assert xs[..1] == [a] && xs[1..] == [b, c, d];
    assert [b, c, d][..1] == [b] && [b, c, d][1..] == [c, d];
    assert [c, d][..1] == [c] && [c, d][1..] == [d];
    assert Iterables.Chunks([d], 1) == [[d]];
    assert Iterables.Chunks([c, d], 1) == [[c], [d]];
    assert Iterables.Chunks([b, c, d], 1) == [[b], [c], [d]];
  }

  /** fluent_test.py:333-337: `reshape()` keeps the input, `reshape(2)` pairs
      it up and `reshape(2, 2)` pairs up the pairs. */
  lemma ReshapeByTwos<A>(a: Iterables.Nested<A>, b: Iterables.Nested<A>, c: Iterables.Nested<A>, d: Iterables.Nested<A>)
    ensures Iterables.Reshape([a, b, c, d], []) == Success([a, b, c, d])
    ensures Iterables.Reshape([a, b, c, d], [2]) == Success([Iterables.List([a, b]), Iterables.List([c, d])])
    ensures Iterables.Reshape([a, b, c, d], [2, 2])
      == Success([Iterables.List([Iterables.List([a, b]), Iterables.List([c, d])])])
  {
    ChunksOfFour(a, b, c, d);
    var pairs := [Iterables.List([a, b]), Iterables.List([c, d])];
    assert Iterables.Tuples([[a, b], [c, d]]) == pairs;
    assert [2, 2][1..] == [2] && [2][1..] == [];
    assert Iterables.Chunks(pairs, 2) == [pairs];
    assert Iterables.Tuples([pairs]) == [Iterables.List(pairs)];
  }

  /** `reshape(n, *rest)` for `n >= 1` reshapes the tuples of the chunks by
      `rest`. */
  lemma ReshapeStep<A>(xs: seq<Iterables.Nested<A>>, n: int, rest: seq<int>)
    requires n >= 1
    ensures Iterables.Reshape(xs, [n] + rest) == Iterables.Reshape(Iterables.Tuples(Iterables.Chunks(xs, n)), rest)
  {
    assert ([n] + rest)[1..] == rest;
  }

  /** fluent_test.py:338: `reshape(1, 2)` wraps every element and then pairs
      the wrapped elements. */
  lemma ReshapeOneThenTwo<A>(a: Iterables.Nested<A>, b: Iterables.Nested<A>, c: Iterables.Nested<A>, d: Iterables.Nested<A>)
    ensures Iterables.Reshape([a, b, c, d], [1, 2]) == Success([
      Iterables.List([Iterables.List([a]), Iterables.List([b])]),
      Iterables.List([Iterables.List([c]), Iterables.List([d])])])
  {
    ReshapeByOnes(a, b, c, d, [2]);
    ReshapePairs(Iterables.List([a]), Iterables.List([b]), Iterables.List([c]), Iterables.List([d]));
  }

  /** A first level of 1 wraps every element in a one-tuple. */
  lemma ReshapeByOnes<A>(a: Iterables.Nested<A>, b: Iterables.Nested<A>, c: Iterables.Nested<A>, d: Iterables.Nested<A>, rest: seq<int>)
    ensures Iterables.Reshape([a, b, c, d], [1] + rest) ==
      Iterables.Reshape([Iterables.List([a]), Iterables.List([b]), Iterables.List([c]), Iterables.List([d])], rest)
  {
    ChunksOfFour(a, b, c, d);
    assert Iterables.Tuples([[a], [b], [c], [d]])
      == [Iterables.List([a]), Iterables.List([b]), Iterables.List([c]), Iterables.List([d])];
    ReshapeStep([a, b, c, d], 1, rest);
  }

  /** A single level of 2 pairs four elements. */
  lemma ReshapePairs<A>(a: Iterables.Nested<A>, b: Iterables.Nested<A>, c: Iterables.Nested<A>, d: Iterables.Nested<A>)
    ensures Iterables.Reshape([a, b, c, d], [2]) == Success([Iterables.List([a, b]), Iterables.List([c, d])])
  {
    ChunksOfFour(a, b, c, d);
    assert [2] == [2] + [];
    ReshapeStep([a, b, c, d], 2, []);
    assert Iterables.Tuples([[a, b], [c, d]]) == [Iterables.List([a, b]), Iterables.List([c, d])];
  }

  /** fluent_test.py:352: the last chunk may be short. */
  lemma ReshapeShortLast<A>(a: Iterables.Nested<A>, b: Iterables.Nested<A>, c: Iterables.Nested<A>)
    ensures Iterables.Reshape([a, b, c], [2]) == Success([Iterables.List([a, b]), Iterables.List([c])])
  {
    var xs := [a, b, c];
    assert xs[..2] == [a, b] && xs[2..] == [c];
    assert Iterables.Chunks([c], 2) == [[c]];
    assert Iterables.Chunks(xs, 2) == [[a, b], [c]];
    assert Iterables.Tuples([[a, b], [c]]) == [Iterables.List([a, b]), Iterables.List([c])];
    assert [2][1..] == [];
  }

  /** fluent_test.py:333-352 (`reshape` as the inverse of `flatten`): a chunk
      size below one is refused, whatever the other sizes are. */
  lemma ReshapeRefusesZero<A>(xs: seq<Iterables.Nested<A>>, n: int)
    ensures Iterables.Reshape(xs, [2, 0, n]).Failure?
  {
    assert [2, 0, n][1] < 1;
  }
}

=== FILE: iterables.dfy ===
/** The sequence algorithms `IterableWrapper` implements itself in
    `fluentpy/wrapper.py`: `chunkify`/`ireshape`, `iflatten`, `igrouped`, and
    the receiver splice of the `wrapped` decorator. The tuple-returning
    variants (`reshape`, `flatten`, `grouped`) consume the lazy ones, so each
    is modelled on finite sequences. */
module Iterables {
  import opened Wrappers

  /** A Python value as `iflatten` sees it: not iterable, a `str`
      (iterable, its elements are one-character strings), or any other
      iterable, given by the elements it yields. */
  datatype Nested<A> =
    | Atom(a: A)
    | Text(s: string)
    | List(items: seq<Nested<A>>)

  function Concat<T>(xss: seq<seq<T>>): seq<T> {
    if xss == [] then [] else xss[0] + Concat(xss[1..])
  }

  lemma {:induction false} ConcatAppend<T>(a: seq<seq<T>>, b: seq<seq<T>>)
    ensures Concat(a + b) == Concat(a) + Concat(b)
    decreases |a|
  {
    if a == [] {
      assert a + b == b;
    } else {
      assert (a + b)[1..] == a[1..] + b;
      ConcatAppend(a[1..], b);
    }
  }

  // ---------------------------------------------------------------------
  // chunkify and reshape.

  datatype ReshapeError = ChunkSizeBelowOne   // `assert chunk_size >= 1`

  /** Well-formed chunking of `xs` into size-`n` pieces: in order, none
      empty, all of length `n` except a shorter last one. */
  ghost predicate IsChunking<T>(cs: seq<seq<T>>, xs: seq<T>, n: nat) {
    && Concat(cs) == xs
    && (forall i :: 0 <= i < |cs| ==> 1 <= |cs[i]| <= n)
    && (forall i :: 0 <= i < |cs| - 1 ==> |cs[i]| == n)
  }

  /** The tuples `chunkify(xs, n)` yields. */
  function Chunks<T>(xs: seq<T>, n: nat): (r: seq<seq<T>>)
    requires n >= 1
    ensures IsChunking(r, xs, n)
    decreases |xs|
  {
    if xs == [] then []
    else if |xs| <= n then [xs]
    else [xs[..n]] + Chunks(xs[n..], n)
  }

  /** There is only one chunking: `Chunks` is the function the properties
      above determine. */
  lemma {:induction false} ChunkingIsUnique<T>(cs: seq<seq<T>>, xs: seq<T>, n: nat)
    requires n >= 1
    requires IsChunking(cs, xs, n)
    ensures cs == Chunks(xs, n)
    decreases |xs|
  {
    if cs == [] {
    } else {
      assert xs == cs[0] + Concat(cs[1..]);
      if |cs| == 1 {
        assert Concat(cs[1..]) == [];
        assert xs == cs[0];
        assert cs == [xs];
      } else {
        assert |cs[0]| == n;
        assert |cs[1]| >= 1;
        assert Concat(cs[1..]) == cs[1] + Concat(cs[2..]);
        assert xs[..n] == cs[0];
        assert xs[n..] == Concat(cs[1..]);
        assert IsChunking(cs[1..], xs[n..], n) by {
          forall i | 0 <= i < |cs[1..]| - 1
            ensures |cs[1..][i]| == n
          {
            assert cs[1..][i] == cs[i + 1];
          }
        }
        ChunkingIsUnique(cs[1..], xs[n..], n);
      }
    }
  }

  /** `chunkify(iterable, chunk_size)` as the generator runs it: a collector
      filled element by element, emitted when full, and emitted once more at
      the end when not empty. */
  method Chunkify<T>(xs: seq<T>, n: int) returns (r: Result<seq<seq<T>>, ReshapeError>)
    ensures n < 1 <==> r.Failure?
    ensures n >= 1 ==> r == Success(Chunks(xs, n))
  {
    if n < 1 {
      return Failure(ChunkSizeBelowOne);
    }
    var out: seq<seq<T>> := [];
    var collector: seq<T> := [];
    var i := 0;
    while i < |xs|
      invariant 0 <= i <= |xs|
      invariant Concat(out) + collector == xs[..i]
      invariant |collector| < n
      invariant forall k :: 0 <= k < |out| ==> |out[k]| == n
    {
      assert xs[..i + 1] == xs[..i] + [xs[i]];
      collector := collector + [xs[i]];
      if |collector| == n {
        ConcatAppend(out, [collector]);
        assert Concat([collector]) == collector;
        out := out + [collector];
        collector := [];
      }
      i := i + 1;
    }
    assert xs[..i] == xs;
    if |collector| != 0 {
      ConcatAppend(out, [collector]);
      assert Concat([collector]) == collector;
      out := out + [collector];
    } else {
      assert Concat(out) == xs;
    }
    ChunkingIsUnique(out, xs, n);
    return Success(out);
  }

  /** The chunks of one level, each a tuple (flattening one level undoes
      it: `FlattenTuples`). */
  function Tuples<A>(cs: seq<seq<Nested<A>>>): seq<Nested<A>> {
    seq(|cs|, i requires 0 <= i < |cs| => List(cs[i]))
  }

  /** `reshape(*spec)`: chunk by the first level, then reshape the tuples by
      the remaining levels. Every level must be at least 1 (the generators
      assert it once they are consumed, which `reshape` does). */
  function Reshape<A>(xs: seq<Nested<A>>, spec: seq<int>): (r: Result<seq<Nested<A>>, ReshapeError>)
    ensures r.Failure? <==> exists i :: 0 <= i < |spec| && spec[i] < 1
    decreases |spec|
  {
    if spec == [] then Success(xs)
    else if spec[0] < 1 then Failure(ChunkSizeBelowOne)
    else
      var r := Reshape(Tuples(Chunks(xs, spec[0])), spec[1..]);
      assert forall i :: 1 <= i < |spec| ==> spec[i] == spec[1..][i - 1];
      r
  }

  // ---------------------------------------------------------------------
  // iflatten.

  function Size<A>(e: Nested<A>): nat {
    match e
    case List(items) => 1 + SizeAll(items)
    case _ => 1
  }

  function SizeAll<A>(xs: seq<Nested<A>>): nat {
    if xs == [] then 0 else Size(xs[0]) + SizeAll(xs[1..])
  }

  /** `level > 0`, with `None` for `math.inf`. */
  predicate Positive(level: Option<nat>) {
    level.None? || level.value > 0
  }

  /** `level - 1`; `math.inf - 1` is `math.inf`. */
  function Pred(level: Option<nat>): Option<nat>
    requires Positive(level)
  {
    if level.None? then None else Some(level.value - 1)
  }

  /** `iflatten(xs, level)` with the default `stop_at_types=(str, bytes)`:
      elements that are iterables other than strings are replaced by their
      flattening one level down. */
  function Flatten<A>(xs: seq<Nested<A>>, level: Option<nat>): seq<Nested<A>>
    decreases SizeAll(xs)
  {
    if xs == [] then []
    else
      var e := xs[0];
      (if Positive(level) && e.List? then
         assert SizeAll(e.items) < Size(e) <= SizeAll(xs);
         Flatten(e.items, Pred(level))
       else [e])
      + Flatten(xs[1..], level)
  }

  /** The elements an iterable yields. */
  function Children<A>(e: Nested<A>): seq<Nested<A>> {
    match e
    case Atom(_) => []
    case Text(s) => seq(|s|, i requires 0 <= i < |s| => Text([s[i]]))
    case List(items) => items
  }

  /** `iflatten(xs, level, stop_at_types)`: `stop` says which iterable
      elements `stop_at_types` keeps whole. It applies to the top level only,
      since the recursive call `wrap(element).iflatten(level=level-1)` does
      not pass it on. */
  function FlattenWith<A>(xs: seq<Nested<A>>, level: Option<nat>, stop: Nested<A> -> bool): (r: seq<Nested<A>>)
    ensures level == Some(0) ==> r == xs
  {
    if xs == [] then []
    else
      var e := xs[0];
      (if Positive(level) && !e.Atom? && !stop(e) then Flatten(Children(e), Pred(level)) else [e])
      + FlattenWith(xs[1..], level, stop)
  }

  /** `stop_at_types` decides only for the top-level elements: an element it
      does not keep whole is flattened with the default types, whatever
      `stop` says about its own elements. */
  lemma StopOnlyAtTop<A>(e: Nested<A>, level: Option<nat>, stop: Nested<A> -> bool, stop': Nested<A> -> bool)
    requires !stop(e) && !stop'(e)
    ensures FlattenWith([e], level, stop) == FlattenWith([e], level, stop')
    ensures FlattenWith([e], level, stop) == if Positive(level) && !e.Atom? then Flatten(Children(e), Pred(level)) else [e]
  {
    assert [e][1..] == [];
  }

  /** An inner tuple that `stop` would keep whole is flattened anyway. */
  lemma InnerStopIgnored<A>(a: A)
    ensures var stop := (x: Nested<A>) => x.List? && |x.items| == 1 && x.items[0].Atom?;
      stop(List([Atom(a)])) && FlattenWith([List([List([Atom(a)])])], Some(2), stop) == [Atom(a)]
  {
    var stop := (x: Nested<A>) => x.List? && |x.items| == 1 && x.items[0].Atom?;
    StopOnlyAtTop(List([List([Atom(a)])]), Some(2), stop, stop);
    FlattenSingle(List([Atom(a)]), Some(1));
    FlattenSingle(Atom(a), Some(0));
  }

  /** Leaves in order: what an unlimited flatten yields. */
  function Leaves<A>(xs: seq<Nested<A>>): seq<Nested<A>>
    decreases SizeAll(xs)
  {
    if xs == [] then []
    else
      assert SizeAll(xs[1..]) < SizeAll(xs);
      match xs[0]
      case List(items) =>
        assert SizeAll(items) < Size(xs[0]) <= SizeAll(xs);
        Leaves(items) + Leaves(xs[1..])
      case _ => [xs[0]] + Leaves(xs[1..])
  }

  predicate IsText<A>(e: Nested<A>) {
    e.Text?
  }

  /** With the default `stop_at_types`, both definitions agree. */
  lemma {:induction false} DefaultStop<A>(xs: seq<Nested<A>>, level: Option<nat>)
    ensures FlattenWith(xs, level, IsText) == Flatten(xs, level)
    decreases |xs|
  {
    if xs != [] {
      DefaultStop(xs[1..], level);
    }
  }

  /** At level 0 nothing changes. */
  lemma {:induction false} FlattenLevelZero<A>(xs: seq<Nested<A>>)
    ensures Flatten(xs, Some(0)) == xs
    decreases |xs|
  {
    if xs != [] {
      FlattenLevelZero(xs[1..]);
      assert xs == [xs[0]] + xs[1..];
    }
  }

  /** Flattening works element by element. */
  lemma {:induction false} FlattenAppend<A>(a: seq<Nested<A>>, b: seq<Nested<A>>, level: Option<nat>)
    ensures Flatten(a + b, level) == Flatten(a, level) + Flatten(b, level)
    decreases |a|
  {
    if a == [] {
      assert a + b == b;
    } else {
      assert (a + b)[0] == a[0];
      assert (a + b)[1..] == a[1..] + b;
      FlattenAppend(a[1..], b, level);
    }
  }

  /** An unlimited flatten yields exactly the leaves: strings and
      non-iterables, in order, and no iterable other than a string. */
  lemma {:induction false} FlattenUnlimited<A>(xs: seq<Nested<A>>)
    ensures Flatten(xs, None) == Leaves(xs)
    ensures forall i :: 0 <= i < |Flatten(xs, None)| ==> !Flatten(xs, None)[i].List?
    decreases SizeAll(xs)
  {
    if xs != [] {
      assert Size(xs[0]) <= SizeAll(xs);
      FlattenUnlimited(xs[1..]);
      if xs[0].List? {
        FlattenUnlimited(xs[0].items);
      }
    }
  }

  /** Flattening by `a` levels and then by `b` levels is flattening by
      `a + b` levels. */
  lemma {:induction false} FlattenLevels<A>(xs: seq<Nested<A>>, a: nat, b: nat)
    ensures Flatten(Flatten(xs, Some(a)), Some(b)) == Flatten(xs, Some(a + b))
    decreases SizeAll(xs)
  {
    if xs != [] {
      var e := xs[0];
      assert Size(e) <= SizeAll(xs);
      var head := if a > 0 && e.List? then Flatten(e.items, Some(a - 1)) else [e];
      assert Flatten(xs, Some(a)) == head + Flatten(xs[1..], Some(a));
      FlattenAppend(head, Flatten(xs[1..], Some(a)), Some(b));
      FlattenLevels(xs[1..], a, b);
      if a > 0 && e.List? {
        FlattenLevels(e.items, a - 1, b);
      } else {
        FlattenSingle(e, Some(b));
        if a == 0 && e.List? {
          FlattenLevelZero(xs);
        }
      }
    }
  }

  lemma FlattenSingle<A>(e: Nested<A>, level: Option<nat>)
    ensures Flatten([e], level) == (if Positive(level) && e.List? then Flatten(e.items, Pred(level)) else [e])
  {
    assert [e][1..] == [];
  }

  /** One level of flattening undoes one level of `chunkify`. */
  lemma {:induction false} FlattenTuples<A>(cs: seq<seq<Nested<A>>>)
    ensures Flatten(Tuples(cs), Some(1)) == Concat(cs)
    decreases |cs|
  {
    if cs != [] {
      assert Tuples(cs)[1..] == Tuples(cs[1..]);
      FlattenTuples(cs[1..]);
      FlattenLevelZero(cs[0]);
    }
  }

  /** `reshape` followed by a flatten of as many levels as the spec has gives
      back the input, whatever its elements are. */
  lemma {:induction false} ReshapeThenFlatten<A>(xs: seq<Nested<A>>, spec: seq<int>)
    requires forall i :: 0 <= i < |spec| ==> spec[i] >= 1
    ensures Reshape(xs, spec).Success?
    ensures Flatten(Reshape(xs, spec).value, Some(|spec|)) == xs
    decreases |spec|
  {
    if spec == [] {
      FlattenLevelZero(xs);
    } else {
      var ts := Tuples(Chunks(xs, spec[0]));
      ReshapeThenFlatten(ts, spec[1..]);
      var r := Reshape(ts, spec[1..]).value;
      FlattenLevels(r, |spec| - 1, 1);
      FlattenTuples(Chunks(xs, spec[0]));
    }
  }

  // ---------------------------------------------------------------------
  // igrouped.

  /** `zip(*[iter(xs)] * n)`: the same iterator zipped with itself `n` times
      yields full groups only; for `n < 1` there is nothing to zip. */
  function Grouped<T>(xs: seq<T>, n: int): seq<seq<T>>
    decreases |xs|
  {
    if n < 1 || |xs| < n then [] else [xs[..n]] + Grouped(xs[n..], n)
  }

  /** The groups are the chunks of `chunkify` without a short last one. */
  lemma {:induction false} GroupedIsFullChunks<T>(xs: seq<T>, n: nat)
    requires n >= 1
    ensures var cs := Chunks(xs, n);
      Grouped(xs, n) == if cs != [] && |cs[|cs| - 1]| < n then cs[..|cs| - 1] else cs
    decreases |xs|
  {
    if |xs| > n {
      GroupedIsFullChunks(xs[n..], n);
      var rest := Chunks(xs[n..], n);
      assert rest != [];
      assert Chunks(xs, n) == [xs[..n]] + rest;
      assert ([xs[..n]] + rest)[..|rest|] == [xs[..n]] + rest[..|rest| - 1];
    } else if |xs| == n {
      assert xs[n..] == [];
      assert xs[..n] == xs;
    }
  }

  /** The groups cover a prefix of the input that is shorter by less than
      one group. */
  lemma {:induction false} GroupedCoversPrefix<T>(xs: seq<T>, n: nat)
    requires n >= 1
    ensures Concat(Grouped(xs, n)) <= xs
    ensures |xs| - |Concat(Grouped(xs, n))| < n
    ensures forall i :: 0 <= i < |Grouped(xs, n)| ==> |Grouped(xs, n)[i]| == n
    decreases |xs|
  {
    if |xs| >= n {
      GroupedCoversPrefix(xs[n..], n);
      assert xs == xs[..n] + xs[n..];
    }
  }

  // ---------------------------------------------------------------------
  // The receiver splice of `wrapped`.

  function Min(a: nat, b: nat): nat {
    if a <= b then a else b
  }

  /** `[*args[:self_index], receiver, *args[self_index:]]`; a slice bound
      past the end is clamped to the length. */
  function Splice<T>(args: seq<T>, receiver: T, selfIndex: nat): (r: seq<T>)
    ensures |r| == |args| + 1
    ensures r[Min(selfIndex, |args|)] == receiver
    ensures r[..Min(selfIndex, |args|)] + r[Min(selfIndex, |args|) + 1..] == args
  {
    var k := Min(selfIndex, |args|);
    assert args == args[..k] + args[k..];
    args[..k] + [receiver] + args[k..]
  }
}

=== FILE: legacy.dfy ===
/** `fluentpy.py`, the older single-module version of the library: its own
    `wrap` with an explicit `chain` for wrappers of `None`, `Wrapper.self`,
    `Callable.__call__`, `Callable.curry` with the simpler `merge_args`, and
    the `Each` class whose operators are curried `operator` functions.
    Dispatch order is the same as in the package (`Dispatch.Classify`). */
module Legacy {
  import opened Wrappers
  import opened Dispatch
  import opened Curry
  import CurrySpec
  import Dict
  import Each
  import Iterables
  import Chain

  // ---------------------------------------------------------------------
  // Wrappers with a chain.

  /** A wrapper: its value (None for Python's `None`), the `chain` it falls
      back to when the value is `None`, the class `wrap` picked, and the
      wrapper it was reached from. */
  datatype LNode = LNode(value: Option<Chain.Obj>, chain: Option<Chain.Obj>, kind: Kind, previous: Option<LNode>)

  datatype LInput = LRaw(payload: Option<Chain.Obj>) | LWrapped(node: LNode)

  datatype LegacyError =
    | CannotChainOffNone                   // Wrapper.__init__
    | NotCallable                          // only Callable defines __call__
    | NotEnough(need: int, got: nat)
    | SplatMisplaced
    | NoMethodName                         // each.call(...) without a method name

  /** What `Wrapper.__init__` asserts of every wrapper, and so of every
      wrapper on its `previous` chain. */
  predicate Valid(n: LNode) {
    (n.value.Some? || n.chain.Some?) && (n.previous.Some? ==> Valid(n.previous.value))
  }

  /** `n.self.unwrap`: the value, or the chain when the value is `None`. */
  function Resolve(n: LNode): (r: Option<Chain.Obj>)
    requires Valid(n)
    ensures r.Some?
    ensures n.value.Some? ==> r == n.value
  {
    if n.value.Some? then n.value else n.chain
  }

  /** `wrap(wrapped, previous=previous, chain=chain)`. Without a chain, a
      wrapper of `None` on top of a previous wrapper chains off
      `previous.self.unwrap`; the class is then chosen by the chain. */
  function LegacyWrap(x: LInput, previous: Option<LNode>, chain: Option<Chain.Obj>): (r: Result<LNode, LegacyError>)
    requires previous.Some? ==> Valid(previous.value)
    ensures x.LWrapped? ==> r == Success(x.node)
    ensures x.LRaw? ==> (r.Success? <==> x.payload.Some? || chain.Some? || previous.Some?)
    ensures x.LRaw? && r.Success? ==>
      && r.value.value == x.payload
      && r.value.previous == previous
      && Valid(r.value)
      && r.value.kind == Chain.KindOf(Resolve(r.value))
    ensures x.LRaw? && r.Success? && x.payload.None? && chain.None? ==>
      Valid(r.value) && Resolve(r.value) == Resolve(previous.value)
    ensures r.Failure? ==> r.error == CannotChainOffNone
  {
    match x
    case LWrapped(n) => Success(n)
    case LRaw(v) =>
      var ch := if v.None? && chain.None? && previous.Some? then Resolve(previous.value) else chain;
      var decider := if v.None? && ch.Some? then ch else v;
      if v.None? && ch.None? then Failure(CannotChainOffNone)
      else Success(LNode(v, ch, Chain.KindOf(decider), previous))
  }


  /** `.self`: the value, or the chain when the value is `None`, wrapped
      again with this wrapper as `previous`. */
  function LSelf(n: LNode): (r: LNode)
    requires Valid(n)
    ensures Valid(r)
    ensures r.value == Resolve(n) && r.previous == Some(n)
    ensures r.kind == Chain.KindOf(Resolve(n))
  {
    LegacyWrap(LRaw(Resolve(n)), Some(n), None).value
  }

  /** A forwarded access returning `result` (`wrapped(getattr)` and every
      other `@wrapped` method): wrapped with `previous=self` and no chain. */
  function LForward(n: LNode, result: Option<Chain.Obj>): (r: LNode)
    requires Valid(n)
    ensures Valid(r) && r.value == result && r.previous == Some(n)
    ensures result.None? ==> Resolve(r) == Resolve(n)
  {
    LegacyWrap(LRaw(result), Some(n), None).value
  }

  /** `Callable.__call__` returning `result`: the chain is the resolved
      value of the wrapper before the callable (the receiver of a method).
      A `Callable` wrapper of `None` (its class chosen by a callable chain)
      calls `None` itself, which raises. */
  function LegacyCall(n: LNode, result: Option<Chain.Obj>): (r: Result<LNode, LegacyError>)
    requires Valid(n)
    ensures r.Success? <==> n.kind == CallableKind && n.value.Some?
    ensures r.Failure? ==> r.error == NotCallable
    ensures r.Success? ==> Valid(r.value) && r.value.value == result && r.value.previous == Some(n)
    ensures r.Success? && result.None? ==>
      Resolve(r.value) == if n.previous.Some? then Resolve(n.previous.value) else Resolve(n)
  {
    if n.kind != CallableKind || n.value.None? then Failure(NotCallable)
    else
      var chain := if n.previous.None? then None else LSelf(n.previous.value).value;
      LegacyWrap(LRaw(result), Some(n), chain)
  }

  /** Smalltalk-style cascading: a method that returns `None` leaves `.self`
      at its receiver, so the next call goes to the same object. */
  lemma LegacyCascade(x: LNode, meth: Chain.Obj)
    requires Valid(x)
    requires Classify(meth.caps) == CallableKind
    ensures LegacyCall(LForward(x, Some(meth)), None).Success?
    ensures LSelf(LegacyCall(LForward(x, Some(meth)), None).value).value == Resolve(x)
  {
    var m := LForward(x, Some(meth));
    assert m.kind == CallableKind;
  }

  /** `tee(function)`: the function is called once, with this wrapper, for
      its effect; its answer is dropped and the wrapper itself is returned,
      so chaining goes on from the same value. `calls` lists the arguments
      of the calls made so far. */
  function Tee(n: LNode, calls: seq<LNode>): (r: (LNode, seq<LNode>))
    requires Valid(n)
    ensures r.0 == n && Valid(r.0) && Resolve(r.0) == Resolve(n)
    ensures |r.1| == |calls| + 1 && r.1[..|calls|] == calls && r.1[|calls|] == n
  {
    (n, calls + [n])
  }

  /** Chaining after `tee` goes on exactly as without it: `.self`, a
      forwarded access and a call see the same wrapper, and the function saw
      that wrapper too. */
  lemma TeeIsTransparent(n: LNode, calls: seq<LNode>, result: Option<Chain.Obj>)
    requires Valid(n)
    ensures Valid(Tee(n, calls).0)
    ensures LSelf(Tee(n, calls).0) == LSelf(n)
    ensures LForward(Tee(n, calls).0, result) == LForward(n, result)
    ensures LegacyCall(Tee(n, calls).0, result) == LegacyCall(n, result)
    ensures Tee(n, calls).1 == calls + [n]
  {
  }

  /** A wrapper of `None` exists only with something to chain off. */
  lemma NothingToChainOff()
    ensures LegacyWrap(LRaw(None), None, None) == Failure(CannotChainOffNone)
  {
  }

  // ---------------------------------------------------------------------
  // merge_args

  /** Which number the "Need at least %i" message reports. */
  datatype Report =
    | AsWritten   // placeholder_index, the cursor
    | Intended    // required_number + 1

  function Need(report: Report, required: nat, cursor: nat): int {
    match report
    case AsWritten => cursor
    case Intended => required + 1
  }

  /** What one template entry contributes, given the placeholders before it
      (`placeholder_index` once it has been incremented for this entry). */
  function EntryPiece<V>(report: Report, e: Entry<V>, isLast: bool, cursor: nat, args: seq<V>): Result<seq<V>, LegacyError> {
    match e
    case Literal(v) => Success([v])
    case Hole =>
      if cursor < |args| then Success([args[cursor]])
      else Failure(NotEnough(Need(report, cursor, cursor), |args|))
    case Index(k) =>
      if k < |args| then Success([args[k]])
      else Failure(NotEnough(Need(report, k, cursor), |args|))
    case Splat =>
      if isLast then Success(Drop(args, cursor)) else Failure(SplatMisplaced)
  }

  /** The loop of `merge_args` from entry `i` on, `cursor` placeholders
      having been met. */
  function MergePass<V>(report: Report, template: seq<Entry<V>>, args: seq<V>, i: nat, cursor: nat)
    : Result<seq<V>, LegacyError>
    requires i <= |template|
    decreases |template| - i
  {
    if i == |template| then Success([])
    else
      var piece :- EntryPiece(report, template[i], i + 1 == |template|, cursor, args);
      var rest :- MergePass(report, template, args, i + 1, if template[i].IsPlaceholder() then cursor + 1 else cursor);
      Success(piece + rest)
  }

  /** `merge_args(args_and_placeholders, args)` with the message as written. */
  function MergeArgsAsWritten<V>(template: seq<Entry<V>>, args: seq<V>): Result<seq<V>, LegacyError> {
    MergePass(AsWritten, template, args, 0, 0)
  }

  /** `merge_args` with the message reporting how many arguments are needed. */
  function MergeArgs<V>(template: seq<Entry<V>>, args: seq<V>): Result<seq<V>, LegacyError> {
    MergePass(Intended, template, args, 0, 0)
  }

  /** The call a curried function makes: merged positional arguments and
      `dict(default_kwargs, **actual_kwargs)`. */
  function Curried<V>(template: seq<Entry<V>>, defaultKwargs: Dict.Pairs<V>, args: seq<V>, kwargs: Dict.Pairs<V>)
    : (r: Result<(seq<V>, Dict.Pairs<V>), LegacyError>)
    ensures r.Success? <==> OkFrom(template, |args|, 0)
    ensures r.Success? ==> r.value.0 == Pieces(template, args, 0)
    ensures r.Failure? ==> MergeArgs(template, args).Failure? && r.error == MergeArgs(template, args).error
    ensures r.Success? ==> Dict.UniqueKeys(r.value.1)
    ensures r.Success? ==> forall k :: Dict.HasKey(r.value.1, k) <==> Dict.HasKey(defaultKwargs, k) || Dict.HasKey(kwargs, k)
    ensures r.Success? ==> forall k :: Dict.HasKey(kwargs, k) ==> Dict.Get(r.value.1, k) == Some(Dict.LastValue(kwargs, k))
    ensures r.Success? ==> forall k :: Dict.HasKey(defaultKwargs, k) && !Dict.HasKey(kwargs, k) ==>
      Dict.Get(r.value.1, k) == Some(Dict.LastValue(defaultKwargs, k))
  {
    MergeArgsSpec(Intended, template, args);
    var merged :- MergeArgs(template, args);
    var kw := Dict.FromPairs(defaultKwargs + kwargs);
    forall k | Dict.HasKey(defaultKwargs, k) || Dict.HasKey(kwargs, k)
      ensures Dict.HasKey(kwargs, k) ==> Dict.Get(kw, k) == Some(Dict.LastValue(kwargs, k))
      ensures !Dict.HasKey(kwargs, k) ==> Dict.Get(kw, k) == Some(Dict.LastValue(defaultKwargs, k))
    {
      Dict.MergeOverrides(defaultKwargs, kwargs, k);
    }
    Success((merged, kw))
  }

  // The declarative reading of merge_args.

  /** Whether the entry at `j` can be resolved against `n` arguments. */
  predicate LegacyOk<V>(template: seq<Entry<V>>, j: nat, n: nat)
    requires j < |template|
  {
    match template[j]
    case Literal(_) => true
    case Hole => CurrySpec.CursorAt(template, j) < n
    case Index(k) => k < n
    case Splat => j + 1 == |template|
  }

  predicate OkFrom<V>(template: seq<Entry<V>>, n: nat, lo: nat) {
    forall j :: lo <= j < |template| ==> LegacyOk(template, j, n)
  }

  predicate FirstBadFrom<V>(template: seq<Entry<V>>, n: nat, lo: nat, j: nat) {
    && lo <= j < |template|
    && !LegacyOk(template, j, n)
    && forall k :: lo <= k < j ==> LegacyOk(template, k, n)
  }

  /** The error the entry at `j` raises. */
  function ErrorAt<V>(report: Report, template: seq<Entry<V>>, j: nat, n: nat): LegacyError
    requires j < |template|
  {
    var c := CurrySpec.CursorAt(template, j);
    match template[j]
    case Hole => NotEnough(Need(report, c, c), n)
    case Index(k) => NotEnough(Need(report, k, c), n)
    case _ => SplatMisplaced
  }

  /** What the entry at `j` stands for: itself, the argument at the cursor,
      the argument at its index, or all arguments from the cursor on. */
  function Piece<V>(template: seq<Entry<V>>, j: nat, args: seq<V>): seq<V>
    requires j < |template|
  {
    var c := CurrySpec.CursorAt(template, j);
    match template[j]
    case Literal(v) => [v]
    case Hole => if c < |args| then [args[c]] else []
    case Index(k) => if k < |args| then [args[k]] else []
    case Splat => Drop(args, c)
  }

  /** The pieces of entries `i..` in order. */
  function Pieces<V>(template: seq<Entry<V>>, args: seq<V>, i: nat): seq<V>
    requires i <= |template|
    decreases |template| - i
  {
    if i == |template| then [] else Piece(template, i, args) + Pieces(template, args, i + 1)
  }

  lemma {:induction false} PassSpec<V>(report: Report, template: seq<Entry<V>>, args: seq<V>, i: nat, cursor: nat)
    requires i <= |template|
    requires cursor == CurrySpec.CursorAt(template, i)
    ensures MergePass(report, template, args, i, cursor).Success? <==> OkFrom(template, |args|, i)
    ensures MergePass(report, template, args, i, cursor).Success? ==>
      MergePass(report, template, args, i, cursor).value == Pieces(template, args, i)
    ensures MergePass(report, template, args, i, cursor).Failure? ==>
      exists j :: FirstBadFrom(template, |args|, i, j)
        && MergePass(report, template, args, i, cursor).error == ErrorAt(report, template, j, |args|)
    decreases |template| - i
  {
    if i < |template| {
      CurrySpec.CountStep(template, i);
      var next := if template[i].IsPlaceholder() then cursor + 1 else cursor;
      PassSpec(report, template, args, i + 1, next);
      var r := MergePass(report, template, args, i, cursor);
      if LegacyOk(template, i, |args|) {
        if r.Failure? {
          var j :| FirstBadFrom(template, |args|, i + 1, j)
            && MergePass(report, template, args, i + 1, next).error == ErrorAt(report, template, j, |args|);
          assert FirstBadFrom(template, |args|, i, j);
        }
      } else {
        assert FirstBadFrom(template, |args|, i, i);
      }
    }
  }

  /** `merge_args` succeeds exactly when every entry can be resolved, then
      yields the pieces of all entries in order; otherwise it raises the
      error of the first entry that cannot. */
  lemma MergeArgsSpec<V>(report: Report, template: seq<Entry<V>>, args: seq<V>)
    ensures MergePass(report, template, args, 0, 0).Success? <==> OkFrom(template, |args|, 0)
    ensures MergePass(report, template, args, 0, 0).Success? ==>
      MergePass(report, template, args, 0, 0).value == Pieces(template, args, 0)
    ensures MergePass(report, template, args, 0, 0).Failure? ==>
      exists j :: FirstBadFrom(template, |args|, 0, j)
        && MergePass(report, template, args, 0, 0).error == ErrorAt(report, template, j, |args|)
  {
    assert template[..0] == [];
    PassSpec(report, template, args, 0, 0);
  }

  predicate NoSplat<V>(template: seq<Entry<V>>) {
    forall j :: 0 <= j < |template| ==> !template[j].Splat?
  }

  lemma {:induction false} PiecesWithoutSplat<V>(template: seq<Entry<V>>, args: seq<V>, extra: seq<V>, i: nat)
    requires i <= |template|
    requires NoSplat(template)
    requires OkFrom(template, |args|, i)
    ensures |Pieces(template, args, i)| == |template| - i
    ensures Pieces(template, args + extra, i) == Pieces(template, args, i)
    decreases |template| - i
  {
    if i < |template| {
      PiecesWithoutSplat(template, args, extra, i + 1);
      var c := CurrySpec.CursorAt(template, i);
      assert LegacyOk(template, i, |args|);
      match template[i]
      case Literal(_) =>
      case Hole => assert (args + extra)[c] == args[c];
      case Index(k) => assert (args + extra)[k] == args[k];
    }
  }

  /** Unlike the package's merge, arguments that no placeholder claims are
      dropped: without `_args` the result has one argument per entry, and
      extra arguments change nothing. */
  lemma ExtraArgumentsDropped<V>(template: seq<Entry<V>>, args: seq<V>, extra: seq<V>)
    requires NoSplat(template)
    requires MergeArgs(template, args).Success?
    ensures |MergeArgs(template, args).value| == |template|
    ensures MergeArgs(template, args + extra) == MergeArgs(template, args)
  {
    MergeArgsSpec(Intended, template, args);
    MergeArgsSpec(Intended, template, args + extra);
    PiecesWithoutSplat(template, args, extra, 0);
    assert OkFrom(template, |args + extra|, 0) by {
      forall j | 0 <= j < |template|
        ensures LegacyOk(template, j, |args + extra|)
      {
        assert LegacyOk(template, j, |args|);
      }
    }
  }

  /** With the message fixed, "Need at least `need`, got `got`" always names
      more arguments than were given. */
  lemma NeedExceedsGot<V>(template: seq<Entry<V>>, args: seq<V>)
    requires MergeArgs(template, args).Failure?
    requires MergeArgs(template, args).error.NotEnough?
    ensures MergeArgs(template, args).error.got == |args|
    ensures MergeArgs(template, args).error.need > |args|
  {
    MergeArgsSpec(Intended, template, args);
  }

  /** As written the message can contradict itself: `curry(_, _)('foo')`
      reports "Need at least 1, got 1", and `curry(_._3)('foo')` reports
      "Need at least 0, got 1". */
  lemma NeedAsWrittenCanUnderstate(v: Chain.Obj)
    ensures MergeArgsAsWritten([Hole, Hole], [v]) == Failure(NotEnough(1, 1))
    ensures MergeArgsAsWritten([Index(3)], [v]) == Failure(NotEnough(0, 1))
    ensures MergeArgs([Hole, Hole], [v]) == Failure(NotEnough(2, 1))
    ensures MergeArgs([Index(3)], [v]) == Failure(NotEnough(4, 1))
  {
  }

  // ---------------------------------------------------------------------
  // Each

  /** The template of `wrap(op).curry(wrap, *others)`: one hole, then the
      other operands (what a merge makes of it: `OperatorMergeOne`). */
  function OperatorTemplate<V>(others: seq<V>): seq<Entry<V>> {
    [Hole] + seq(|others|, i requires 0 <= i < |others| => Literal(others[i]))
  }

  /** `x -> op(x, *others)`, built as `wrap(op).curry(wrap, *others)`. */
  function LegacyOperator<V>(host: Each.Host<V>, opName: string, others: seq<V>, args: seq<V>)
    : Result<V, LegacyError>
  {
    var merged :- MergeArgs(OperatorTemplate(others), args);
    OperatorMergeLength(others, args);
    Success(host.op(opName, merged[0], merged[1..]))
  }

  /** A successful merge of the operator template has one value per entry,
      so there is a first argument to apply the operator to. */
  lemma OperatorMergeLength<V>(others: seq<V>, args: seq<V>)
    ensures MergeArgs(OperatorTemplate(others), args).Success? ==>
      |MergeArgs(OperatorTemplate(others), args).value| == |others| + 1
  {
    var t := OperatorTemplate(others);
    MergeArgsSpec(Intended, t, args);
    if MergeArgs(t, args).Success? {
      PiecesWithoutSplat(t, args, [], 0);
    }
  }

  lemma {:induction false} OperatorPieces<V>(others: seq<V>, x: V, i: nat)
    requires 1 <= i <= |others| + 1
    ensures Pieces(OperatorTemplate(others), [x], i) == others[i - 1..]
    decreases |others| + 1 - i
  {
    if i < |others| + 1 {
      OperatorPieces(others, x, i + 1);
    }
  }

  /** With one argument the template resolves to that argument followed by
      the other operands. */
  lemma OperatorMergeOne<V>(others: seq<V>, x: V)
    ensures NoSplat(OperatorTemplate(others))
    ensures MergeArgs(OperatorTemplate(others), [x]) == Success([x] + others)
  {
    var t := OperatorTemplate(others);
    assert t[..0] == [];
    assert OkFrom(t, 1, 0) by {
      forall j | 0 <= j < |t|
        ensures LegacyOk(t, j, 1)
      {
        if j == 0 {
          assert t[..0] == [];
        }
      }
    }
    MergeArgsSpec(Intended, t, [x]);
    OperatorPieces(others, x, 1);
    assert Pieces(t, [x], 0) == [x] + Pieces(t, [x], 1);
  }

  /** Without an argument the hole cannot be filled. */
  lemma OperatorMergeNone<V>(others: seq<V>)
    ensures MergeArgs(OperatorTemplate(others), []) == Failure(NotEnough(1, 0))
  {
    var t := OperatorTemplate(others);
    assert t[..0] == [];
    assert !LegacyOk(t, 0, 0);
    MergeArgsSpec(Intended, t, []);
    var j :| FirstBadFrom(t, 0, 0, j) && MergeArgs(t, []).error == ErrorAt(Intended, t, j, 0);
    assert j == 0;
  }

  /** As written, the no-argument call of an operator function reports
      that it needs no argument at all. */
  lemma OperatorMergeNoneAsWritten<V>(others: seq<V>)
    ensures MergeArgsAsWritten(OperatorTemplate(others), []) == Failure(NotEnough(0, 0))
  {
    var t := OperatorTemplate(others);
    assert t[..0] == [];
    assert !LegacyOk(t, 0, 0);
    MergeArgsSpec(AsWritten, t, []);
    var j :| FirstBadFrom(t, 0, 0, j) && MergeArgsAsWritten(t, []).error == ErrorAt(AsWritten, t, j, 0);
    assert j == 0;
  }

  /** An operator function applies the operator to its first argument and
      ignores any further ones; without an argument it fails. */
  lemma OperatorApplies<V>(host: Each.Host<V>, opName: string, others: seq<V>, x: V, extra: seq<V>)
    ensures LegacyOperator(host, opName, others, [x] + extra) == Success(host.op(opName, x, others))
    ensures LegacyOperator(host, opName, others, []) == Failure(NotEnough(1, 0))
  {
    OperatorMergeOne(others, x);
    OperatorMergeNone(others);
    ExtraArgumentsDropped(OperatorTemplate(others), [x], extra);
    assert ([x] + others)[1..] == others;
  }

  /** The plain functions `Each` hands out. */
  datatype LegacyFn<V> =
    | AttrGetter(name: string)                               // operator.attrgetter(name)
    | ItemGetter(key: V)                                     // operator.itemgetter(key)
    | MethodCaller(methodName: string, args: seq<V>, kwargs: Dict.Pairs<V>)   // operator.methodcaller

  function ApplyFn<V>(host: Each.Host<V>, f: LegacyFn<V>, x: V): V {
    match f
    case AttrGetter(name) => host.getattr(x, name)
    case ItemGetter(key) => host.getitem(x, key)
    case MethodCaller(m, args, kwargs) => host.call(host.getattr(x, m), args, kwargs)
  }

  /** `each.call`: a `MethodCallerConstructor` remembering the last
      attribute name accessed on it. */
  datatype Caller = Caller(methodName: Option<string>)

  /** What attribute access on `each` answers: `each.call`, one of the
      wrapper's own attributes (`inherited`), or an attrgetter. */
  datatype EachAccess<V> = CallerOf(caller: Caller) | OwnAttr(name: string) | Getter(fn: LegacyFn<V>)

  function EachAttr<V>(inherited: set<string>, name: string): (r: EachAccess<V>)
    ensures r.CallerOf? <==> name == "call"
    ensures r.CallerOf? ==> r.caller.methodName.None?
    ensures r.OwnAttr? <==> name != "call" && name in inherited
    ensures r.OwnAttr? ==> r.name == name
    ensures r.Getter? <==> name != "call" && name !in inherited
    ensures r.Getter? ==> r.fn == AttrGetter(name)
  {
    if name == "call" then CallerOf(Caller(None))
    else if name in inherited then OwnAttr(name)
    else Getter(AttrGetter(name))
  }

  /** The class body of `Each` as written: its loop over `dir(operator)`
      leaves its variable `name` behind as a class attribute (holding the
      last name listed, `'xor'`), so `each.name` is that string and not an
      attrgetter. */
  function EachAttrAsWritten<V>(inherited: set<string>, name: string): (r: EachAccess<V>)
    ensures name != "name" ==> r == EachAttr(inherited, name)
    ensures name == "name" ==> r == OwnAttr("name")
  {
    EachAttr(inherited + {"name"}, name)
  }

  /** `each.name`: as written the leaked loop variable, as intended (and as
      the package's `EachWrapper` does by deleting it) an attrgetter. */
  lemma LoopNameLeaks<V>(host: Each.Host<V>, x: V)
    ensures EachAttrAsWritten<V>({}, "name") == OwnAttr("name")
    ensures EachAttr<V>({}, "name").Getter?
    ensures ApplyFn(host, EachAttr<V>({}, "name").fn, x) == host.getattr(x, "name")
  {
  }

  /** `each[key]`: an itemgetter. */
  function EachItem<V>(key: V): (f: LegacyFn<V>)
    ensures f.ItemGetter? && f.key == key
  {
    ItemGetter(key)
  }

  /** `caller.name`: the name to call becomes `name` (the last name
      accessed wins: `MethodCallerUsesLastName`). */
  function CallerAttr(c: Caller, name: string): Caller {
    Caller(Some(name))
  }

  /** `caller(*args, **kwargs)`: a methodcaller, once a name was given. */
  function CallerCall<V>(c: Caller, args: seq<V>, kwargs: Dict.Pairs<V>): (r: Result<LegacyFn<V>, LegacyError>)
    ensures r.Failure? <==> c.methodName.None?
    ensures r.Failure? ==> r.error == NoMethodName
    ensures r.Success? ==> r.value == MethodCaller(c.methodName.value, args, kwargs)
  {
    if c.methodName.None? then Failure(NoMethodName) else Success(MethodCaller(c.methodName.value, args, kwargs))
  }

  /** What the functions `Each` hands out compute: `each.name(x)` is
      `x.name` (for a name `Each` does not define), `each[key](x)` is
      `x[key]`, and `each.call.name(*args, **kwargs)(x)` is
      `x.name(*args, **kwargs)`. */
  lemma EachFunctions<V>(host: Each.Host<V>, inherited: set<string>, name: string, key: V,
                         args: seq<V>, kwargs: Dict.Pairs<V>, x: V)
    requires name != "call" && name !in inherited
    ensures EachAttr<V>(inherited, name).Getter?
    ensures ApplyFn(host, EachAttr<V>(inherited, name).fn, x) == host.getattr(x, name)
    ensures ApplyFn(host, EachItem(key), x) == host.getitem(x, key)
    ensures CallerCall(CallerAttr(EachAttr<V>(inherited, "call").caller, name), args, kwargs).Success?
    ensures ApplyFn(host, CallerCall(CallerAttr(EachAttr<V>(inherited, "call").caller, name), args, kwargs).value, x)
      == host.call(host.getattr(x, name), args, kwargs)
  {
  }

  /** `each.call.a.b(args)` calls `b`: the last name accessed wins; and
      `each.call(args)` without a name fails. */
  lemma MethodCallerUsesLastName<V>(host: Each.Host<V>, a: string, b: string, args: seq<V>, x: V)
    ensures var c := CallerAttr(CallerAttr(EachAttr<V>({}, "call").caller, a), b);
      ApplyFn(host, CallerCall(c, args, []).value, x) == host.call(host.getattr(x, b), args, [])
    ensures CallerCall<V>(EachAttr<V>({}, "call").caller, args, []) == Failure(NoMethodName)
  {
  }
}

=== FILE: wrappers.dfy ===
/** Failure-compatible Option and Result types used throughout the model.
    A Python `None` is `None`; a raised AssertionError is a `Failure`. */
module Wrappers {

  datatype Option<+T> = None | Some(value: T) {
    function GetOr(default: T): T {
      match this
      case Some(v) => v
      case None => default
    }
  }

  datatype Result<+R, +E> = Success(value: R) | Failure(error: E) {
    predicate IsFailure() {
      Failure?
    }

    function PropagateFailure<U>(): Result<U, E>
      requires Failure?
    {
      Failure(error)
    }

    function Extract(): R
      requires Success?
    {
      value
    }
  }
}
